=== FILE: README.md ===
# Focus CRM core, modelled in Dafny

Focus is a CRM. It has a lead list, a shared inbox, multi-workspace accounts and a
visual workflow editor whose flows run on the server. This project models, in
Dafny, the parts of it that decide behaviour:

- **The workflow executor** (`Executor`, `Condition`). `executeWorkflow` walks a
  workflow definition from its trigger node. It runs each node's executor (log,
  delay, send-email, decision, done) against a mutable execution context. It
  reports `start`/`success`/`fail` events and follows edges, a decision's edge by
  its `true`/`false` handle. It stops at a `done` node, at a node without a next
  edge, on cancellation, on a node error, or after the safe step limit. Decision
  conditions are a small language: `{{context.path}}` placeholders are replaced by
  JSON, then the text is matched against `left op right` and the two literals are
  compared with JavaScript's loose `==` and `!=` and its relational `>`, `<`, `>=` and `<=`.
  `ExecutorProperties` proves what every run guarantees.
  `ConditionExamples` and `ExecutorExamples` work out concrete conditions and
  flows.
- **The run consumer** (`Runner`). `useWorkflowRunner` builds the run URL. It
  resets the canvas nodes and then consumes the server-sent events. `node` events
  update one node's runtime state; `finished` resolves, and `error` or a
  transport failure rejects. Every settlement goes through `finalize`, so the run
  settles at most once.
- **The editor utilities** (`EditorTypes`, `FlowUtils`). These cover the node
  registry, creating a canvas node from a schema, handle compatibility, canvas
  connections and translation lookup.
- **The translation script** (`Translations`). `extract_and_merge.py` flattens the
  inline `{he, en, ar}` records of the editor's JSON into dotted keys, merges
  dictionaries recursively and nests the flat keys again.
- **The leads list** (`Leads`). `useLeads` filters by search text, status,
  source, language and city. It sorts by priority (or by date), pages and counts.
- **The inbox store** (`Inbox`). It covers the conversation filters, the message
  cache, the current conversation and the inspector panel.
- **The workspace store and the server's workspace resolution**
  (`WorkspaceStore`, `WorkspaceAuth`). The store holds the memberships, the
  active workspace and its role, and runs the bootstrap reselection rule. The
  server resolves a caller's workspace: the user-id UUID check, then the
  earliest membership, with 401, 403 and 500 on failure.

Shared modules:
- `Values` models JavaScript/JSON values. Objects keep their keys in insertion
  order, as Python dicts do; JavaScript's order differs for array-index keys (see
  "Left out"). Numbers are exact decimals with NaN. It also defines `JSON.stringify`
  and JavaScript's white space, `trim` and `toLowerCase` on ASCII.
- `Filtering` defines `Where` (the model of `Array.prototype.filter`) and
  order-preserving subsequences.

Where the source updates state in place, the model is imperative:
- the execution context (`Executor.ExecutionContext`);
- the run's closure state (`Runner.RunConsumer`);
- the inbox store (`Inbox.InboxStore`);
- the workspace store (`WorkspaceStore.WorkspaceStore`).

The loops of the executor, the registry and the translation script are methods
with loop invariants. Each of them is proved equal to a specification function,
and the properties are lemmas about those functions.

A trigger node returns the input it receives
(`server/utils/workflow/executor.ts:203-205`). For the start node that is the run
input; a trigger reached through an edge passes on the previous node's output.

## Model

| member | source | states |
|---|---|---|
| Condition.GetPathValue | server/utils/workflow/executor.ts:113-116 | an empty path yields undefined |
| Condition.WalkFromFalsy | server/utils/workflow/executor.ts:113-116 | once the walk reaches a falsy value, every further segment yields undefined |
| Condition.PathStopsAtFalsy | server/utils/workflow/executor.ts:113-116 | a path whose prefix reaches a falsy value resolves to undefined |
| Condition.TokenAt | server/utils/workflow/executor.ts:118-122 | a placeholder found at a position ends after it and inside the text |
| Condition.SubstitutePlain | server/utils/workflow/executor.ts:118-122 | a condition without `{{` is left unchanged |
| Condition.SubstituteSingle | server/utils/workflow/executor.ts:118-122 | a condition that is one placeholder becomes the JSON of the value at its trimmed path |
| Condition.SubstituteTokenThenPlain | server/utils/workflow/executor.ts:118-122 | a placeholder followed by plain text: the JSON, then the text unchanged |
| Condition.ParseLiteral | server/utils/workflow/executor.ts:124-138 | each keyword maps to its value exactly when the trimmed text is that keyword; a number exactly for numeric text; a text in matching double or single quotes becomes the text between them (a lone quote becomes empty); any other text stays the trimmed string; never an array or object |
| Condition.IntegerLiteral | server/utils/workflow/executor.ts:124-138 | a decimal integer parses as that integer |
| Condition.NumberTokenRoundTrip | server/utils/workflow/executor.ts:118-138 | a number substituted into a condition parses back to a number of the same value |
| Condition.StringTokenRoundTrip | server/utils/workflow/executor.ts:118-138 | a plain string substituted into a condition parses back to the same string |
| Condition.MatchComparison | server/utils/workflow/executor.ts:143-144 | a result is a reading of the text as `left op right`, there is none exactly when no reading exists, and no reading is tried before the result in the regex's backtracking order (`Before`: greedy leading spaces, lazy left operand, greedy spaces, alternatives in written order, greedy spaces, lazy right operand) |
| Condition.MatchFirst | server/utils/workflow/executor.ts:143-144 | every other reading of the text comes after the one picked, since the backtracking order is total |
| Condition.ArrayToNumber | server/utils/workflow/executor.ts:227 | `Number` of an array: `[]` and a single null or undefined item give 0, a single other item converts as its string, two or more items give NaN |
| Condition.NumberArray | server/utils/workflow/executor.ts:227 | `Number([n])` equals `n` |
| Condition.NaNArray | server/utils/workflow/executor.ts:227 | `Number([NaN])` is NaN |
| Condition.ForeignIsNaN | server/utils/workflow/executor.ts:227 | a text holding a character that no numeric literal can contain converts to NaN |
| Condition.NumberTextToNumber | server/utils/workflow/executor.ts:151-154 | a plain decimal text reads back under `Number` as `parseLiteral` reads it |
| Condition.LooseEqSymmetric | server/utils/workflow/executor.ts:151-154 | JavaScript `==` on the parsed literals is symmetric |
| Condition.EvaluateCondition | server/utils/workflow/executor.ts:140-166 | an empty or non-string condition is false; a true result needs a comparison reading of the substituted text |
| Condition.NoComparisonIsFalse | server/utils/workflow/executor.ts:143-144 | text with no `left op right` reading evaluates to false |
| ConditionExamples.FiveGreaterThanThree | server/utils/workflow/executor.ts:140-166 | "5 > 3" is true |
| ConditionExamples.TwoNotGreaterThanThree | server/utils/workflow/executor.ts:140-166 | "2 > 3" is false |
| ConditionExamples.BananaIsFalse | server/utils/workflow/executor.ts:143-144 | text without an operator is false |
| ConditionExamples.CountAtLeastTen | server/utils/workflow/executor.ts:118-166 | "{{context.current.count}} >= 10" holds when the current value's count is 12 |
| Executor.NodeData | server/utils/workflow/executor.ts:198-201 | a node without data gets an empty object; otherwise the keys are the schema's `defaultData` keys followed by the node's own, an own key reads the node's last value for it and any other key reads the default |
| Executor.DelayMs | server/utils/workflow/executor.ts:227-234 | the wait is NaN exactly when the duration is, and positive exactly when the duration is |
| Executor.LogRecord | server/utils/workflow/executor.ts:215-222 | the log record carries type `log`, the message, level and includeContext as given, the timestamp, and the context snapshot exactly when includeContext is truthy |
| Executor.EmailRecord | server/utils/workflow/executor.ts:248-258 | the side effect carries type `send-email`, the node's `to`, `subject` and `body`, and the timestamp |
| Executor.DelayRecord | server/utils/workflow/executor.ts:235-241 | the log record is a `delay` record holding the duration, the unit and the timestamp as given, and whether the wait was skipped |
| Executor.BuiltInKindsAreNotTriggers | server/utils/workflow/executor.ts:203-205 | no built-in node type counts as a trigger |
| Executor.NodeStep | server/utils/workflow/executor.ts:191-273 | each node type's result and context update: logs and side effects only grow, by at most one entry; triggers, `done` and unknown types pass their input through unchanged; a log node appends a record exactly when the sink does not throw; a delay always logs and waits only outside development for a positive time, failing with 499 when cancelled; send-email adds one side effect, its email record; a decision yields `false` for an empty condition and otherwise `evaluateCondition` of the condition over the context; the appended log record is the node's `LogEntry` |
| Executor.LogStep | server/utils/workflow/executor.ts:208-225 | a log node leaves the side effects and the signal alone; it throws exactly when the `onLog` sink throws on `{level, message}` (level defaulting to `info`), with the sink's error and the context as it was; otherwise exactly the node's log record (`LogEntry`: level `info` and `includeContext` true by default) is appended and the input returned |
| Executor.DelayStep | server/utils/workflow/executor.ts:226-247 | a delay node appends one delay record flagged with the development mode, waits (one signal observation) exactly outside development for a positive time, and fails with 499 only when the signal is aborted during that wait |
| Executor.DecisionStep | server/utils/workflow/executor.ts:261-265 | a decision node changes nothing in the context; it yields `false` for an empty condition and otherwise the verdict of `evaluateCondition` on the condition over the context |
| Executor.ExecutionContext.constructor | server/utils/workflow/executor.ts:308-313 | the context starts with the input as both run input and current value, and no logs or side effects |
| Executor.ExecutionContext.ExecuteNode | server/utils/workflow/executor.ts:191-273 | running a node in place gives exactly the result and context of NodeStep |
| Executor.ExecutionContext.ExecuteLog | server/utils/workflow/executor.ts:208-225 | the in-place log case ends in exactly the result and context of LogStep |
| Executor.ExecutionContext.ExecuteDelay | server/utils/workflow/executor.ts:226-247 | the in-place delay case ends in exactly the result, context and signal count of DelayStep |
| Executor.FirstWithHandle | server/utils/workflow/executor.ts:174-179 | the first edge whose handle matches, or none when none does |
| Executor.ResolveNextEdge | server/utils/workflow/executor.ts:168-183 | no edges give none; a decision follows the first edge whose handle names its boolean (`true` only for the value true), and none when no edge has that handle; other nodes follow the first `out` edge, else their first edge |
| Executor.NodesById | server/utils/workflow/executor.ts:289 | every node id maps to the last node carrying it |
| Executor.OutgoingBySource | server/utils/workflow/executor.ts:290-296 | each source with edges maps to its edges in definition order; no other source is present |
| Executor.StartNode | server/utils/workflow/executor.ts:298-306 | the first trigger node when there is one, else the first node |
| Executor.IndexNodes | server/utils/workflow/executor.ts:289 | the loop builds NodesById |
| Executor.IndexEdges | server/utils/workflow/executor.ts:290-296 | the loop builds OutgoingBySource |
| Executor.ExecuteStep | server/utils/workflow/executor.ts:319-394 | one iteration in place ends in exactly the context, events and outcome of `Step` |
| Executor.Settle | server/utils/workflow/executor.ts:353-419 | events and outcome after a node settles are exactly those of `AfterNode` |
| Executor.Advance | server/utils/workflow/executor.ts:319-420 | an iteration either ends the run or hands over to the next node |
| Executor.ExecuteWorkflow | server/utils/workflow/executor.ts:275-426 | the events and the outcome are exactly those of `Run` |
| ExecutorProperties.CarriedInputAppend | server/utils/workflow/executor.ts:387-393 | the input carried along a run composes over concatenated event runs |
| ExecutorProperties.AfterNodeCases | server/utils/workflow/executor.ts:344-419 | once a node has run, the iteration (`AfterNode`) takes one of the shapes `StepShape` allows; without cancellation a returning node never fails the run |
| ExecutorProperties.StepCases | server/utils/workflow/executor.ts:319-419 | every iteration (`Step`) takes one of the shapes `StepShape` allows: stop before any event when already cancelled, start then fail, start then success and either continue along an edge or stop |
| ExecutorProperties.RunFromShape | server/utils/workflow/executor.ts:319-426 | every run from a step on (`RunFrom`) has paired start/success events, at most one failure at the end, and ends in a way `TraceShape` allows |
| ExecutorProperties.NoAbortNodeReturns | server/utils/workflow/executor.ts:191-273 | without cancellation no node executor throws |
| ExecutorProperties.NoAbortNoFailure | server/utils/workflow/executor.ts:319-426 | without cancellation a run reports no `fail` event |
| ExecutorProperties.ForwardingGraphExhaustsBound | server/utils/workflow/executor.ts:317-426 | a graph of nodes that always forward ends with the 400 step-limit error |
| ExecutorProperties.ImmediateAbort | server/utils/workflow/executor.ts:320-327 | a run whose signal is already raised stops before running the start node |
| ExecutorProperties.RunShape | server/utils/workflow/executor.ts:275-426 | a whole run (`Run`) has bracketed events; it raises 400 for no nodes exactly when there are none, otherwise only the step-limit 400 after `2 × maxSteps` events without a failure; a failed run outputs the input of its last node; and every ending has its cause (`TraceCause`: a success ends with the `success` event of the terminal node it stopped at) |
| ExecutorProperties.NodeStepThrows | server/utils/workflow/executor.ts:208-247 | a node throws only as a log node whose `onLog` sink threw that very error, or as a delay node whose sleep observed the cancellation and threw the 499 abort |
| ExecutorProperties.StepCauses | server/utils/workflow/executor.ts:319-419 | an iteration cancelled before its node stops with no event; one cancelled during the node or hit by a 499 stops after the start event; any other throw adds a fail event carrying the error's message; a returning node adds a success event and stops, as a success, exactly when `Terminal` holds |
| ExecutorProperties.DelayCancelled | server/utils/workflow/executor.ts:226-247 | a delay that is cancelled while it sleeps stops the run as failed after only its start event, with the node's input as output, at that node, with one more log record (the delay's) |
| ExecutorProperties.StepFailCause | server/utils/workflow/executor.ts:395-419 | a failed iteration with no event had a cancellation requested; with one event a cancellation was requested or the `onLog` sink can throw a 499; with two, the fail event is a log node's, carrying the message of a non-499 error the sink throws |
| ExecutorProperties.RunFromCause | server/utils/workflow/executor.ts:319-419 | a run that succeeds ends with a `success` event whose node is the node it stopped at, whose output is the run's output, and for which `Terminal` holds; a run that fails without a fail event had a cancellation requested or a sink that can throw a 499; otherwise its last event is a log node's sink failure at the node it stopped at |
| ExecutorExamples.LinearRun | server/utils/workflow/executor.ts:275-426 | trigger, log, done with any object input: the run succeeds at the done node with that input as output, one log record, no side effect and six events |
| ExecutorExamples.LinearFlowSucceeds | server/utils/workflow/executor.ts:275-426 | trigger, log, done on the input {x: 1}: the run succeeds at the done node with its input and logs once |
| ExecutorExamples.CycleExhaustsBound | server/utils/workflow/executor.ts:317-426 | two nodes that hand over to each other exhaust the step limit |
| ExecutorExamples.DecisionRoutes | server/utils/workflow/executor.ts:168-183 | a decision follows the edge whose handle names its outcome |
| ExecutorExamples.FiveGreaterThanThreeRoutesTrue | server/utils/workflow/executor.ts:261-265 | "5 > 3" follows the `true` edge |
| ExecutorExamples.TwoGreaterThanThreeRoutesFalse | server/utils/workflow/executor.ts:261-265 | "2 > 3" follows the `false` edge |
| ExecutorExamples.ArrayDuration | server/utils/workflow/executor.ts:227 | a duration given as the array `[n]` is the number `n` |
| ExecutorExamples.FiveSecondArrayWaits | server/utils/workflow/executor.ts:226-247 | a delay of `[5]` seconds outside development waits, observing the signal once, and fails exactly when the signal is raised |
| Runner.RuntimeStatus | app/composables/useWorkflowRunner.ts:24-34 | start → running, success → success, fail → fail, anything else → idle, each exactly |
| Runner.CopyOf | app/composables/useWorkflowRunner.ts:36-52 | a spread copies the own keys, the last occurrence winning |
| Runner.WithRuntime | app/composables/useWorkflowRunner.ts:36-52 | every field but `data` is kept; the runtime entries override the old runtime |
| Runner.UpdateNodeRuntimeFields | app/composables/useWorkflowRunner.ts:36-52 | the update writes the mapped status, the event and its error, and keeps the rest of the node |
| Runner.ResetNodeRuntimeFields | app/composables/useWorkflowRunner.ts:54-63 | the reset makes the node idle and keeps everything else |
| Runner.ApplyNodeEvent | app/composables/useWorkflowRunner.ts:102-114 | only the nodes whose id is the event's `nodeId` change, and the list keeps its length |
| Runner.Utf8 | app/composables/useWorkflowRunner.ts:78-85 | one to four bytes; one exactly for ASCII, where it is the code itself |
| Runner.FormByte | app/composables/useWorkflowRunner.ts:78-85 | space becomes `+`, safe bytes stay, others become `%XX` |
| Runner.FormEncodeChars | app/composables/useWorkflowRunner.ts:78-85 | the encoded input holds only `+`, `%`, hex digits and safe characters |
| Runner.RunUrl | app/composables/useWorkflowRunner.ts:78-85 | the run URL, with `?input=` and the encoded JSON only when an input is given |
| Runner.RunUrlQuery | app/composables/useWorkflowRunner.ts:78-85 | the URL has a `?` exactly when an input is given |
| Runner.Finalized | app/composables/useWorkflowRunner.ts:89-100 | the first call closes the stream and then settles; later calls change nothing |
| Runner.NodeListener | app/composables/useWorkflowRunner.ts:102-114 | a `node` event never settles the run |
| Runner.Opened | app/composables/useWorkflowRunner.ts:86-89 | when the stream opens every node is reset and nothing has settled |
| Runner.FinalizedKeeps | app/composables/useWorkflowRunner.ts:89-100 | finalizing keeps the settle-once invariant |
| Runner.HandleKeeps | app/composables/useWorkflowRunner.ts:102-179 | every event keeps the settle-once invariant |
| Runner.ConsumeKeeps | app/composables/useWorkflowRunner.ts:102-179 | any sequence of events keeps it |
| Runner.SettledIsFinal | app/composables/useWorkflowRunner.ts:89-100 | after settling, no event changes anything |
| Runner.RunSettlesAtMostOnce | app/composables/useWorkflowRunner.ts:66-181 | whatever the stream delivers, the run settles at most once |
| Runner.FinishedResolves | app/composables/useWorkflowRunner.ts:126-130 | `finished` closes the stream and resolves with its parsed data |
| Runner.ErrorEventRejects | app/composables/useWorkflowRunner.ts:132-143 | an `error` event with data rejects once with its message |
| Runner.TransportErrorRejects | app/composables/useWorkflowRunner.ts:175-179 | a transport failure rejects with the generic message |
| Runner.QuietEvents | app/composables/useWorkflowRunner.ts:116-124 | `started`, `ping` and `log` never settle the run or touch the nodes |
| Runner.RunConsumer.constructor | app/composables/useWorkflowRunner.ts:86-89 | the closure state starts as Opened |
| Runner.RunConsumer.Finalize | app/composables/useWorkflowRunner.ts:89-100 | the state becomes Finalized of the old state |
| Runner.RunConsumer.OnNode | app/composables/useWorkflowRunner.ts:102-114 | the state after the `node` listener |
| Runner.RunConsumer.OnErrorEvent | app/composables/useWorkflowRunner.ts:132-143 | the state after the `error` listener |
| Runner.RunConsumer.OnTransportError | app/composables/useWorkflowRunner.ts:175-179 | the state after `onerror` |
| Runner.RunConsumer.Deliver | app/composables/useWorkflowRunner.ts:102-179 | delivering an event gives the state of the functional handler `Handle` |
| Runner.RunWorkflow | app/composables/useWorkflowRunner.ts:66-181 | the URL and the final session are those of `RunSpec`, and no URL is opened without EventSource |
| EditorTypes.CanConnect | app/types/workflow_editor.ts:98-113 | a missing handle never connects; `any` connects to everything; otherwise only equal data types connect |
| EditorTypes.CompatibleSymmetric | app/types/workflow_editor.ts:98-113 | compatibility is symmetric, `flow` meets only `flow` or `any`, and it is exactly "either is any, or equal" |
| EditorTypes.LastOfType | app/types/workflow_editor.ts:72-78 | a schema of the type is found exactly when one exists, and it is from the list |
| EditorTypes.LastOfTypeIsLast | app/types/workflow_editor.ts:72-78 | the chosen schema is the last of its type |
| EditorTypes.CreateNodeRegistry | app/types/workflow_editor.ts:72-78 | the registry has one key per schema type, each mapped to the last schema of that type |
| EditorTypes.CreateFlowNode | app/types/workflow_editor.ts:80-96 | the node has the given id and the schema's type; the default position is (0, 0); the defaults override the base data |
| EditorTypes.FreshNodeData | app/types/workflow_editor.ts:80-96 | without overriding defaults a fresh node carries its schema snapshot, empty notes and an empty execution record |
| EditorTypes.StringTitleHasNoLabel | app/types/workflow_editor.ts:89 | a schema titled by a string key gives the node an undefined label |
| FlowUtils.FindNode | app/utils/workflow.ts:27-28 | the first node with the id, and none exactly when none has it |
| FlowUtils.FindPort | app/utils/workflow.ts:34-39 | found exactly when a handle is given and some port has its id; the result is the first such port |
| FlowUtils.CanConnectNodes | app/utils/workflow.ts:23-54 | false when a node or port is missing; otherwise true exactly when the data types are compatible |
| FlowUtils.CreatedNodesConnect | app/utils/workflow.ts:5-54 | two nodes created from schemas connect exactly when their chosen ports are compatible |
| FlowUtils.GetTranslation | app/utils/workflow.ts:64-69 | a falsy key gives ""; otherwise the locale's entry, else the fallback's, else "" |
| FlowUtils.GetTranslationDefault | app/utils/workflow.ts:64-69 | without a fallback locale, English is the fallback |
| FlowUtils.TranslationFallback | app/utils/workflow.ts:64-69 | on a record of strings, the locale's non-empty text, else the fallback's, else "" |
| Translations.ExtractTranslations | extract_and_merge.py:4-16 | the loop gathers exactly what the recursive definition extracts |
| Translations.ExtractDict | extract_and_merge.py:10-12 | the loop over a dict's items gathers what the recursive definition extracts from all its fields |
| Translations.ExtractList | extract_and_merge.py:13-15 | the loop over a list gathers what the recursive definition extracts from all its items |
| Translations.ExtractUnder | extract_and_merge.py:4-16 | every extracted key lies under the given path; a scalar yields nothing |
| Translations.ExtractRecord | extract_and_merge.py:7-12 | a translation record yields its own path with the chosen language's text, and nothing from inside it |
| Translations.MergeAt | extract_and_merge.py:18-24 | each key of the second dict holds its merged value after the loop |
| Translations.MergeDictsSpec | extract_and_merge.py:18-24 | keys only in the first dict keep their values; keys of the second hold the recursive merge when both are dicts, else the second's value |
| Translations.MergeInto | extract_and_merge.py:18-24 | the in-place merge loop computes MergeDicts |
| Translations.MergeItem | extract_and_merge.py:19-23 | one iteration merges a dict into a dict under the same key and otherwise replaces the value, advancing the merge by exactly one key of the second dict |
| Translations.NestPlaces | extract_and_merge.py:46-57 | nesting puts the text at its dotted path and leaves other top-level keys alone |
| Translations.NestTranslations | extract_and_merge.py:46-57 | the loop computes NestAll |
| Translations.NestAllPlaces | extract_and_merge.py:46-57 | a key ends up at its dotted path when every later key's path diverges from it (differs at a segment both have) |
| Translations.NestFrame | extract_and_merge.py:48-57 | writing a key leaves every path that diverges from it as it was |
| Leads.FilterSteps | app/composables/useLeads.ts:89-113 | each filter step that is switched off passes every lead through |
| Leads.FilterIsWhere | app/composables/useLeads.ts:89-113 | the five filter steps together are one filter by `Matches` |
| Leads.FilterSpec | app/composables/useLeads.ts:89-113 | a lead is listed exactly when it is a lead and passes every enabled filter, in the original order |
| Leads.ByPrioritySpec | app/composables/useLeads.ts:117-130 | the priority sort is a permutation, descending by rank, and keeps the order within each rank |
| Leads.ByPriorityPermutes | app/composables/useLeads.ts:124-127 | the priority sort is a permutation |
| Leads.FilteredLeadsSpec | app/composables/useLeads.ts:89-131 | the listed leads are the matching ones, each as often; without the priority sort they keep the original order |
| Leads.SliceIndex | app/composables/useLeads.ts:137-141 | a slice index is within the list, and a non-negative index inside it is kept |
| Leads.PageSpec | app/composables/useLeads.ts:137-141 | a page never holds more than a positive page size; from page 1 on it is exactly that run of leads |
| Leads.SliceIndexSpread | app/composables/useLeads.ts:137-141 | between indices on the same side of zero the slice never widens |
| Leads.AggregatedCounts | app/composables/useLeads.ts:143-148 | the total is the number of leads and `new` counts the new ones, whatever the filters |
| Leads.UseLeads | app/composables/useLeads.ts:135-148 | the total counts the filtered leads, the counts cover the whole sample, and the leads are the requested page of the filtered list, never longer than the page size |
| Leads.SampleCounts | app/composables/useLeads.ts:21-87 | the sample has five leads, one of them new |
| Inbox.FilterConversationsSpec | app/stores/inbox.ts:31-48 | a conversation is listed exactly when it matches the search and the state, in store order; with no filters all are listed |
| Inbox.ConversationMessages | app/stores/inbox.ts:49-51 | the cached list, or none for an id never loaded |
| Inbox.CachedMessages | app/stores/inbox.ts:49-51 | a stored list is what the getter returns, and other conversations are unaffected |
| Inbox.MessageRequest | app/stores/inbox.ts:128-133 | messages are requested exactly for a new current conversation whose messages are not cached |
| Inbox.RequestOnce | app/stores/inbox.ts:128-133 | once the requested list is stored, choosing the conversation again requests nothing |
| Inbox.InboxStore.constructor | app/stores/inbox.ts:4-29 | the store's initial state |
| Inbox.InboxStore.SetCurrentConversation | app/stores/inbox.ts:128-133 | the conversation becomes current; an uncached one is requested and marked as loading; nothing else changes |
| Inbox.InboxStore.ToggleInspector | app/stores/inbox.ts:135-137 | the inspector flips, and nothing else changes |
| Inbox.InboxStore.ClearFilters | app/stores/inbox.ts:139-142 | the filters are reset and every conversation is listed |
| WorkspaceStore.UserId | app/stores/workspace.ts:111 | the id, or the subject only when the id is missing |
| WorkspaceStore.HasWorkspace | app/stores/workspace.ts:43-45 | true exactly when a non-empty workspace is active |
| WorkspaceStore.ActiveMembership | app/stores/workspace.ts:46-50 | the first membership of the active workspace, present exactly when there is one |
| WorkspaceStore.ActiveRole | app/stores/workspace.ts:51-53 | the role of that membership |
| WorkspaceStore.IsOwnerOrAdmin | app/stores/workspace.ts:54-57 | true exactly when the active role is owner or admin |
| WorkspaceStore.Reselect | app/stores/workspace.ts:79-85 | the active workspace is kept when it is a membership, else the first membership's, else none |
| WorkspaceStore.ReselectIdempotent | app/stores/workspace.ts:79-85 | reselecting again changes nothing |
| WorkspaceStore.ReselectHasRole | app/stores/workspace.ts:43-85 | after reselection there is a workspace and a role exactly when one was chosen |
| WorkspaceStore.WorkspaceStore.constructor | app/stores/workspace.ts:35-40 | the store starts from the persisted id and memberships |
| WorkspaceStore.WorkspaceStore.Clear | app/stores/workspace.ts:145-152 | everything is emptied |
| WorkspaceStore.WorkspaceStore.FetchMemberships | app/stores/workspace.ts:90-134 | no user or no id: no query, empty memberships and the error; otherwise the rows, or the query's error |
| WorkspaceStore.WorkspaceStore.Bootstrap | app/stores/workspace.ts:61-88 | no user clears the store; otherwise fetch and reselect, so the active workspace is none or a membership |
| WorkspaceAuth.NormalizedUserId | server/utils/workspace.ts:12 | the trimmed id, or the trimmed subject when the id is missing or empty |
| WorkspaceAuth.ValidIsUuid | server/utils/workspace.ts:13-18 | the validity check is exactly the UUID pattern |
| WorkspaceAuth.UuidIgnoresCase | server/utils/workspace.ts:13-18 | the pattern ignores case |
| WorkspaceAuth.FormatValid | server/utils/workspace.ts:13-18 | the text of sixteen bytes passes exactly when its version is 1 to 5 and its variant is RFC 4122 |
| WorkspaceAuth.HexBytesAt | server/utils/workspace.ts:13-18 | byte `k` of the UUID text's bytes becomes the two hexadecimal digits at positions `2k` and `2k+1`, high nibble first |
| WorkspaceAuth.Earliest | server/utils/workspace.ts:27-33 | a row of the caller with the smallest creation time, present exactly when the caller has a row (the model's choice among ties is under "Left out") |
| WorkspaceAuth.ResolveWorkspaceId | server/utils/workspace.ts:12-49 | invalid id → 401 without a query; query error → 500; otherwise the earliest membership decides: its non-empty workspace id, else (no row, no id or an empty id) 403 |
| WorkspaceAuth.MembersResolve | server/utils/workspace.ts:27-49 | for a valid caller, the first of their rows with the earliest creation time decides: it resolves to that row's workspace id when present and non-empty, otherwise to 403 |
| WorkspaceAuth.EarliestAt | server/utils/workspace.ts:27-33 | the row the ordered, limited query returns has the earliest creation time; among equal times the model takes the first in the table, a choice the database leaves open |
| WorkspaceAuth.NormalizationAccepts | server/utils/workspace.ts:12-18 | a non-empty id is accepted exactly when, trimmed and lower-cased, it is a UUID, so surrounding white space and upper case do not change acceptance |

## Left out

- Logging to the console, the server logger and the run's `log` event listener are left out. Their only effect is output, so `log` events are modelled as quiet (app/composables/useWorkflowRunner.ts:147-173).
- Timestamps (`new Date().toISOString()`) are opaque strings passed in as parameters.
- The executor's `onEvent` sink is modelled as the returned event list. It is assumed not to throw: the success event is emitted inside the `try` (server/utils/workflow/executor.ts:352-358), so a throwing `onEvent` would turn a succeeded node into a fail event, which the model does not capture. The `onLog` callback is modelled as a function from the reported `{level, message}` to the error it throws, if any; what it does otherwise is not observable.
- Floating point: numbers are exact decimals with NaN. Rounding, infinities and exponent notation in `JSON.stringify` are not modelled.
- Condition.StringToNumber: JavaScript converts the texts `Infinity`, `+Infinity`, `-Infinity` and exponent notation such as `1e3` to numbers; the model reads them as NaN. So `Infinity > 5` is true in the program and false in the model.
- Executor.LogStep: `getContextSnapshotForLog` (server/utils/workflow/executor.ts:185-189) stores the live `sideEffects` array, so side effects that a later `send-email` node appends also show up inside earlier log records. The model's `LogSnapshot` copies the list as it is when the log node runs, so this sharing is not modelled.
- Prototype properties (`__proto__`, `constructor`) are not modelled, for the lead priority table or for message-cache keys. Reference identity in `===` is not modelled either: two objects are never the same reference.
- Timers and abort listeners: `sleep` is one observation of the one-shot cancellation signal, with no real waiting.
- The EventSource transport is left out. The stream is a given sequence of incoming events.
- Leads.SortLeads: the two date orders parse timestamps into instants, so they are a parameter (`byDate`). Only the priority order is defined and proved.
- Letter case is folded for ASCII only. Unicode case mapping is not modelled.
- Values.Json: JavaScript objects list array-index keys (such as "2" or "10") first, in ascending numeric order, and the other keys in insertion order. The model keeps every key in insertion order, so `JSON.stringify` (as in Runner.RunUrl) and object spreads (as in Executor.NodeData) can order such keys differently from the program.
- Condition.Member, Condition.SpreadSource, Condition.StrLess: JavaScript strings are sequences of UTF-16 code units, while the model's strings are sequences of Unicode code points. A string's `length`, its indexing, its spread into characters and the `<` order agree only for text within the Basic Multilingual Plane: `"😀".length` is 2 in the program and 1 in the model, and U+10000 sorts before U+FFFF in the program but after it in the model.
- FlowUtils.CanConnectNodes: a `data.schema` that is not a schema snapshot is read as a schema with no ports.
- `Map` iteration order is not modelled: the registry and the outgoing-edge index are Dafny maps.
- Translations.MergeInto: `merge_dicts` updates `d1` in place and may alias nested dicts of `d2`. The model returns the merged value instead, so the aliasing is not modelled.
- The script's module-level file reading, writing and printing (extract_and_merge.py:26-40, 59-63) are I/O and left out.
- The leads options `has_website` and `has_phone` are left out, because the filter does not read them.
- The inbox's `fetchConversations` and the completion of `fetchMessages` (a simulated delay, then fixed demo data) are left out.
- The workspace store's `setActiveWorkspace` is left out; it also switches the interface language.
- Local-storage persistence is reduced to the constructor's parameters.
- WorkspaceStore.WorkspaceStore.Bootstrap: `bootstrap` and `fetchMemberships` are modelled as atomic. The intermediate `loading = true` states and interleavings with other calls are not observable.
- WorkspaceAuth.Earliest: `ORDER BY created_at LIMIT 1` leaves the choice among rows with equal creation times to the database. The model takes the first such row in the table, so for ties it promises one particular row where the program promises only some row of earliest time.
- WorkspaceAuth.ResolveWorkspaceId: the database compares `user_id` as a uuid. The model compares the normalized id by exact string equality.
- `crypto.randomUUID()` is a parameter of `CreateFlowNode`.
- EditorTypes.CreateFlowNode: when `schema.title` is null or undefined, `schema.title.en` (app/types/workflow_editor.ts:89) throws a TypeError. The model reads the label as undefined instead, as `Member` reads any key of null or undefined, so it does not capture that error.
- The server-sent-events endpoint and the REST handlers that call the executor are not part of this model.

=== FILE: condition.dfy ===
/** The condition micro-language of decision nodes: context placeholders,
    literal parsing, the single-comparison grammar and JavaScript's loose
    equality and relational comparison (sections 7.2.13 IsLessThan and
    7.2.14 IsLooselyEqual of ECMA-262). */
module Condition {
  import opened Values

  // ---------------------------------------------------------------------
  // getPathValue

  /** A canonical array index (`"0"`, `"17"`, not `"01"`). */
  function ParseIndex(key: string): Option<nat>
  {
    if key != [] && AllDigits(key) && (|key| == 1 || key[0] != '0') then Some(DigitsValue(key)) else None
  }

  /** `acc[key]` for a truthy `acc`.  Properties inherited from prototypes
      (methods) read as undefined. */
  function Member(acc: Value, key: string): Value
  {
    match acc
    case Obj(fields) => Field(fields, key)
    case Arr(items) =>
      if key == "length" then Num(Int(|items|))
      else (match ParseIndex(key)
            case Some(i) => if i < |items| then items[i] else Undef
            case None => Undef)
    case Str(s) =>
      if key == "length" then Num(Int(|s|))
      else (match ParseIndex(key)
            case Some(i) => if i < |s| then Str([s[i]]) else Undef
            case None => Undef)
    case _ => Undef
  }

  /** `v?.key`. */
  function OptionalMember(v: Value, key: string): Value
  {
    if v.Undef? || v.Null? then Undef else Member(v, key)
  }

  /** The own enumerable properties a spread copies out of a value. */
  function SpreadSource(v: Value): Fields
  {
    match v
    case Obj(fields) => fields
    case Arr(items) => seq(|items|, i requires 0 <= i < |items| => (NatToString(i), items[i]))
    case Str(s) => seq(|s|, i requires 0 <= i < |s| => (NatToString(i), Str([s[i]])))
    case _ => []
  }

  /** `keys.reduce((acc, key) => (acc ? acc[key] : undefined), acc)`. */
  function Walk(acc: Value, keys: seq<string>): Value
    decreases |keys|
  {
    if keys == [] then acc
    else Walk(if Truthy(acc) then Member(acc, keys[0]) else Undef, keys[1..])
  }

  /** `getPathValue`: undefined for an empty path, else a walk along the dotted segments. */
  function GetPathValue(value: Value, path: string): (r: Value)
    ensures path == "" ==> r == Undef
  {
    if path == "" then Undef else Walk(value, Split(path, '.'))
  }

  lemma {:induction false} WalkAppend(acc: Value, a: seq<string>, b: seq<string>)
    ensures Walk(acc, a + b) == Walk(Walk(acc, a), b)
    decreases |a|
  {
    if a == [] {
      assert a + b == b;
    } else {
      assert (a + b)[1..] == a[1..] + b;
      WalkAppend(if Truthy(acc) then Member(acc, a[0]) else Undef, a[1..], b);
    }
  }

  /** Once the accumulator is falsy, every further segment yields undefined. */
  lemma {:induction false} WalkFromFalsy(acc: Value, keys: seq<string>)
    requires !Truthy(acc) && keys != []
    ensures Walk(acc, keys) == Undef
    decreases |keys|
  {
    if |keys| > 1 {
      WalkFromFalsy(Undef, keys[1..]);
    }
  }

  /** If the walk along some proper prefix of the segments reaches a falsy or
      missing value, the whole path resolves to undefined. */
  lemma PathStopsAtFalsy(value: Value, path: string, n: nat)
    requires path != "" && n < |Split(path, '.')|
    requires !Truthy(Walk(value, Split(path, '.')[..n]))
    ensures GetPathValue(value, path) == Undef
  {
    var keys := Split(path, '.');
    assert keys == keys[..n] + keys[n..];
    WalkAppend(value, keys[..n], keys[n..]);
    WalkFromFalsy(Walk(value, keys[..n]), keys[n..]);
  }

  // ---------------------------------------------------------------------
  // substituteContextTokens: /{{\s*context\.([^}]+)\s*}}/g

  /** End of the longest run of characters other than `}` from `i`. */
  function BraceFreeEnd(s: string, i: nat): (j: nat)
    requires i <= |s|
    ensures i <= j <= |s| && '}' !in s[i..j]
    ensures j == |s| || s[j] == '}'
    decreases |s| - i
  {
    if i == |s| || s[i] == '}' then i
    else
      var j := BraceFreeEnd(s, i + 1);
      assert s[i..j] == [s[i]] + s[i + 1..j];
      j
  }

  /** The placeholder starting at `pos`, if any: its raw path and the index just past it. */
  function TokenAt(s: string, pos: nat): (r: Option<(string, nat)>)
    requires pos <= |s|
    ensures r.Some? ==> pos < r.value.1 <= |s|
  {
    if !ContainsAt(s, "{{", pos) then None
    else
      var k := SpaceEnd(s, pos + 2);
      if !ContainsAt(s, "context.", k) then None
      else
        var e := BraceFreeEnd(s, k + 8);
        if e > k + 8 && ContainsAt(s, "}}", e) then Some((s[k + 8..e], e + 2)) else None
  }

  /** The text a placeholder is replaced with: the JSON of the value at its trimmed path. */
  function TokenText(ctx: Value, rawPath: string): string
  {
    StringifyText(GetPathValue(ctx, Trim(rawPath)))
  }

  function SubstituteFrom(s: string, pos: nat, ctx: Value): string
    requires pos <= |s|
    decreases |s| - pos
  {
    if pos == |s| then ""
    else
      match TokenAt(s, pos)
      case Some((path, next)) => TokenText(ctx, path) + SubstituteFrom(s, next, ctx)
      case None => [s[pos]] + SubstituteFrom(s, pos + 1, ctx)
  }

  /** `substituteContextTokens`: every placeholder, left to right, replaced by its text. */
  function SubstituteContextTokens(condition: string, ctx: Value): string
  {
    SubstituteFrom(condition, 0, ctx)
  }

  predicate HasOpening(s: string)
  {
    exists i: nat :: i + 2 <= |s| && ContainsAt(s, "{{", i)
  }

  lemma {:induction false} SubstituteFromPlain(s: string, pos: nat, ctx: Value)
    requires pos <= |s| && forall i: nat :: pos <= i ==> !ContainsAt(s, "{{", i)
    ensures SubstituteFrom(s, pos, ctx) == s[pos..]
    decreases |s| - pos
  {
    if pos < |s| {
      assert !ContainsAt(s, "{{", pos);
      SubstituteFromPlain(s, pos + 1, ctx);
      assert s[pos..] == [s[pos]] + s[pos + 1..];
    }
  }

  lemma NoBraceNoOpening(s: string)
    requires '{' !in s
    ensures !HasOpening(s) && forall i: nat :: !ContainsAt(s, "{{", i)
  {
    forall i: nat ensures !ContainsAt(s, "{{", i) {
      assert i + 2 <= |s| ==> s[i..i + 2][0] == s[i] && s[i] != '{';
    }
  }

  /** A condition without `{{` is left as it is. */
  lemma SubstitutePlain(s: string, ctx: Value)
    requires !HasOpening(s)
    ensures SubstituteContextTokens(s, ctx) == s
  {
    SubstituteFromPlain(s, 0, ctx);
  }

  /** A condition that is exactly one placeholder becomes the JSON of the value at its path. */
  lemma SubstituteSingle(path: string, ctx: Value)
    requires path != [] && '}' !in path
    ensures SubstituteContextTokens("{{context." + path + "}}", ctx) == TokenText(ctx, path)
  {
    NoBraceNoOpening("");
    SubstituteTokenThenPlain(path, "", ctx);
    assert "{{context." + path + "}}" + "" == "{{context." + path + "}}";
  }

  lemma {:induction false} BraceFreeEndIs(s: string, i: nat, k: nat)
    requires i <= k < |s| && s[k] == '}' && (forall x :: i <= x < k ==> s[x] != '}')
    ensures BraceFreeEnd(s, i) == k
    decreases k - i
  {
    if i < k {
      BraceFreeEndIs(s, i + 1, k);
    }
  }

  // ---------------------------------------------------------------------
  // parseLiteral

  /** Index of the first `c` in `s`, or `|s|`. */
  function IndexOf(s: string, c: char): (i: nat)
    ensures i <= |s| && c !in s[..i]
    ensures i < |s| ==> s[i] == c
  {
    if s == [] then 0
    else if s[0] == c then 0
    else
      var i := IndexOf(s[1..], c) + 1;
      assert s[..i] == [s[0]] + s[1..][..i - 1];
      i
  }

  lemma {:induction false} IndexOfIs(s: string, c: char, k: nat)
    requires k <= |s| && (forall x :: 0 <= x < k ==> s[x] != c) && (k < |s| ==> s[k] == c)
    ensures IndexOf(s, c) == k
  {
    if s != [] && k > 0 {
      IndexOfIs(s[1..], c, k - 1);
    }
  }

  /** `\d+(\.\d+)?` */
  predicate IsUnsignedDecimal(b: string)
  {
    var d := IndexOf(b, '.');
    d > 0 && AllDigits(b[..d]) && (d == |b| || (d < |b| - 1 && AllDigits(b[d + 1..])))
  }

  /** `-?\d+(\.\d+)?`, the number pattern of `parseLiteral`. */
  predicate IsNumberText(t: string)
  {
    if t != [] && t[0] == '-' then IsUnsignedDecimal(t[1..]) else IsUnsignedDecimal(t)
  }

  function UnsignedValue(b: string): Number
    requires IsUnsignedDecimal(b)
  {
    var d := IndexOf(b, '.');
    if d == |b| then Dec(DigitsValue(b), 0)
    else
      assert AllDigits(b[..d] + b[d + 1..]);
      Dec(DigitsValue(b[..d] + b[d + 1..]), |b| - d - 1)
  }

  /** `Number(t)` for a text matching the number pattern. */
  function NumberOfText(t: string): Number
    requires IsNumberText(t)
  {
    if t != [] && t[0] == '-' then
      var u := UnsignedValue(t[1..]);
      Dec(-u.mantissa, u.scale)
    else UnsignedValue(t)
  }

  predicate Quoted(t: string, q: char)
  {
    t != [] && t[0] == q && t[|t| - 1] == q
  }

  /** A number text starts with a minus sign or a digit, so no keyword is one. */
  lemma NumberTextStart(t: string)
    requires IsNumberText(t)
    ensures t != [] && (t[0] == '-' || IsDigit(t[0]))
  {
    if t == [] || t[0] != '-' {
      var d := IndexOf(t, '.');
      assert t[..d][0] == t[0];
    }
  }

  /** `parseLiteral`: classifies one side of a comparison. */
  function ParseLiteral(value: string): (r: Value)
    ensures !r.Arr? && !r.Obj?
    ensures r == Bool(true) <==> Trim(value) == "true"
    ensures r == Bool(false) <==> Trim(value) == "false"
    ensures r.Null? <==> Trim(value) == "null"
    ensures r.Undef? <==> Trim(value) == "undefined"
    ensures r.Num? <==> IsNumberText(Trim(value))
    ensures r.Str? && !Quoted(Trim(value), '"') && !Quoted(Trim(value), '\'') ==> r.s == Trim(value)
    // a text in matching double or single quotes loses them (a lone quote becomes empty)
    ensures r.Str? && (Quoted(Trim(value), '"') || Quoted(Trim(value), '\'')) ==>
      r.s == (if |Trim(value)| >= 2 then Trim(value)[1..|Trim(value)| - 1] else "")
  {
    var t := Trim(value);
    assert IsNumberText(t) ==> t != [] && (t[0] == '-' || IsDigit(t[0])) by {
      if IsNumberText(t) { NumberTextStart(t); }
    }
    if t == "true" then Bool(true)
    else if t == "false" then Bool(false)
    else if t == "null" then Null
    else if t == "undefined" then Undef
    else if IsNumberText(t) then Num(NumberOfText(t))
    else if Quoted(t, '"') || Quoted(t, '\'') then Str(if |t| >= 2 then t[1..|t| - 1] else "")
    else Str(t)
  }

  lemma {:induction false} DigitsValueLeadingZero(s: string)
    requires AllDigits(s)
    ensures AllDigits("0" + s) && DigitsValue("0" + s) == DigitsValue(s)
  {
    var z := "0" + s;
    if s != [] {
      DigitsValueLeadingZero(s[..|s| - 1]);
      assert z[..|z| - 1] == "0" + s[..|s| - 1];
    }
  }

  lemma {:induction false} DigitsValuePad(s: string, w: nat)
    requires AllDigits(s)
    ensures AllDigits(PadZeros(s, w)) && DigitsValue(PadZeros(s, w)) == DigitsValue(s)
    decreases w - |s|
  {
    if |s| < w {
      DigitsValueLeadingZero(s);
      DigitsValuePad("0" + s, w);
    }
  }

  lemma {:induction false} NormalizeSameValue(n: Number)
    requires n.Dec?
    ensures Normalize(n).Dec? && NumEq(Normalize(n), n)
    decreases n.scale
  {
    if n.scale > 0 && n.mantissa % 10 == 0 {
      var m := Dec(n.mantissa / 10, n.scale - 1);
      NormalizeSameValue(m);
      assert Normalize(n) == Normalize(m);
      assert n.mantissa == 10 * m.mantissa;
      assert Pow10(n.scale) == 10 * Pow10(m.scale);
      var a := Normalize(m);
      TimesTen(a.mantissa, Pow10(m.scale), m.mantissa, Pow10(a.scale));
    }
  }

  lemma TimesTen(x: int, p: int, y: int, q: int)
    requires x * p == y * q
    ensures x * (10 * p) == (10 * y) * q
  {
  }

  lemma WholeNumberText(t: string)
    requires t != [] && AllDigits(t)
    ensures IsUnsignedDecimal(t) && UnsignedValue(t) == Dec(DigitsValue(t), 0)
  {
    assert forall x :: 0 <= x < |t| ==> IsDigit(t[x]);
    IndexOfIs(t, '.', |t|);
  }

  lemma DotAfterDigits(t: string, k: nat)
    requires AllDigits(t) && k <= |t|
    ensures IndexOf(t[..k] + "." + t[k..], '.') == k
  {
    var b := t[..k] + "." + t[k..];
    assert forall x :: 0 <= x < k ==> b[x] != '.' by {
      forall x | 0 <= x < k ensures b[x] != '.' {
        assert b[x] == t[x];
      }
    }
    IndexOfIs(b, '.', k);
  }

  lemma FractionNumberText(t: string, s: nat, b: string)
    requires AllDigits(t) && 0 < s < |t|
    requires b == t[..|t| - s] + "." + t[|t| - s..]
    ensures IsUnsignedDecimal(b) && UnsignedValue(b) == Dec(DigitsValue(t), s)
  {
    var k := |t| - s;
    DotAfterDigits(t, k);
    SplitAtDot(t, k, b);
    DigitsSplit(t, k);
    FractionValue(b, k);
  }

  lemma SplitAtDot(t: string, k: nat, b: string)
    requires k <= |t| && b == t[..k] + "." + t[k..]
    ensures |b| == |t| + 1 && b[..k] == t[..k] && b[k + 1..] == t[k..] && b[..k] + b[k + 1..] == t
  {
    assert b == t[..k] + ("." + t[k..]);
  }

  lemma DigitsSplit(t: string, k: nat)
    requires AllDigits(t) && k <= |t|
    ensures AllDigits(t[..k]) && AllDigits(t[k..])
  {
    assert forall i :: 0 <= i < |t[k..]| ==> t[k..][i] == t[k + i];
  }

  lemma FractionValue(b: string, d: nat)
    requires 0 < d < |b| - 1 && IndexOf(b, '.') == d && AllDigits(b[..d]) && AllDigits(b[d + 1..])
    ensures IsUnsignedDecimal(b) && UnsignedValue(b) == Dec(DigitsValue(b[..d] + b[d + 1..]), |b| - d - 1)
  {
  }

  /** The decimal text of a magnitude parses back to that magnitude at that scale. */
  lemma UnsignedDecimalText(a: nat, s: nat)
    ensures IsUnsignedDecimal(DecimalText(a, s))
    ensures UnsignedValue(DecimalText(a, s)) == Dec(a, s)
  {
    if s == 0 {
      WholeDecimalText(a, DecimalText(a, s));
    } else {
      FractionDecimalText(a, s, DecimalText(a, s));
    }
  }

  lemma WholeDecimalText(a: nat, b: string)
    requires b == DecimalText(a, 0)
    ensures IsUnsignedDecimal(b) && UnsignedValue(b) == Dec(a, 0)
  {
    PaddedDigits(a, 1);
    WholeNumberText(b);
  }

  lemma FractionDecimalText(a: nat, s: nat, b: string)
    requires s > 0 && b == DecimalText(a, s)
    ensures IsUnsignedDecimal(b) && UnsignedValue(b) == Dec(a, s)
  {
    var t := PadZeros(NatToString(a), s + 1);
    PaddedDigits(a, s + 1);
    assert b == t[..|t| - s] + "." + t[|t| - s..];
    FractionNumberText(t, s, b);
  }

  lemma PaddedDigits(a: nat, w: nat)
    ensures var t := PadZeros(NatToString(a), w);
      t != [] && |t| >= w && AllDigits(t) && DigitsValue(t) == a
  {
    DigitsValueOfNatToString(a);
    DigitsValuePad(NatToString(a), w);
  }

  lemma NumberLiteral(t: string)
    requires t != [] && (IsDigit(t[0]) || t[0] == '-') && Trim(t) == t && IsNumberText(t)
    ensures ParseLiteral(t) == Num(NumberOfText(t))
  {
    assert t[0] != 't' && t[0] != 'f' && t[0] != 'n' && t[0] != 'u';
  }

  lemma IntegerText(n: int)
    ensures IsNumberText(IntToString(n)) && NumberOfText(IntToString(n)) == Int(n)
  {
    var a: nat := if n < 0 then -n else n;
    var u := NatToString(a);
    DigitsValueOfNatToString(a);
    WholeNumberText(u);
    if n < 0 {
      assert IntToString(n)[1..] == u;
    }
  }

  /** An integer written in decimal parses as that integer. */
  lemma IntegerLiteral(n: int)
    ensures ParseLiteral(IntToString(n)) == Num(Int(n))
  {
    var a: nat := if n < 0 then -n else n;
    var u := NatToString(a);
    var t := IntToString(n);
    assert IsDigit(u[0]) && IsDigit(u[|u| - 1]);
    TrimNoSpace(t);
    IntegerText(n);
    NumberLiteral(t);
  }

  /** A number substituted into a condition parses back to a number of the same value. */
  lemma NumberTokenRoundTrip(n: Number)
    requires n.Dec?
    ensures ParseLiteral(StringifyText(Num(n))).Num?
    ensures NumEq(ParseLiteral(StringifyText(Num(n))).n, n)
  {
    NormalizeSameValue(n);
    var t := StringifyText(Num(n));
    StringifyNumber(n);
    TrimNoSpace(t);
    NumberLiteral(t);
  }

  /** The text a number is substituted as matches the number pattern and reads
      back as its normal form. */
  lemma StringifyNumber(n: Number)
    requires Normalize(n).Dec?
    ensures var t := StringifyText(Num(n));
      && t != [] && (IsDigit(t[0]) || t[0] == '-') && IsDigit(t[|t| - 1])
      && IsNumberText(t) && NumberOfText(t) == Normalize(n)
  {
    var z := Normalize(n);
    var body := DecimalText(Abs(z.mantissa), z.scale);
    StringifyNormal(n);
    UnsignedDecimalText(Abs(z.mantissa), z.scale);
    UnsignedDecimalEnds(body);
    SignedNumberText(z.mantissa, z.scale, body, StringifyText(Num(n)));
  }

  lemma StringifyNormal(n: Number)
    requires Normalize(n).Dec?
    ensures var z := Normalize(n);
      StringifyText(Num(n)) == (if z.mantissa < 0 then "-" else "") + DecimalText(Abs(z.mantissa), z.scale)
  {
  }

  lemma UnsignedDecimalEnds(b: string)
    requires IsUnsignedDecimal(b)
    ensures b != [] && IsDigit(b[0]) && IsDigit(b[|b| - 1])
  {
    var d := IndexOf(b, '.');
    assert IsDigit(b[..d][0]);
    if d == |b| {
      assert IsDigit(b[..d][d - 1]);
    } else {
      assert IsDigit(b[d + 1..][|b| - d - 2]);
    }
  }

  lemma SignedNumberText(m: int, s: nat, body: string, text: string)
    requires IsUnsignedDecimal(body) && UnsignedValue(body) == Dec(Abs(m), s)
    requires body != [] && IsDigit(body[0]) && IsDigit(body[|body| - 1])
    requires text == (if m < 0 then "-" else "") + body
    ensures IsNumberText(text) && NumberOfText(text) == Dec(m, s)
    ensures text != [] && (IsDigit(text[0]) || text[0] == '-') && IsDigit(text[|text| - 1])
  {
    if m < 0 {
      assert text[1..] == body;
    } else {
      assert text == body;
    }
  }

  /** A string substituted into a condition, when it needs no escaping and
      has no outer spaces issue, parses back to the same string. */
  lemma StringTokenRoundTrip(s: string)
    requires forall i :: 0 <= i < |s| ==> PlainChar(s[i])
    ensures ParseLiteral(StringifyText(Str(s))) == Str(s)
  {
    EscapePlain(s);
    assert StringifyText(Str(s)) == "\"" + s + "\"";
    QuotedLiteral(s, "\"" + s + "\"");
  }

  lemma QuotedLiteral(s: string, t: string)
    requires t == "\"" + s + "\""
    ensures ParseLiteral(t) == Str(s)
  {
    TrimNoSpace(t);
    if IsNumberText(t) {
      NumberTextStart(t);
    }
    assert t[1..|t| - 1] == s;
  }

  // ---------------------------------------------------------------------
  // The comparison grammar /^\s*(.+?)\s*(==|!=|>=|<=|>|<)\s*(.+?)\s*$/

  datatype Op = Eq | Ne | Ge | Le | Gt | Lt

  function OpText(op: Op): string
  {
    match op
    case Eq => "=="
    case Ne => "!="
    case Ge => ">="
    case Le => "<="
    case Gt => ">"
    case Lt => "<"
  }

  /** The alternatives of the operator group, in the order the regex tries them. */
  const Ops: seq<Op> := [Eq, Ne, Ge, Le, Gt, Lt]

  /** A way the regex can match `s`: `s[i..j]` is the left operand, the
      operator starts at `p`, `s[q..r]` is the right operand. */
  datatype Shape = Shape(i: nat, j: nat, p: nat, op: Op, q: nat, r: nat)

  /** Every character of `s[a..b]` is white space. */
  predicate SpacesIn(s: string, a: nat, b: nat)
    requires a <= b <= |s|
  {
    forall k :: a <= k < b ==> IsSpace(s[k])
  }

  /** No character of `s[a..b]` ends a line (what `.` matches). */
  predicate BreakFree(s: string, a: nat, b: nat)
    requires a <= b <= |s|
  {
    forall k :: a <= k < b ==> !IsLineTerminator(s[k])
  }

  lemma SpacesInSlice(s: string, a: nat, b: nat)
    requires a <= b <= |s|
    ensures SpacesIn(s, a, b) <==> AllSpace(s[a..b])
  {
    assert forall k :: a <= k < b ==> s[a..b][k - a] == s[k];
  }

  /** The white space run that starts at `a` and is found by `SpaceEnd`. */
  lemma SpaceEndSpaces(s: string, a: nat)
    requires a <= |s|
    ensures SpacesIn(s, a, SpaceEnd(s, a))
  {
    SpacesInSlice(s, a, SpaceEnd(s, a));
  }

  /** A run of white space from `a` ends no later than `SpaceEnd(s, a)`. */
  lemma SpaceRunEnds(s: string, a: nat, k: nat)
    requires a <= k <= |s| && SpacesIn(s, a, k)
    ensures k <= SpaceEnd(s, a)
  {
    SpacesInSlice(s, a, k);
    SpaceRunWithin(s, a, k);
  }

  function OpEnd(m: Shape): nat { m.p + |OpText(m.op)| }

  predicate Fits(s: string, m: Shape)
  {
    && m.i < m.j <= m.p && OpEnd(m) <= m.q < m.r <= |s|
    && SpacesIn(s, 0, m.i) && BreakFree(s, m.i, m.j) && SpacesIn(s, m.j, m.p)
    && ContainsAt(s, OpText(m.op), m.p) && SpacesIn(s, OpEnd(m), m.q)
    && BreakFree(s, m.q, m.r) && SpacesIn(s, m.r, |s|)
  }

  /** The position of `op` among the alternatives of the operator group. */
  function OpIndex(op: Op): (k: nat)
    ensures k < |Ops| && Ops[k] == op
  {
    match op
    case Eq => 0
    case Ne => 1
    case Ge => 2
    case Le => 3
    case Gt => 4
    case Lt => 5
  }

  /** `a` is tried before `b`: the leading spaces are greedy (larger `i` first),
      the left operand lazy (smaller `j`), the spaces before the operator greedy
      (larger `p`), the alternatives in their written order, the spaces after the
      operator greedy (larger `q`) and the right operand lazy (smaller `r`). */
  predicate Before(a: Shape, b: Shape)
  {
    || a.i > b.i
    || (a.i == b.i && a.j < b.j)
    || (a.i == b.i && a.j == b.j && a.p > b.p)
    || (a.i == b.i && a.j == b.j && a.p == b.p && OpIndex(a.op) < OpIndex(b.op))
    || (a.i == b.i && a.j == b.j && a.p == b.p && a.op == b.op && a.q > b.q)
    || (a.i == b.i && a.j == b.j && a.p == b.p && a.op == b.op && a.q == b.q && a.r < b.r)
  }

  /** The lazy right operand: the shortest `s[q..r]` after which only spaces remain. */
  function TryRightEnd(s: string, i: nat, j: nat, p: nat, op: Op, q: nat, r: nat): (res: Option<Shape>)
    requires i < j <= p && p + |OpText(op)| <= q < r <= |s| + 1
    requires SpacesIn(s, 0, i) && BreakFree(s, i, j) && SpacesIn(s, j, p)
    requires ContainsAt(s, OpText(op), p) && SpacesIn(s, p + |OpText(op)|, q)
    requires BreakFree(s, q, r - 1)
    ensures res.Some? ==> Fits(s, res.value) && res.value == Shape(i, j, p, op, q, res.value.r)
    ensures res.None? ==> forall m: Shape :: m.i == i && m.j == j && m.p == p && m.op == op && m.q == q && r <= m.r ==> !Fits(s, m)
    ensures res.Some? ==> forall m: Shape :: m.i == i && m.j == j && m.p == p && m.op == op && m.q == q && r <= m.r && Fits(s, m) ==> !Before(m, res.value)
    decreases |s| + 1 - r
  {
    if r > |s| then None
    else if IsLineTerminator(s[r - 1]) then None
    else if SpacesIn(s, r, |s|) then Some(Shape(i, j, p, op, q, r))
    else TryRightEnd(s, i, j, p, op, q, r + 1)
  }

  /** The greedy spaces after the operator: the right operand starts as late as possible first. */
  function TryRightStart(s: string, i: nat, j: nat, p: nat, op: Op, q: nat): (res: Option<Shape>)
    requires i < j <= p && p + |OpText(op)| <= q <= |s|
    requires SpacesIn(s, 0, i) && BreakFree(s, i, j) && SpacesIn(s, j, p)
    requires ContainsAt(s, OpText(op), p) && SpacesIn(s, p + |OpText(op)|, q)
    ensures res.Some? ==> Fits(s, res.value) && res.value.i == i && res.value.j == j && res.value.p == p && res.value.op == op
    ensures res.None? ==> forall m: Shape :: m.i == i && m.j == j && m.p == p && m.op == op && m.q <= q ==> !Fits(s, m)
    ensures res.Some? ==> forall m: Shape :: m.i == i && m.j == j && m.p == p && m.op == op && m.q <= q && Fits(s, m) ==> !Before(m, res.value)
    decreases q
  {
    var found := TryRightEnd(s, i, j, p, op, q, q + 1);
    if found.Some? then found
    else if q == p + |OpText(op)| then None
    else TryRightStart(s, i, j, p, op, q - 1)
  }

  /** One alternative of the operator group: `op` written at `p`, then the spaces
      and the right operand. */
  function TryOp(s: string, i: nat, j: nat, p: nat, op: Op): (res: Option<Shape>)
    requires i < j <= p <= |s|
    requires SpacesIn(s, 0, i) && BreakFree(s, i, j) && SpacesIn(s, j, p)
    ensures res.Some? ==> Fits(s, res.value) && res.value.i == i && res.value.j == j && res.value.p == p && res.value.op == op
    ensures res.None? ==> forall m: Shape :: m.i == i && m.j == j && m.p == p && m.op == op ==> !Fits(s, m)
    ensures res.Some? ==> forall m: Shape :: m.i == i && m.j == j && m.p == p && m.op == op && Fits(s, m) ==> !Before(m, res.value)
  {
    var e := p + |OpText(op)|;
    if ContainsAt(s, OpText(op), p) then
      var q := SpaceEnd(s, e);
      SpaceEndSpaces(s, e);
      RightWithinSpaces(s, op, p);
      TryRightStart(s, i, j, p, op, q)
    else None
  }

  /** The operator alternatives from position `k` of `Ops` on. */
  function TryOps(s: string, i: nat, j: nat, p: nat, k: nat): (res: Option<Shape>)
    requires i < j <= p <= |s| && k <= |Ops|
    requires SpacesIn(s, 0, i) && BreakFree(s, i, j) && SpacesIn(s, j, p)
    ensures res.Some? ==> Fits(s, res.value) && res.value.i == i && res.value.j == j && res.value.p == p
    ensures res.None? ==> forall m: Shape :: m.i == i && m.j == j && m.p == p && m.op in Ops[k..] ==> !Fits(s, m)
    ensures res.Some? ==> forall m: Shape :: m.i == i && m.j == j && m.p == p && OpIndex(m.op) >= k && Fits(s, m) ==> !Before(m, res.value)
    decreases |Ops| - k
  {
    if k == |Ops| then None
    else
      var found := TryOp(s, i, j, p, Ops[k]);
      OpIndexAt(k);
      if found.Some? then found
      else
        assert Ops[k..] == [Ops[k]] + Ops[k + 1..];
        TryOps(s, i, j, p, k + 1)
  }

  lemma OpIndexAt(k: nat)
    requires k < |Ops|
    ensures OpIndex(Ops[k]) == k
  {
  }

  /** Every reading with this operator at `p` starts its right operand within the
      spaces after the operator. */
  lemma RightWithinSpaces(s: string, op: Op, p: nat)
    requires p + |OpText(op)| <= |s|
    ensures forall m: Shape :: m.op == op && m.p == p && Fits(s, m) ==> m.q <= SpaceEnd(s, p + |OpText(op)|)
  {
    forall m: Shape | m.op == op && m.p == p && Fits(s, m) ensures m.q <= SpaceEnd(s, p + |OpText(op)|) {
      SpaceRunEnds(s, p + |OpText(op)|, m.q);
    }
  }

  lemma OpInOps(op: Op)
    ensures op in Ops
  {
  }

  /** The greedy spaces after the left operand: the operator is tried as late as possible first. */
  function TrySeparator(s: string, i: nat, j: nat, p: nat): (res: Option<Shape>)
    requires i < j <= p <= |s|
    requires SpacesIn(s, 0, i) && BreakFree(s, i, j) && SpacesIn(s, j, p)
    ensures res.Some? ==> Fits(s, res.value) && res.value.i == i && res.value.j == j
    ensures res.None? ==> forall m: Shape :: m.i == i && m.j == j && m.p <= p ==> !Fits(s, m)
    ensures res.Some? ==> forall m: Shape :: m.i == i && m.j == j && m.p <= p && Fits(s, m) ==> !Before(m, res.value)
    decreases p
  {
    var found := TryOps(s, i, j, p, 0);
    if found.Some? then found
    else
      assert forall m: Shape :: m.i == i && m.j == j && m.p == p ==> !Fits(s, m) by {
        assert Ops[0..] == Ops;
        forall m: Shape | m.i == i && m.j == j && m.p == p ensures !Fits(s, m) {
          OpInOps(m.op);
        }
      }
      if p == j then None
      else TrySeparator(s, i, j, p - 1)
  }

  /** The lazy left operand: `s[i..j]` for growing `j`. */
  function TryLeft(s: string, i: nat, j: nat): (res: Option<Shape>)
    requires i < j <= |s| + 1
    requires SpacesIn(s, 0, i) && BreakFree(s, i, j - 1)
    ensures res.Some? ==> Fits(s, res.value) && res.value.i == i
    ensures res.None? ==> forall m: Shape :: m.i == i && j <= m.j ==> !Fits(s, m)
    ensures res.Some? ==> forall m: Shape :: m.i == i && j <= m.j && Fits(s, m) ==> !Before(m, res.value)
    decreases |s| + 1 - j
  {
    if j > |s| then None
    else if IsLineTerminator(s[j - 1]) then None
    else
      var found := TryLeftAt(s, i, j);
      if found.Some? then found else TryLeft(s, i, j + 1)
  }

  /** Every way of matching with the left operand exactly `s[i..j]`. */
  function TryLeftAt(s: string, i: nat, j: nat): (res: Option<Shape>)
    requires i < j <= |s|
    requires SpacesIn(s, 0, i) && BreakFree(s, i, j)
    ensures res.Some? ==> Fits(s, res.value) && res.value.i == i && res.value.j == j
    ensures res.None? ==> forall m: Shape :: m.i == i && m.j == j ==> !Fits(s, m)
    ensures res.Some? ==> forall m: Shape :: m.i == i && m.j == j && Fits(s, m) ==> !Before(m, res.value)
  {
    var p := SpaceEnd(s, j);
    SpaceEndSpaces(s, j);
    SeparatorWithinSpaces(s, j);
    TrySeparator(s, i, j, p)
  }

  /** Every reading with the left operand ending at `j` starts its operator within
      the spaces that follow. */
  lemma SeparatorWithinSpaces(s: string, j: nat)
    requires j <= |s|
    ensures forall m: Shape :: m.j == j && Fits(s, m) ==> m.p <= SpaceEnd(s, j)
  {
    forall m: Shape | m.j == j && Fits(s, m) ensures m.p <= SpaceEnd(s, j) {
      SpaceRunEnds(s, j, m.p);
    }
  }

  /** The greedy leading spaces: the left operand starts as late as possible first. */
  function TryLead(s: string, i: nat): (res: Option<Shape>)
    requires i <= |s| && SpacesIn(s, 0, i)
    ensures res.Some? ==> Fits(s, res.value)
    ensures res.None? ==> forall m: Shape :: m.i <= i ==> !Fits(s, m)
    ensures res.Some? ==> forall m: Shape :: m.i <= i && Fits(s, m) ==> !Before(m, res.value)
    decreases i
  {
    var found := TryLeft(s, i, i + 1);
    if found.Some? then found
    else if i == 0 then None
    else TryLead(s, i - 1)
  }

  /** `substituted.match(...)`: the first match in the regex's backtracking
      order; `None` exactly when no way of matching exists. */
  function MatchComparison(s: string): (res: Option<Shape>)
    ensures res.Some? ==> Fits(s, res.value)
    ensures res.None? <==> forall m: Shape :: !Fits(s, m)
    ensures res.Some? ==> forall m: Shape :: Fits(s, m) ==> !Before(m, res.value)
  {
    var a := SpaceEnd(s, 0);
    SpaceEndSpaces(s, 0);
    LeadWithinSpaces(s);
    TryLead(s, a)
  }

  /** The backtracking order is a strict total order on readings. */
  lemma BeforeTotal(a: Shape, b: Shape)
    ensures !(Before(a, b) && Before(b, a))
    ensures a != b ==> Before(a, b) || Before(b, a)
  {
  }

  /** The reading picked is tried before every other way of matching `s`. */
  lemma MatchFirst(s: string, m: Shape)
    requires Fits(s, m) && MatchComparison(s).Some?
    ensures m == MatchComparison(s).value || Before(MatchComparison(s).value, m)
  {
    BeforeTotal(m, MatchComparison(s).value);
  }

  /** Every reading starts its left operand within the leading spaces. */
  lemma LeadWithinSpaces(s: string)
    ensures forall m: Shape :: Fits(s, m) ==> m.i <= SpaceEnd(s, 0)
  {
    forall m: Shape | Fits(s, m) ensures m.i <= SpaceEnd(s, 0) {
      SpaceRunEnds(s, 0, m.i);
    }
  }

  // ---------------------------------------------------------------------
  // ToNumber on strings (section 7.1.4.1.1 StringToNumber of ECMA-262)

  predicate IsHexDigit(c: char)
  {
    IsDigit(c) || ('a' <= c <= 'f') || ('A' <= c <= 'F')
  }

  function HexValue(c: char): nat
    requires IsHexDigit(c)
  {
    if IsDigit(c) then DigitValue(c)
    else if 'a' <= c <= 'f' then c as int - 'a' as int + 10
    else c as int - 'A' as int + 10
  }

  /** The value of `digits` in base `b`, or None when a character is not a digit of that base. */
  function RadixValue(digits: string, b: nat): Option<nat>
    requires 2 <= b <= 16
  {
    if digits == [] then Some(0)
    else
      var c := digits[|digits| - 1];
      match RadixValue(digits[..|digits| - 1], b)
      case None => None
      case Some(v) => if IsHexDigit(c) && HexValue(c) < b then Some(v * b + HexValue(c)) else None
  }

  /** Exponent part `[+-]?\d+` of a decimal literal. */
  function ExponentValue(t: string): Option<int>
  {
    var neg := t != [] && t[0] == '-';
    var u := if t != [] && (t[0] == '+' || t[0] == '-') then t[1..] else t;
    if u == [] || !AllDigits(u) then None
    else
      var v: int := DigitsValue(u);
      Some(if neg then -v else v)
  }

  /** StrUnsignedDecimalLiteral without `Infinity`: `d+`, `d+.`, `d+.d+`, `.d+`, each with an optional exponent. */
  function UnsignedDecimalValue(t: string): Number
  {
    var e := IndexOf(Lower(t), 'e');
    var body := t[..e];
    var exp := if e == |t| then Some(0) else ExponentValue(t[e + 1..]);
    var d := IndexOf(body, '.');
    var whole := body[..d];
    var frac := if d < |body| then body[d + 1..] else "";
    if exp.None? || (whole == [] && frac == []) || !AllDigits(whole) || !AllDigits(frac) then NaN
    else
      assert AllDigits(whole + frac);
      var m := DigitsValue(whole + frac);
      var shift := exp.value - |frac|;
      if shift >= 0 then Dec(m * Pow10(shift), 0) else Dec(m, -shift)
  }

  /** StringToNumber: trimmed; empty is 0; `0x`/`0o`/`0b` integers; signed decimals; otherwise NaN. */
  function StringToNumber(s: string): Number
  {
    var t := Trim(s);
    if t == [] then Int(0)
    else if |t| > 2 && t[0] == '0' && t[1] in "xXoObB" then
      var b := if t[1] in "xX" then 16 else if t[1] in "oO" then 8 else 2;
      match RadixValue(t[2..], b)
      case Some(v) => Int(v)
      case None => NaN
    else if t[0] == '-' then
      var u := UnsignedDecimalValue(t[1..]);
      if u.NaN? then NaN else Dec(-u.mantissa, u.scale)
    else if t[0] == '+' then UnsignedDecimalValue(t[1..])
    else UnsignedDecimalValue(t)
  }

  /** ToString (section 7.1.17 of ECMA-262), with ToPrimitive for objects: an array
      joins the strings of its items with commas, a null or undefined item giving
      the empty string; any other object is `[object Object]`. */
  function ToText(v: Value): string
    decreases v
  {
    match v
    case Undef => "undefined"
    case Null => "null"
    case Bool(b) => if b then "true" else "false"
    case Num(n) => NumberToString(n)
    case Str(s) => s
    case Arr(items) =>
      JoinComma(seq(|items|, i requires 0 <= i < |items| =>
        if items[i].Null? || items[i].Undef? then "" else ToText(items[i])))
    case Obj(_) => "[object Object]"
  }

  /** ToNumber (section 7.1.4 of ECMA-262): an array or object goes through its string. */
  function ToNumber(v: Value): Number
  {
    match v
    case Undef => NaN
    case Null => Int(0)
    case Bool(b) => Int(if b then 1 else 0)
    case Num(n) => n
    case Str(s) => StringToNumber(s)
    case Arr(_) => StringToNumber(ToText(v))
    case Obj(_) => NaN  // the text `[object Object]` is not numeric
  }

  /** A character that no numeric literal contains. */
  predicate Foreign(c: char)
  {
    !IsHexDigit(c) && !IsSpace(c) && c !in ".+-xXoO"
  }

  lemma {:induction false} RadixForeign(digits: string, b: nat, k: nat)
    requires 2 <= b <= 16 && k < |digits| && Foreign(digits[k])
    ensures RadixValue(digits, b).None?
  {
    if k < |digits| - 1 {
      RadixForeign(digits[..|digits| - 1], b, k);
    }
  }

  lemma DecimalForeign(u: string, k: nat)
    requires k < |u| && Foreign(u[k])
    ensures UnsignedDecimalValue(u).NaN?
  {
    var e := IndexOf(Lower(u), 'e');
    assert Lower(u)[k] != 'e';
    if k < e {
      var body := u[..e];
      var d := IndexOf(body, '.');
      assert body[k] == u[k];
      if k < d {
        assert body[..d][k] == u[k];
      } else {
        assert body[d + 1..][k - d - 1] == u[k];
      }
    } else {
      var t := u[e + 1..];
      assert t[k - e - 1] == u[k];
      var v := if t != [] && (t[0] == '+' || t[0] == '-') then t[1..] else t;
      if v != t {
        assert v[k - e - 2] == u[k];
      }
    }
  }

  /** A trimmed text containing a foreign character is NaN. */
  lemma TrimmedForeign(t: string, k: nat)
    requires k < |t| && Foreign(t[k]) && Trim(t) == t
    ensures StringToNumber(t).NaN?
  {
    if |t| > 2 && t[0] == '0' && t[1] in "xXoObB" {
      RadixForeign(t[2..], if t[1] in "xX" then 16 else if t[1] in "oO" then 8 else 2, k - 2);
    } else if t[0] == '-' || t[0] == '+' {
      DecimalForeign(t[1..], k - 1);
    } else {
      DecimalForeign(t, k);
    }
  }

  /** Trimming keeps every character that is not white space. */
  lemma TrimKeeps(s: string, k: nat)
    requires k < |s| && !IsSpace(s[k])
    ensures exists x :: 0 <= x < |Trim(s)| && Trim(s)[x] == s[k]
  {
    var a := SpaceEnd(s, 0);
    var b := SpaceStart(s, |s|);
    assert Trim(s)[k - a] == s[k];
  }

  /** StringToNumber is NaN on any text holding a character no numeric literal has. */
  lemma ForeignIsNaN(s: string, k: nat)
    requires k < |s| && Foreign(s[k])
    ensures StringToNumber(s).NaN?
  {
    TrimKeeps(s, k);
    var x :| 0 <= x < |Trim(s)| && Trim(s)[x] == s[k];
    var t := Trim(s);
    TrimNoSpace(t);
    TrimmedForeign(t, x);
  }

  /** A plain-decimal number text reads back, under StringToNumber, as `parseLiteral` reads it. */
  lemma NumberTextToNumber(t: string)
    requires IsNumberText(t) && t != [] && (IsDigit(t[0]) || t[0] == '-') && IsDigit(t[|t| - 1])
    ensures StringToNumber(t) == NumberOfText(t)
  {
    TrimNoSpace(t);
    if t[0] == '-' {
      UnsignedDecimalAgrees(t[1..]);
      DecimalBranch(t);
    } else {
      UnsignedDecimalAgrees(t);
      if |t| > 1 { UnsignedDecimalChar(t, 1); }
      DecimalBranch(t);
    }
  }

  /** On a trimmed text that starts like a decimal, StringToNumber reads the decimal. */
  lemma DecimalBranch(t: string)
    requires Trim(t) == t && t != [] && (IsDigit(t[0]) || t[0] == '-')
    requires |t| > 1 ==> IsDigit(t[1]) || t[1] == '.' || t[0] == '-'
    ensures t[0] == '-' ==>
      StringToNumber(t) == (var u := UnsignedDecimalValue(t[1..]); if u.NaN? then NaN else Dec(-u.mantissa, u.scale))
    ensures t[0] != '-' ==> StringToNumber(t) == UnsignedDecimalValue(t)
  {
  }

  lemma UnsignedDecimalChar(b: string, x: nat)
    requires IsUnsignedDecimal(b) && x < |b|
    ensures IsDigit(b[x]) || b[x] == '.'
  {
    var d := IndexOf(b, '.');
    if x < d {
      assert b[..d][x] == b[x];
    } else if x > d {
      assert b[d + 1..][x - d - 1] == b[x];
    }
  }

  lemma NoExponent(b: string)
    requires IsUnsignedDecimal(b)
    ensures IndexOf(Lower(b), 'e') == |b|
  {
    forall x | 0 <= x < |b| ensures Lower(b)[x] != 'e' {
      UnsignedDecimalChar(b, x);
    }
    IndexOfIs(Lower(b), 'e', |b|);
  }

  lemma UnsignedDecimalAgrees(b: string)
    requires IsUnsignedDecimal(b)
    ensures UnsignedDecimalValue(b) == UnsignedValue(b)
  {
    NoExponent(b);
    assert b[..|b|] == b;
    var d := IndexOf(b, '.');
    if d < |b| {
      assert b[..d] + b[d + 1..] == b[..d] + (if d < |b| then b[d + 1..] else "");
    } else {
      assert b[..d] + "" == b;
    }
  }

  /** How an array converts to a number: the empty array and one null or undefined
      item give 0, one other item converts as its string does, and two or more items
      give NaN (their string holds a comma). */
  lemma ArrayToNumber(items: seq<Value>)
    ensures items == [] ==> ToNumber(Arr(items)) == Int(0)
    ensures |items| == 1 && (items[0].Null? || items[0].Undef?) ==> ToNumber(Arr(items)) == Int(0)
    ensures |items| == 1 && !items[0].Null? && !items[0].Undef? ==>
      ToNumber(Arr(items)) == ToNumber(Str(ToText(items[0])))
    ensures |items| >= 2 ==> ToNumber(Arr(items)).NaN?
  {
    var parts := seq(|items|, i requires 0 <= i < |items| =>
      if items[i].Null? || items[i].Undef? then "" else ToText(items[i]));
    assert ToText(Arr(items)) == JoinComma(parts);
    if |items| >= 2 {
      var s := JoinComma(parts);
      assert s == parts[0] + "," + JoinComma(parts[1..]);
      assert s[|parts[0]|] == ',';
      ForeignIsNaN(s, |parts[0]|);
    }
  }

  /** `Number([n])` is `n`. */
  lemma NumberArray(n: Number)
    requires n.Dec?
    ensures NumEq(ToNumber(Arr([Num(n)])), n)
  {
    var t := StringifyText(Num(n));
    NormalizeSameValue(n);
    StringifyNumber(n);
    NumberTextToNumber(t);
    SingleItemText(Num(n), t);
  }

  /** `Number([x])` reads the string of `x`, for an item that is neither null nor undefined. */
  lemma SingleItemText(x: Value, t: string)
    requires !x.Null? && !x.Undef? && ToText(x) == t
    ensures ToNumber(Arr([x])) == StringToNumber(t)
  {
    ArrayToNumber([x]);
    assert [x][0] == x;
  }

  /** `Number([NaN])` is NaN. */
  lemma NaNArray()
    ensures ToNumber(Arr([Num(NaN)])).NaN?
  {
    ArrayToNumber([Num(NaN)]);
    LeadingForeign(ToText(Num(NaN)));
  }

  lemma LeadingForeign(s: string)
    requires s != [] && Foreign(s[0])
    ensures StringToNumber(s).NaN?
  {
    ForeignIsNaN(s, 0);
  }

  predicate IsPrimitive(v: Value) { !v.Arr? && !v.Obj? }

  function TypeTag(v: Value): nat
  {
    match v
    case Undef => 0
    case Null => 1
    case Bool(_) => 2
    case Num(_) => 3
    case Str(_) => 4
    case Arr(_) => 5
    case Obj(_) => 5
  }

  /** IsStrictlyEqual on two primitives of the same type. */
  predicate StrictEq(x: Value, y: Value)
    requires IsPrimitive(x) && IsPrimitive(y) && TypeTag(x) == TypeTag(y)
  {
    match x
    case Num(n) => NumEq(n, y.n)
    case _ => x == y
  }
  /** `x === y`.  Two arrays or objects are never the same reference here: the
      values compared are freshly parsed. */
  predicate StrictEquals(x: Value, y: Value)
  {
    IsPrimitive(x) && IsPrimitive(y) && TypeTag(x) == TypeTag(y) && StrictEq(x, y)
  }


  function Rank(v: Value): nat { if v.Bool? then 1 else 0 }

  /** IsLooselyEqual (`==`) on primitives. */
  predicate LooseEq(x: Value, y: Value)
    requires IsPrimitive(x) && IsPrimitive(y)
    decreases Rank(x) + Rank(y)
  {
    if TypeTag(x) == TypeTag(y) then StrictEq(x, y)
    else if (x.Null? || x.Undef?) && (y.Null? || y.Undef?) then true
    else if x.Num? && y.Str? then NumEq(x.n, StringToNumber(y.s))
    else if x.Str? && y.Num? then NumEq(StringToNumber(x.s), y.n)
    else if x.Bool? then LooseEq(Num(ToNumber(x)), y)
    else if y.Bool? then LooseEq(x, Num(ToNumber(y)))
    else false
  }

  /** Lexicographic order of strings, character by character; a proper prefix is smaller. */
  predicate StrLess(a: string, b: string)
  {
    if a == [] then b != []
    else if b == [] then false
    else if a[0] != b[0] then a[0] < b[0]
    else StrLess(a[1..], b[1..])
  }

  /** IsLessThan on primitives: `None` stands for the ECMAScript specification's undefined (a NaN operand). */
  function LessThan(x: Value, y: Value): Option<bool>
  {
    if x.Str? && y.Str? then Some(StrLess(x.s, y.s))
    else
      var nx, ny := ToNumber(x), ToNumber(y);
      if nx.NaN? || ny.NaN? then None else Some(NumLess(nx, ny))
  }

  /** The six operators on two parsed literals. */
  predicate Compare(left: Value, op: Op, right: Value)
    requires IsPrimitive(left) && IsPrimitive(right)
  {
    match op
    case Eq => LooseEq(left, right)
    case Ne => !LooseEq(left, right)
    case Gt => LessThan(right, left) == Some(true)
    case Ge => LessThan(left, right) == Some(false)
    case Lt => LessThan(left, right) == Some(true)
    case Le => LessThan(right, left) == Some(false)
  }

  lemma {:induction false} LooseEqSymmetric(x: Value, y: Value)
    requires IsPrimitive(x) && IsPrimitive(y)
    ensures LooseEq(x, y) == LooseEq(y, x)
    decreases Rank(x) + Rank(y)
  {
    if TypeTag(x) != TypeTag(y) {
      if x.Bool? {
        LooseEqSymmetric(Num(ToNumber(x)), y);
      } else if y.Bool? {
        LooseEqSymmetric(x, Num(ToNumber(y)));
      }
    }
  }

  /** The operator applied to the two operand texts, each parsed as a literal. */
  predicate Verdict(left: string, op: Op, right: string)
  {
    Compare(ParseLiteral(left), op, ParseLiteral(right))
  }

  /** `evaluateCondition`: false for an empty or non-string condition and for
      any substituted text that is not a single comparison; never an error. */
  function EvaluateCondition(condition: Value, ctx: Value): (r: bool)
    ensures !Truthy(condition) || !condition.Str? ==> !r
    ensures r ==> MatchComparison(SubstituteContextTokens(condition.s, ctx)).Some?
  {
    if !Truthy(condition) || !condition.Str? then false
    else EvaluateText(SubstituteContextTokens(condition.s, ctx))
  }

  /** The verdict on a substituted condition: the comparison the regex reads in
      it, false when it reads none. */
  predicate EvaluateText(text: string)
  {
    match MatchComparison(text)
    case None => false
    case Some(m) => Verdict(text[m.i..m.j], m.op, text[m.q..m.r])
  }

  /** Text that admits no `<left> <op> <right>` reading evaluates to false. */
  lemma NoComparisonIsFalse(condition: string, ctx: Value)
    requires forall m: Shape :: !Fits(SubstituteContextTokens(condition, ctx), m)
    ensures !EvaluateCondition(Str(condition), ctx)
  {
  }

  lemma EvaluateAt(condition: string, ctx: Value, m: Shape)
    requires condition != [] && MatchComparison(SubstituteContextTokens(condition, ctx)) == Some(m)
    ensures var text := SubstituteContextTokens(condition, ctx);
      EvaluateCondition(Str(condition), ctx) == Verdict(text[m.i..m.j], m.op, text[m.q..m.r])
  {
    EvaluateStr(condition, ctx);
    EvaluateTextAt(SubstituteContextTokens(condition, ctx), m);
  }

  lemma EvaluateStr(condition: string, ctx: Value)
    requires condition != []
    ensures EvaluateCondition(Str(condition), ctx) == EvaluateText(SubstituteContextTokens(condition, ctx))
  {
    assert Truthy(Str(condition));
  }

  lemma EvaluateTextAt(text: string, m: Shape)
    requires MatchComparison(text) == Some(m)
    ensures m.i <= m.j <= m.q <= m.r <= |text|
    ensures EvaluateText(text) == Verdict(text[m.i..m.j], m.op, text[m.q..m.r])
  {
  }

  /** One placeholder followed by text without `{{`. */
  lemma SubstituteTokenThenPlain(path: string, rest: string, ctx: Value)
    requires path != [] && '}' !in path
    requires forall i: nat :: !ContainsAt(rest, "{{", i)
    ensures SubstituteContextTokens("{{context." + path + "}}" + rest, ctx) == TokenText(ctx, path) + rest
  {
    var t := "{{context." + path + "}}";
    var s := t + rest;
    LeadingToken(path, rest);
    PlainAfter(t, rest);
    SubstituteFromPlain(s, |t|, ctx);
    assert s[|t|..] == rest;
    assert SubstituteFrom(s, 0, ctx) == TokenText(ctx, path) + SubstituteFrom(s, |t|, ctx);
  }

  /** A placeholder at the head of a text is read with its path. */
  lemma LeadingToken(path: string, rest: string)
    requires path != [] && '}' !in path
    ensures var t := "{{context." + path + "}}";
      TokenAt(t + rest, 0) == Some((path, |t|))
  {
    var t := "{{context." + path + "}}";
    var s := t + rest;
    var n := |path|;
    assert ContainsAt(s, "{{", 0);
    assert SpaceEnd(s, 2) == 2 by { assert s[2] == 'c'; }
    assert ContainsAt(s, "context.", 2) by { assert s[2..10] == "context."; }
    assert forall x :: 10 <= x < 10 + n ==> s[x] != '}' by {
      forall x | 10 <= x < 10 + n ensures s[x] != '}' {
        assert s[x] == path[x - 10];
      }
    }
    BraceFreeEndIs(s, 10, 10 + n);
    assert ContainsAt(s, "}}", 10 + n) by { assert s[10 + n..12 + n] == "}}"; }
    assert s[10..10 + n] == path;
  }

  lemma PlainAfter(t: string, rest: string)
    requires forall i: nat :: !ContainsAt(rest, "{{", i)
    ensures forall i: nat :: |t| <= i ==> !ContainsAt(t + rest, "{{", i)
  {
    var s := t + rest;
    forall i: nat | |t| <= i ensures !ContainsAt(s, "{{", i) {
      if i + 2 <= |s| {
        assert rest[i - |t|..i - |t| + 2] == s[i..i + 2];
        assert !ContainsAt(rest, "{{", i - |t|);
      }
    }
  }
}

=== FILE: condition_examples.dfy ===
/** Worked examples of the condition language: the decision conditions of
    the engine's routing scenario and the evaluator's documented cases. */
module ConditionExamples {
  import opened Values
  import opened Condition

  /** A plain text whose two sides read as the integers `a` and `b` evaluates to
      their comparison. */
  lemma IntegerComparison(s: string, ctx: Value, m: Shape, a: int, b: int)
    requires '{' !in s && MatchComparison(s) == Some(m)
    requires m.i <= m.j <= m.q <= m.r <= |s|
    requires s[m.i..m.j] == IntToString(a) && s[m.q..m.r] == IntToString(b)
    ensures EvaluateCondition(Str(s), ctx) == Compare(Num(Int(a)), m.op, Num(Int(b)))
  {
    NoBraceNoOpening(s);
    SubstitutePlain(s, ctx);
    assert s != [];
    EvaluateAt(s, ctx, m);
    IntegerVerdict(s[m.i..m.j], m.op, s[m.q..m.r], a, b);
  }

  lemma IntegerVerdict(left: string, op: Op, right: string, a: int, b: int)
    requires left == IntToString(a) && right == IntToString(b)
    ensures Verdict(left, op, right) == Compare(Num(Int(a)), op, Num(Int(b)))
  {
    IntegerLiteral(a);
    IntegerLiteral(b);
  }

  /** The one reading of a single digit, a spaced `>` and a single digit. */
  lemma MatchDigitGtDigit(s: string)
    requires |s| == 5 && IsDigit(s[0]) && s[1..4] == " > " && IsDigit(s[4])
    ensures MatchComparison(s) == Some(Shape(0, 1, 2, Gt, 4, 5))
  {
    assert SpaceEnd(s, 0) == 0;
    assert SpaceEnd(s, 1) == 2 by { assert s[1] == ' ' && s[2] == '>'; }
    assert SpaceEnd(s, 3) == 4 by { assert s[3] == ' '; }
    DigitGtDigitRight(s);
    DigitGtDigitOps(s);
  }

  lemma DigitGtDigitRight(s: string)
    requires |s| == 5 && IsDigit(s[0]) && s[1..4] == " > " && IsDigit(s[4])
    ensures TryOps(s, 0, 1, 2, 4) == Some(Shape(0, 1, 2, Gt, 4, 5))
  {
    assert s[2] == '>' && s[3] == ' ';
    assert SpaceEnd(s, 3) == 4;
    assert TryRightEnd(s, 0, 1, 2, Gt, 4, 5) == Some(Shape(0, 1, 2, Gt, 4, 5));
    assert TryRightStart(s, 0, 1, 2, Gt, 4) == Some(Shape(0, 1, 2, Gt, 4, 5));
  }

  lemma DigitGtDigitOps(s: string)
    requires |s| == 5 && IsDigit(s[0]) && s[1..4] == " > " && IsDigit(s[4])
    requires TryOps(s, 0, 1, 2, 4) == Some(Shape(0, 1, 2, Gt, 4, 5))
    requires SpaceEnd(s, 0) == 0 && SpaceEnd(s, 1) == 2
    ensures TryLeft(s, 0, 1) == Some(Shape(0, 1, 2, Gt, 4, 5))
  {
    assert s[2..4] == "> " by { assert s[2] == s[1..4][1] && s[3] == s[1..4][2]; }
    var m := Shape(0, 1, 2, Gt, 4, 5);
    assert TryOps(s, 0, 1, 2, 3) == Some(m) by { assert !ContainsAt(s, "<=", 2); }
    assert TryOps(s, 0, 1, 2, 2) == Some(m) by { assert !ContainsAt(s, ">=", 2); }
    assert TryOps(s, 0, 1, 2, 1) == Some(m) by { assert !ContainsAt(s, "!=", 2); }
    assert TryOps(s, 0, 1, 2, 0) == Some(m) by { assert !ContainsAt(s, "==", 2); }
  }

  /** A single digit, a spaced `>` and a single digit compare as integers. */
  lemma DigitAboveDigit(s: string, ctx: Value, a: nat, b: nat)
    requires a < 10 && b < 10 && s == [DigitChar(a)] + " > " + [DigitChar(b)]
    ensures EvaluateCondition(Str(s), ctx) == Compare(Num(Int(a)), Gt, Num(Int(b)))
  {
    DigitTexts(s, a, b);
    MatchDigitGtDigit(s);
    IntegerComparison(s, ctx, Shape(0, 1, 2, Gt, 4, 5), a, b);
  }

  lemma DigitTexts(s: string, a: nat, b: nat)
    requires a < 10 && b < 10 && s == [DigitChar(a)] + " > " + [DigitChar(b)]
    ensures |s| == 5 && IsDigit(s[0]) && s[1..4] == " > " && IsDigit(s[4]) && '{' !in s
    ensures s[0..1] == IntToString(a) && s[4..5] == IntToString(b)
  {
  }

  /** `"5 > 3"` holds. */
  lemma FiveGreaterThanThree(ctx: Value)
    ensures EvaluateCondition(Str("5 > 3"), ctx)
  {
    DigitAboveDigit("5 > 3", ctx, 5, 3);
    FiveAboveThree();
  }

  lemma FiveAboveThree()
    ensures Compare(Num(Int(5)), Gt, Num(Int(3)))
  {
    assert NumLess(Int(3), Int(5));
  }

  /** `"2 > 3"` does not hold. */
  lemma TwoNotGreaterThanThree(ctx: Value)
    ensures !EvaluateCondition(Str("2 > 3"), ctx)
  {
    DigitAboveDigit("2 > 3", ctx, 2, 3);
    TwoNotAboveThree();
  }

  lemma TwoNotAboveThree()
    ensures !Compare(Num(Int(2)), Gt, Num(Int(3)))
  {
    assert !NumLess(Int(3), Int(2));
  }

  /** A text without any of the characters that start an operator admits no reading. */
  lemma NoOperatorNoFit(s: string)
    requires forall k :: 0 <= k < |s| ==> s[k] != '=' && s[k] != '!' && s[k] != '<' && s[k] != '>'
    ensures forall m: Shape :: !Fits(s, m)
  {
    forall m: Shape ensures !Fits(s, m) {
      var t := OpText(m.op);
      assert t[0] in {'=', '!', '<', '>'};
      if m.p + |t| <= |s| {
        assert s[m.p..m.p + |t|][0] == s[m.p];
      }
    }
  }

  /** A text without any comparison operator, such as `"banana"`, is false. */
  lemma BananaIsFalse(ctx: Value)
    ensures !EvaluateCondition(Str("banana"), ctx)
  {
    var s := "banana";
    NoBraceNoOpening(s);
    SubstitutePlain(s, ctx);
    NoOperatorNoFit(s);
    NoComparisonIsFalse(s, ctx);
  }

  /** `"{{context.current.count}} >= 10"` holds when the count is 12. */
  lemma CountAtLeastTen(ctx: Value)
    requires GetPathValue(ctx, "current.count") == Num(Int(12))
    ensures EvaluateCondition(Str("{{context.current.count}} >= 10"), ctx)
  {
    var s := "{{context.current.count}} >= 10";
    var text := "12 >= 10";
    CountToken(ctx);
    CountSubstituted(ctx);
    MatchTwelveGeTen();
    EvaluateAt(s, ctx, Shape(0, 2, 3, Ge, 6, 8));
    TwelveAtLeastTen();
  }

  lemma TwelveAtLeastTen()
    ensures var text := "12 >= 10"; Verdict(text[0..2], Ge, text[6..8])
  {
    var text := "12 >= 10";
    SmallIntegerTexts();
    assert text[0..2] == "12" && text[6..8] == "10";
    IntegerVerdict(text[0..2], Ge, text[6..8], 12, 10);
    TwelveAboveTen();
  }

  lemma TwelveAboveTen()
    ensures Compare(Num(Int(12)), Ge, Num(Int(10)))
  {
    assert Pow10(0) == 1;
    assert !NumLess(Int(12), Int(10));
  }

  /** The decimal texts of the integers the examples compare. */
  lemma SmallIntegerTexts()
    ensures IntToString(2) == "2" && IntToString(3) == "3" && IntToString(5) == "5"
    ensures IntToString(10) == "10" && IntToString(12) == "12"
  {
    assert NatToString(10) == NatToString(1) + [DigitChar(0)];
    assert NatToString(12) == NatToString(1) + [DigitChar(2)];
  }

  lemma CountSubstituted(ctx: Value)
    requires TokenText(ctx, "current.count") == "12"
    ensures SubstituteContextTokens("{{context.current.count}} >= 10", ctx) == "12 >= 10"
  {
    CountNoBrace();
    TokenThenPlainText("{{context.current.count}} >= 10", "current.count", " >= 10", ctx, "12", "12 >= 10");
  }

  lemma TokenThenPlainText(s: string, path: string, rest: string, ctx: Value, token: string, text: string)
    requires s == "{{context." + path + "}}" + rest && text == token + rest
    requires path != [] && '}' !in path && TokenText(ctx, path) == token
    requires forall i: nat :: !ContainsAt(rest, "{{", i)
    ensures SubstituteContextTokens(s, ctx) == text
  {
    SubstituteTokenThenPlain(path, rest, ctx);
  }

  lemma CountNoBrace()
    ensures "{{context.current.count}} >= 10" == "{{context." + "current.count" + "}}" + " >= 10"
    ensures "12 >= 10" == "12" + " >= 10"
    ensures '}' !in "current.count"
    ensures forall i: nat :: !ContainsAt(" >= 10", "{{", i)
  {
    NoBraceNoOpening(" >= 10");
  }

  lemma CountToken(ctx: Value)
    requires GetPathValue(ctx, "current.count") == Num(Int(12))
    ensures TokenText(ctx, "current.count") == "12"
  {
    TrimCurrentCount();
    StringifyTwelve(GetPathValue(ctx, "current.count"));
  }

  lemma TrimCurrentCount()
    ensures Trim("current.count") == "current.count"
  {
    TrimNoSpace("current.count");
  }

  lemma StringifyTwelve(v: Value)
    requires v == Num(Int(12))
    ensures StringifyText(v) == "12"
  {
    assert NumberToString(Int(12)) == "12" by {
      assert NatToString(12) == "12";
    }
  }

  lemma MatchTwelveGeTen()
    ensures MatchComparison("12 >= 10") == Some(Shape(0, 2, 3, Ge, 6, 8))
  {
    var s := "12 >= 10";
    assert SpaceEnd(s, 0) == 0;
    TwelveLeftTwo();
    TwelveLeftOne();
  }

  lemma TwelveRight()
    ensures TryRightStart("12 >= 10", 0, 2, 3, Ge, 6) == Some(Shape(0, 2, 3, Ge, 6, 8))
  {
    var s := "12 >= 10";
    assert TryRightEnd(s, 0, 2, 3, Ge, 6, 8) == Some(Shape(0, 2, 3, Ge, 6, 8));
    assert TryRightEnd(s, 0, 2, 3, Ge, 6, 7) == Some(Shape(0, 2, 3, Ge, 6, 8));
  }

  lemma TwelveLeftTwo()
    ensures TryLeft("12 >= 10", 0, 2) == Some(Shape(0, 2, 3, Ge, 6, 8))
  {
    var s := "12 >= 10";
    var m := Shape(0, 2, 3, Ge, 6, 8);
    assert SpaceEnd(s, 2) == 3;
    TwelveOps();
    assert TrySeparator(s, 0, 2, 3) == Some(m);
    assert TryLeftAt(s, 0, 2) == Some(m);
  }

  lemma TwelveOps()
    ensures TryOps("12 >= 10", 0, 2, 3, 0) == Some(Shape(0, 2, 3, Ge, 6, 8))
  {
    var s := "12 >= 10";
    var m := Shape(0, 2, 3, Ge, 6, 8);
    assert SpaceEnd(s, 5) == 6;
    TwelveRight();
    assert TryOps(s, 0, 2, 3, 2) == Some(m) by { assert ContainsAt(s, ">=", 3); }
    assert TryOps(s, 0, 2, 3, 1) == Some(m) by { assert !ContainsAt(s, "!=", 3); }
    assert TryOps(s, 0, 2, 3, 0) == Some(m) by { assert !ContainsAt(s, "==", 3); }
  }

  lemma TwelveLeftOne()
    ensures TryLeft("12 >= 10", 0, 1) == TryLeft("12 >= 10", 0, 2)
  {
    var s := "12 >= 10";
    assert SpaceEnd(s, 1) == 1;
    TwelveNoOpAtOne();
    assert TrySeparator(s, 0, 1, 1) == None;
    assert TryLeftAt(s, 0, 1) == None;
  }

  lemma TwelveNoOpAtOne()
    ensures TryOps("12 >= 10", 0, 1, 1, 0) == None
  {
    var s := "12 >= 10";
    assert s[1] == '2';
    assert TryOps(s, 0, 1, 1, 5) == None by { assert !ContainsAt(s, "<", 1); }
    assert TryOps(s, 0, 1, 1, 4) == None by { assert !ContainsAt(s, ">", 1); }
    assert TryOps(s, 0, 1, 1, 3) == None by { assert !ContainsAt(s, "<=", 1); }
    assert TryOps(s, 0, 1, 1, 2) == None by { assert !ContainsAt(s, ">=", 1); }
    assert TryOps(s, 0, 1, 1, 1) == None by { assert !ContainsAt(s, "!=", 1); }
    assert TryOps(s, 0, 1, 1, 0) == None by { assert !ContainsAt(s, "==", 1); }
  }

  /** `FiveGreaterThanThree` for a condition held in a variable. */
  lemma FiveGreaterThanThreeText(condition: string, ctx: Value)
    requires condition == "5 > 3"
    ensures EvaluateCondition(Str(condition), ctx)
  {
    FiveGreaterThanThree(ctx);
  }

  /** `TwoNotGreaterThanThree` for a condition held in a variable. */
  lemma TwoNotGreaterThanThreeText(condition: string, ctx: Value)
    requires condition == "2 > 3"
    ensures !EvaluateCondition(Str(condition), ctx)
  {
    TwoNotGreaterThanThree(ctx);
  }
}

=== FILE: editor_types.dfy ===
/** The workflow editor's node schemas, canvas nodes and handle compatibility. */
module EditorTypes {
  import opened Values
  import opened Condition

  /** A port of a node schema; its label and `required` flag play no part here. */
  datatype Port = Port(id: string, dataType: string)

  /** A node schema: its type tag, its title, its ports and its default data.
      Category, icon, hint, UI and execution hints are carried by no operation. */
  datatype NodeSchema = NodeSchema(nodeType: string, title: Value, inputs: seq<Port>, outputs: seq<Port>, defaultData: Option<Fields>)

  /** An entry of a canvas node's `data`: the schema snapshot, or any other value. */
  datatype Datum = Snapshot(schema: NodeSchema) | Plain(value: Value)

  datatype Position = Position(x: Number, y: Number)

  datatype FlowNode = FlowNode(id: string, nodeType: string, position: Position, data: seq<(string, Datum)>)

  // ---------------------------------------------------------------------
  // Handle compatibility

  /** Whether an output of one data type may feed an input of another. */
  predicate Compatible(source: string, target: string)
  {
    if source == "any" || target == "any" then true
    else if source == "flow" || target == "flow" then source == target
    else source == target
  }

  /** `canConnect` on two handles, either of which may be missing. */
  function CanConnect(sourceHandle: Option<string>, targetHandle: Option<string>): (r: bool)
    ensures sourceHandle.None? || targetHandle.None? ==> !r
    ensures sourceHandle.Some? && targetHandle.Some? && (sourceHandle.value == "any" || targetHandle.value == "any") ==> r
    ensures sourceHandle.Some? && targetHandle.Some? && sourceHandle.value != "any" && targetHandle.value != "any" ==>
      (r <==> sourceHandle.value == targetHandle.value)
  {
    if sourceHandle.None? || targetHandle.None? then false
    else Compatible(sourceHandle.value, targetHandle.value)
  }

  /** The relation is symmetric, and `flow` meets only `flow` or `any`. */
  lemma CompatibleSymmetric(source: string, target: string)
    ensures Compatible(source, target) == Compatible(target, source)
    ensures source == "flow" && Compatible(source, target) ==> target == "flow" || target == "any"
    ensures Compatible(source, target) <==> source == "any" || target == "any" || source == target
  {
  }

  // ---------------------------------------------------------------------
  // The node registry

  /** The last schema of the given type, if any. */
  function LastOfType(schemas: seq<NodeSchema>, t: string): (r: Option<NodeSchema>)
    ensures r.Some? <==> exists i :: 0 <= i < |schemas| && schemas[i].nodeType == t
    ensures r.Some? ==> r.value.nodeType == t && r.value in schemas
  {
    if schemas == [] then None
    else if schemas[|schemas| - 1].nodeType == t then Some(schemas[|schemas| - 1])
    else
      var r := LastOfType(schemas[..|schemas| - 1], t);
      assert forall i :: 0 <= i < |schemas| - 1 ==> schemas[..|schemas| - 1][i] == schemas[i];
      r
  }

  /** The schema `LastOfType` picks is at an index no later schema of that type follows. */
  lemma {:induction false} LastOfTypeIsLast(schemas: seq<NodeSchema>, i: nat)
    requires i < |schemas|
    requires forall j :: i < j < |schemas| ==> schemas[j].nodeType != schemas[i].nodeType
    ensures LastOfType(schemas, schemas[i].nodeType) == Some(schemas[i])
  {
    if i < |schemas| - 1 {
      var init := schemas[..|schemas| - 1];
      assert init[i] == schemas[i];
      LastOfTypeIsLast(init, i);
    }
  }

  function TypesOf(schemas: seq<NodeSchema>): set<string>
  {
    set i | 0 <= i < |schemas| :: schemas[i].nodeType
  }

  /** `createNodeRegistry`: one entry per schema type, the last schema of that type winning. */
  method CreateNodeRegistry(schemas: seq<NodeSchema>) returns (registry: map<string, NodeSchema>)
    ensures registry.Keys == TypesOf(schemas)
    ensures forall t :: t in registry ==> Some(registry[t]) == LastOfType(schemas, t)
  {
    registry := map[];
    for i := 0 to |schemas|
      invariant registry.Keys == TypesOf(schemas[..i])
      invariant forall t :: t in registry ==> Some(registry[t]) == LastOfType(schemas[..i], t)
    {
      assert schemas[..i + 1][..i] == schemas[..i];
      assert TypesOf(schemas[..i + 1]) == TypesOf(schemas[..i]) + {schemas[i].nodeType} by {
        assert forall j :: 0 <= j < i ==> schemas[..i + 1][j] == schemas[..i][j];
      }
      registry := registry[schemas[i].nodeType := schemas[i]];
    }
    assert schemas[..|schemas|] == schemas;
  }

  // ---------------------------------------------------------------------
  // Creating a canvas node

  /** The data a fresh node starts with, before the schema's defaults are spread in. */
  function BaseData(schema: NodeSchema): seq<(string, Datum)>
  {
    [("label", Plain(Member(schema.title, "en"))), ("schema", Snapshot(schema)),
     ("notes", Plain(Str(""))), ("execution", Plain(Obj([])))]
  }

  function AsData(fields: Fields): (r: seq<(string, Datum)>)
    ensures |r| == |fields| && forall i :: 0 <= i < |fields| ==> r[i] == (fields[i].0, Plain(fields[i].1))
  {
    seq(|fields|, i requires 0 <= i < |fields| => (fields[i].0, Plain(fields[i].1)))
  }

  lemma {:induction false} AsDataLookupLast(fields: Fields, k: string)
    ensures Keys(AsData(fields)) == Keys(fields)
    ensures LookupLast(AsData(fields), k) == match LookupLast(fields, k) case None => None case Some(v) => Some(Plain(v))
    decreases |fields|
  {
    var r := AsData(fields);
    assert Keys(r) == Keys(fields) by {
      forall k' | k' in Keys(fields) ensures k' in Keys(r) {
        var i :| 0 <= i < |fields| && fields[i].0 == k';
        assert r[i].0 == k';
      }
      forall k' | k' in Keys(r) ensures k' in Keys(fields) {
        var i :| 0 <= i < |r| && r[i].0 == k';
        assert fields[i].0 == k';
      }
    }
    if fields != [] && fields[|fields| - 1].0 != k {
      var init := fields[..|fields| - 1];
      assert AsData(fields)[..|fields| - 1] == AsData(init);
      AsDataLookupLast(init, k);
    }
  }

  /** `createFlowNodeFromSchema`; the id `crypto.randomUUID` would draw is a parameter,
      and a missing position means the origin. */
  function CreateFlowNode(schema: NodeSchema, position: Option<Position>, id: string): (node: FlowNode)
    ensures node.id == id && node.nodeType == schema.nodeType
    ensures node.position == if position.Some? then position.value else Position(Int(0), Int(0))
    ensures var defaults := if schema.defaultData.Some? then schema.defaultData.value else [];
      Keys(node.data) == {"label", "schema", "notes", "execution"} + Keys(defaults)
      && (forall k :: k in Keys(defaults) ==> Lookup(node.data, k) == Some(Plain(LookupLast(defaults, k).value)))
      && (forall k :: k !in Keys(defaults) ==> Lookup(node.data, k) == Lookup(BaseData(schema), k))
  {
    var defaults := if schema.defaultData.Some? then schema.defaultData.value else [];
    assert Keys(BaseData(schema)) == {"label", "schema", "notes", "execution"} by {
      var b := BaseData(schema);
      assert b[0].0 == "label" && b[1].0 == "schema" && b[2].0 == "notes" && b[3].0 == "execution";
    }
    assert forall k :: k in Keys(defaults) ==> LookupLast(AsData(defaults), k) == Some(Plain(LookupLast(defaults, k).value)) by {
      forall k | k in Keys(defaults) { AsDataLookupLast(defaults, k); }
    }
    AsDataLookupLast(defaults, "");
    FlowNode(id, schema.nodeType, if position.Some? then position.value else Position(Int(0), Int(0)),
             Spread(BaseData(schema), AsData(defaults)))
  }

  /** Without overriding defaults, a fresh node carries its own schema snapshot, an
      empty note and no execution settings; its label is the title's `en` member. */
  lemma FreshNodeData(schema: NodeSchema, position: Option<Position>, id: string)
    requires schema.defaultData.None?
    ensures var data := CreateFlowNode(schema, position, id).data;
      Lookup(data, "schema") == Some(Snapshot(schema))
      && Lookup(data, "label") == Some(Plain(Member(schema.title, "en")))
      && Lookup(data, "notes") == Some(Plain(Str("")))
      && Lookup(data, "execution") == Some(Plain(Obj([])))
  {
    var b := BaseData(schema);
    assert b[0].0 == "label" && b[1].0 == "schema" && b[2].0 == "notes" && b[3].0 == "execution";
    LookupAt(b, 1, "schema");
    LookupAt(b, 2, "notes");
    LookupAt(b, 3, "execution");
  }

  /** The schemas title their nodes with translation keys, which are strings; the
      `en` member of a string is undefined, so such a node has no label text. */
  lemma StringTitleHasNoLabel(schema: NodeSchema, position: Option<Position>, id: string)
    requires schema.title.Str? && schema.defaultData.None?
    ensures Lookup(CreateFlowNode(schema, position, id).data, "label") == Some(Plain(Undef))
  {
    FreshNodeData(schema, position, id);
    assert ParseIndex("en").None? by { assert !IsDigit('e'); }
  }
}

=== FILE: executor.dfy ===
/** The workflow execution engine: per-node executors over a mutable
    execution context, edge resolution, and the bounded traversal loop. */
module Executor {
  import opened Values
  import opened Condition

  datatype Node = Node(id: string, kind: string, data: Option<Fields>)

  datatype Edge = Edge(id: string, source: string, target: string, sourceHandle: Option<string>, targetHandle: Option<string>)

  datatype Definition = Definition(nodes: seq<Node>, edges: seq<Edge>)

  datatype EventStatus = Start | Success | Fail

  /** A progress report; `output` is undefined on `start` and `fail` events. */
  datatype RunEvent = RunEvent(nodeId: string, nodeType: string, status: EventStatus, output: Value, error: Option<string>, timestamp: string)

  /** The fields of the execution context at one moment. */
  datatype ContextState = ContextState(input: Value, current: Value, logs: seq<Value>, sideEffects: seq<Value>)

  datatype RunStatus = Succeeded | Failed

  datatype RunResult = RunResult(status: RunStatus, output: Value, context: ContextState, stoppedAtNodeId: string)

  /** How `executeWorkflow` ends: a result, or an error thrown to its caller. */
  datatype Outcome = Finished(result: RunResult) | Raised(statusCode: int, statusMessage: string)

  /** An error thrown inside a node: its `statusCode` (if any) and `message` (empty when absent). */
  datatype Failure = Failure(statusCode: Option<int>, message: string)

  datatype NodeResult = Returned(output: Value) | Threw(failure: Failure)

  /** The run's options.  The cancellation signal is one-shot: `abortFrom == Some(k)`
      means every observation of `signal.aborted` from the k-th on (counting from 0)
      sees it raised; `None` means no signal or one never raised.  `onLog` gives, for
      each `{level, message}` payload, the error the log callback throws, if any. */
  datatype Options = Options(input: Value, abortFrom: Option<nat>, development: bool, now: string, onLog: Value -> Option<Failure>)

  const NoNodesMessage := "Workflow definition has no nodes."
  const StepLimitMessage := "Workflow execution exceeded safe step limit."
  const AbortMessage := "Workflow execution aborted."
  const DefaultFailMessage := "Workflow node failed."

  predicate Aborted(abortFrom: Option<nat>, observation: nat)
  {
    abortFrom.Some? && observation >= abortFrom.value
  }

  function EmptyObject(): Value { Obj([]) }

  /** The execution context as the object that condition placeholders walk. */
  function ContextValue(st: ContextState): Value
  {
    Obj([("input", st.input), ("current", st.current), ("logs", Arr(st.logs)), ("sideEffects", Arr(st.sideEffects))])
  }

  /** `getContextSnapshotForLog`. */
  function LogSnapshot(st: ContextState): Value
  {
    Obj([("input", st.input), ("current", st.current), ("sideEffects", Arr(st.sideEffects))])
  }

  predicate IsTrigger(kind: string)
  {
    IsPrefix("trigger-", kind)
  }

  /** `data.schema?.defaultData ?? {}` for a node's own data. */
  function DefaultData(own: Fields): Value
  {
    Coalesce(OptionalMember(Field(own, "schema"), "defaultData"), EmptyObject())
  }

  /** `{...(node.data?.schema?.defaultData ?? {}), ...(node.data || {})}`: the node's own
      keys override the schema defaults; every other key is a default; nothing else appears. */
  function NodeData(node: Node): (data: Fields)
    ensures node.data.None? ==> data == []
    ensures node.data.Some? ==> Keys(data) == Keys(SpreadSource(DefaultData(node.data.value))) + Keys(node.data.value)
    ensures node.data.Some? ==> forall k :: k in Keys(node.data.value) ==> Lookup(data, k) == LookupLast(node.data.value, k)
    ensures node.data.Some? ==> forall k :: k !in Keys(node.data.value) ==>
      Lookup(data, k) == Lookup(SpreadSource(DefaultData(node.data.value)), k)
  {
    var own := if node.data.Some? then node.data.value else [];
    Spread(SpreadSource(DefaultData(own)), own)
  }

  // ---------------------------------------------------------------------
  // Node executors

  /** The unit multiplier of a delay: hours, minutes, otherwise seconds. */
  function UnitFactor(unit: Value): nat
  {
    if unit == Str("hours") then 3600000 else if unit == Str("minutes") then 60000 else 1000
  }

  /** The wait of a delay node in milliseconds. */
  function DelayMs(duration: Number, unit: Value): (ms: Number)
    ensures ms.NaN? <==> duration.NaN?
    ensures ms.Dec? ==> ms.scale == duration.scale && (ms.mantissa > 0 <==> duration.mantissa > 0)
  {
    NumMul(duration, UnitFactor(unit))
  }

  predicate Positive(n: Number) { n.Dec? && n.mantissa > 0 }

  /** The outcome of one node executor: its result, the context it leaves, and the
      index of the next observation of the abort signal. */
  datatype Execution = Execution(result: NodeResult, st: ContextState, observations: nat)

  function LogPayload(level: Value, message: Value): Value
  {
    Obj([("level", level), ("message", message)])
  }

  /** The record a log node appends: the context snapshot is there exactly when
      `includeContext` is truthy. */
  function LogRecord(message: Value, level: Value, includeContext: Value, st: ContextState, now: string): (r: Value)
    ensures r.Obj? && Field(r.fields, "type") == Str("log") && Field(r.fields, "timestamp") == Str(now)
    ensures Field(r.fields, "message") == message && Field(r.fields, "level") == level
    ensures Field(r.fields, "includeContext") == includeContext
    ensures Field(r.fields, "context") == (if Truthy(includeContext) then LogSnapshot(st) else Undef)
  {
    var fields := [("type", Str("log")), ("message", message), ("level", level), ("includeContext", includeContext),
                   ("context", if Truthy(includeContext) then LogSnapshot(st) else Undef), ("timestamp", Str(now))];
    assert fields[1].0[0] != fields[4].0[0];
    LookupAt(fields, 0, "type");
    LookupAt(fields, 1, "message");
    LookupAt(fields, 2, "level");
    LookupAt(fields, 3, "includeContext");
    LookupAt(fields, 4, "context");
    LookupAt(fields, 5, "timestamp");
    Obj(fields)
  }

  /** The log record of a node whose data is `data`: level `info` and `includeContext`
      true by default. */
  function LogEntry(data: Fields, st: ContextState, now: string): Value
  {
    LogRecord(Field(data, "message"), Coalesce(Field(data, "level"), Str("info")),
              Coalesce(Field(data, "includeContext"), Bool(true)), st, now)
  }

  function DelayRecord(duration: Number, unit: Value, skipped: bool, now: string): (r: Value)
    ensures r.Obj? && Field(r.fields, "type") == Str("delay") && Field(r.fields, "skipped") == Bool(skipped)
    ensures Field(r.fields, "duration") == Num(duration) && Field(r.fields, "unit") == unit
    ensures Field(r.fields, "timestamp") == Str(now)
  {
    var fields := [("type", Str("delay")), ("duration", Num(duration)), ("unit", unit), ("skipped", Bool(skipped)), ("timestamp", Str(now))];
    LookupAt(fields, 0, "type");
    LookupAt(fields, 1, "duration");
    LookupAt(fields, 2, "unit");
    LookupAt(fields, 3, "skipped");
    LookupAt(fields, 4, "timestamp");
    Obj(fields)
  }

  /** The side effect a send-email node records: its recipient, subject and body as given. */
  function EmailRecord(data: Fields, now: string): (r: Value)
    ensures r.Obj? && Field(r.fields, "type") == Str("send-email") && Field(r.fields, "timestamp") == Str(now)
    ensures Field(r.fields, "to") == Field(data, "to") && Field(r.fields, "subject") == Field(data, "subject")
    ensures Field(r.fields, "body") == Field(data, "body")
  {
    var fields := [("type", Str("send-email")), ("to", Field(data, "to")), ("subject", Field(data, "subject")),
                   ("body", Field(data, "body")), ("timestamp", Str(now))];
    LookupAt(fields, 0, "type");
    LookupAt(fields, 1, "to");
    LookupAt(fields, 2, "subject");
    LookupAt(fields, 3, "body");
    LookupAt(fields, 4, "timestamp");
    Obj(fields)
  }

  /** `data?.condition ?? data?.config?.condition ?? ''`. */
  function DecisionCondition(data: Fields): Value
  {
    Coalesce(Coalesce(Field(data, "condition"), OptionalMember(Field(data, "config"), "condition")), Str(""))
  }

  /** `Number(data.duration ?? 0)`. */
  function DelayDuration(data: Fields): Number
  {
    ToNumber(Coalesce(Field(data, "duration"), Num(Int(0))))
  }

  /** `data.unit ?? 'seconds'`. */
  function DelayUnit(data: Fields): Value
  {
    Coalesce(Field(data, "unit"), Str("seconds"))
  }

  /** None of the built-in node types is a trigger type. */
  lemma BuiltInKindsAreNotTriggers()
    ensures !IsTrigger("log") && !IsTrigger("delay") && !IsTrigger("send-email") && !IsTrigger("decision") && !IsTrigger("done")
  {
    assert "send-email"[..8][0] != 't';
    assert "decision"[..8][0] != 't';
  }

  predicate PassesThrough(kind: string)
  {
    IsTrigger(kind) || (kind != "log" && kind != "delay" && kind != "send-email" && kind != "decision")
  }

  /** `executeNode` as a function of the context it starts from; `obs` is the
      index of the next observation of the abort signal. */
  function NodeStep(node: Node, input: Value, st: ContextState, o: Options, obs: nat): (e: Execution)
    // what every executor keeps: the context only grows, by at most one record in each list
    ensures e.st.input == st.input && e.st.current == st.current
    ensures |st.logs| <= |e.st.logs| <= |st.logs| + 1 && e.st.logs[..|st.logs|] == st.logs
    ensures |st.sideEffects| <= |e.st.sideEffects| <= |st.sideEffects| + 1 && e.st.sideEffects[..|st.sideEffects|] == st.sideEffects
    ensures e.result.Threw? ==> e.st == st || node.kind == "delay"
    // triggers, `done` and unknown types pass their input through and change nothing
    ensures PassesThrough(node.kind) ==> e == Execution(Returned(input), st, obs)
    // a log node reports to the sink, then appends one log record unless the sink threw
    ensures node.kind == "log" ==>
      (e.st.sideEffects == st.sideEffects && e.observations == obs
       && (e.result.Returned? <==> |e.st.logs| == |st.logs| + 1)
       && (e.result.Returned? ==> e.result.output == input && e.st.logs[|st.logs|] == LogEntry(NodeData(node), st, o.now)))
    // a delay node always appends one delay log whose `skipped` is the development flag,
    // and waits (observing the signal once) only outside development for a positive time
    ensures node.kind == "delay" ==>
      (|e.st.logs| == |st.logs| + 1 && e.st.sideEffects == st.sideEffects
       && e.st.logs[|st.logs|].Obj? && Field(e.st.logs[|st.logs|].fields, "skipped") == Bool(o.development)
       && (e.observations == obs + 1 <==> !o.development && Positive(DelayMs(DelayDuration(NodeData(node)), DelayUnit(NodeData(node)))))
       && (e.observations == obs ==> e.result == Returned(input))
       && (e.result.Threw? <==> e.observations == obs + 1 && Aborted(o.abortFrom, obs))
       && (e.result.Threw? ==> e.result.failure == Failure(Some(499), AbortMessage)))
    // a send-email node appends exactly one side effect, its email record
    ensures node.kind == "send-email" ==>
      (e.st.logs == st.logs && |e.st.sideEffects| == |st.sideEffects| + 1
       && e.st.sideEffects[|st.sideEffects|] == EmailRecord(NodeData(node), o.now)
       && e.result == Returned(input) && e.observations == obs)
    // a decision node yields false for an empty condition, otherwise the condition's
    // verdict over the context
    ensures node.kind == "decision" ==>
      (e.st == st && e.observations == obs && e.result.Returned? && e.result.output.Bool?
       && (!Truthy(DecisionCondition(NodeData(node))) ==> e.result.output == Bool(false))
       && (Truthy(DecisionCondition(NodeData(node))) ==>
             e.result.output == Bool(EvaluateCondition(DecisionCondition(NodeData(node)), ContextValue(st)))))
  {
    BuiltInKindsAreNotTriggers();
    var data := NodeData(node);
    if IsTrigger(node.kind) then Execution(Returned(input), st, obs)
    else if node.kind == "log" then LogStep(data, input, st, o, obs)
    else if node.kind == "delay" then DelayStep(data, input, st, o, obs)
    else if node.kind == "send-email" then
      Execution(Returned(input), st.(sideEffects := st.sideEffects + [EmailRecord(data, o.now)]), obs)
    else if node.kind == "decision" then DecisionStep(data, st, obs)
    else Execution(Returned(input), st, obs)
  }

  /** The `decision` case: false for an empty condition, otherwise the condition's
      verdict over the context. */
  function DecisionStep(data: Fields, st: ContextState, obs: nat): (e: Execution)
    ensures e.st == st && e.observations == obs && e.result.Returned? && e.result.output.Bool?
    ensures !Truthy(DecisionCondition(data)) ==> e.result.output == Bool(false)
    ensures Truthy(DecisionCondition(data)) ==>
      e.result.output == Bool(EvaluateCondition(DecisionCondition(data), ContextValue(st)))
  {
    var condition := DecisionCondition(data);
    if !Truthy(condition) then Execution(Returned(Bool(false)), st, obs)
    else Execution(Returned(Bool(EvaluateCondition(condition, ContextValue(st)))), st, obs)
  }

  /** What a log node reports to the `onLog` sink: `{level, message}`, the level `info` by default. */
  function LogReport(data: Fields): Value
  {
    LogPayload(Coalesce(Field(data, "level"), Str("info")), Field(data, "message"))
  }

  /** The `log` case: report to the sink, then append one log record unless it threw. */
  function LogStep(data: Fields, input: Value, st: ContextState, o: Options, obs: nat): (e: Execution)
    ensures e.st.input == st.input && e.st.current == st.current && e.st.sideEffects == st.sideEffects
    ensures e.observations == obs
    ensures e.result.Threw? <==> o.onLog(LogReport(data)).Some?
    ensures e.result.Threw? ==> e.st == st && e.result.failure == o.onLog(LogReport(data)).value
    ensures e.result.Returned? ==> e.result.output == input && e.st.logs == st.logs + [LogEntry(data, st, o.now)]
  {
    match o.onLog(LogReport(data))
    case Some(f) => Execution(Threw(f), st, obs)
    case None =>
      var logs := st.logs + [LogEntry(data, st, o.now)];
      Execution(Returned(input), st.(logs := logs), obs)
  }

  /** The `delay` case: append one delay log, then wait, observing the signal once,
      only outside development and for a positive time. */
  function DelayStep(data: Fields, input: Value, st: ContextState, o: Options, obs: nat): (e: Execution)
    ensures e.st.input == st.input && e.st.current == st.current && e.st.sideEffects == st.sideEffects
    ensures |e.st.logs| == |st.logs| + 1 && e.st.logs[..|st.logs|] == st.logs
    ensures e.st.logs[|st.logs|].Obj? && Field(e.st.logs[|st.logs|].fields, "skipped") == Bool(o.development)
    ensures e.observations == obs + 1 <==> !o.development && Positive(DelayMs(DelayDuration(data), DelayUnit(data)))
    ensures e.observations == obs || e.observations == obs + 1
    ensures e.observations == obs ==> e.result == Returned(input)
    ensures e.result.Threw? <==> e.observations == obs + 1 && Aborted(o.abortFrom, obs)
    ensures e.result.Threw? ==> e.result.failure == Failure(Some(499), AbortMessage)
    ensures e.result.Returned? ==> e.result.output == input
  {
    var duration := DelayDuration(data);
    var unit := DelayUnit(data);
    var st' := st.(logs := st.logs + [DelayRecord(duration, unit, o.development, o.now)]);
    if !o.development && Positive(DelayMs(duration, unit)) then
      if Aborted(o.abortFrom, obs) then Execution(Threw(Failure(Some(499), AbortMessage)), st', obs + 1)
      else Execution(Returned(input), st', obs + 1)
    else Execution(Returned(input), st', obs)
  }

  /** The execution context, updated in place by the node executors. */
  class ExecutionContext {
    var input: Value
    var current: Value
    var logs: seq<Value>
    var sideEffects: seq<Value>

    function State(): ContextState
      reads this
    {
      ContextState(input, current, logs, sideEffects)
    }

    constructor(input: Value)
      ensures State() == ContextState(input, input, [], [])
    {
      this.input := input;
      this.current := input;
      this.logs := [];
      this.sideEffects := [];
    }

    /** `executeNode`: runs one node against this context. */
    method ExecuteNode(node: Node, nodeInput: Value, o: Options, obs: nat) returns (result: NodeResult, nextObs: nat)
      modifies this
      ensures Execution(result, State(), nextObs) == NodeStep(node, nodeInput, old(State()), o, obs)
    {
      var data := NodeData(node);
      nextObs := obs;
      if IsTrigger(node.kind) {
        return Returned(nodeInput), nextObs;
      }
      if node.kind == "log" {
        result := ExecuteLog(data, nodeInput, o, obs);
      } else if node.kind == "delay" {
        result, nextObs := ExecuteDelay(data, nodeInput, o, obs);
      } else if node.kind == "send-email" {
        sideEffects := sideEffects + [EmailRecord(data, o.now)];
        result := Returned(nodeInput);
      } else if node.kind == "decision" {
        var condition := DecisionCondition(data);
        if !Truthy(condition) {
          result := Returned(Bool(false));
        } else {
          result := Returned(Bool(EvaluateCondition(condition, ContextValue(State()))));
        }
      } else {
        result := Returned(nodeInput);
      }
    }

    /** The `log` case of `executeNode`. */
    method ExecuteLog(data: Fields, nodeInput: Value, o: Options, obs: nat) returns (result: NodeResult)
      modifies this
      ensures Execution(result, State(), obs) == LogStep(data, nodeInput, old(State()), o, obs)
    {
      var message := Field(data, "message");
      var level := Coalesce(Field(data, "level"), Str("info"));
      var includeContext := Coalesce(Field(data, "includeContext"), Bool(true));
      var thrown := o.onLog(LogPayload(level, message));
      if thrown.Some? {
        return Threw(thrown.value);
      }
      logs := logs + [LogRecord(message, level, includeContext, State(), o.now)];
      result := Returned(nodeInput);
    }

    /** The `delay` case of `executeNode`. */
    method ExecuteDelay(data: Fields, nodeInput: Value, o: Options, obs: nat) returns (result: NodeResult, nextObs: nat)
      modifies this
      ensures Execution(result, State(), nextObs) == DelayStep(data, nodeInput, old(State()), o, obs)
    {
      var duration := DelayDuration(data);
      var unit := DelayUnit(data);
      logs := logs + [DelayRecord(duration, unit, o.development, o.now)];
      result := Returned(nodeInput);
      nextObs := obs;
      if !o.development && Positive(DelayMs(duration, unit)) {
        if Aborted(o.abortFrom, obs) {
          result := Threw(Failure(Some(499), AbortMessage));
        }
        nextObs := obs + 1;
      }
    }
  }

  // ---------------------------------------------------------------------
  // Edge resolution

  /** Index of the first edge leaving through `handle`. */
  function FirstWithHandle(edges: seq<Edge>, handle: string): (r: Option<nat>)
    ensures r.Some? ==> (r.value < |edges| && edges[r.value].sourceHandle == Some(handle)
                         && forall j :: 0 <= j < r.value ==> edges[j].sourceHandle != Some(handle))
    ensures r.None? ==> forall j :: 0 <= j < |edges| ==> edges[j].sourceHandle != Some(handle)
  {
    if edges == [] then None
    else if edges[0].sourceHandle == Some(handle) then Some(0)
    else match FirstWithHandle(edges[1..], handle)
      case None => None
      case Some(k) => Some(k + 1)
  }

  /** `resolveNextEdge` over the outgoing edges of `node` in definition order. */
  function ResolveNextEdge(node: Node, output: Value, outgoing: seq<Edge>): (r: Option<Edge>)
    ensures outgoing == [] ==> r.None?
    ensures node.kind == "decision" ==>
      var handle := if output == Bool(true) then "true" else "false";
      (r.Some? ==> exists k :: 0 <= k < |outgoing| && outgoing[k] == r.value && r.value.sourceHandle == Some(handle)
                    && forall j :: 0 <= j < k ==> outgoing[j].sourceHandle != Some(handle))
      && (r.None? ==> forall j :: 0 <= j < |outgoing| ==> outgoing[j].sourceHandle != Some(handle))
    ensures node.kind != "decision" && outgoing != [] ==>
      (r.Some? &&
       ((exists k :: 0 <= k < |outgoing| && outgoing[k] == r.value && r.value.sourceHandle == Some("out")
                     && forall j :: 0 <= j < k ==> outgoing[j].sourceHandle != Some("out"))
        || (r.value == outgoing[0] && forall j :: 0 <= j < |outgoing| ==> outgoing[j].sourceHandle != Some("out"))))
  {
    if outgoing == [] then None
    else if node.kind == "decision" then
      match FirstWithHandle(outgoing, if output == Bool(true) then "true" else "false")
      case Some(k) => Some(outgoing[k])
      case None => None
    else
      match FirstWithHandle(outgoing, "out")
      case Some(k) => Some(outgoing[k])
      case None => Some(outgoing[0])
  }

  // ---------------------------------------------------------------------
  // Graph indexes

  /** `new Map(nodes.map((node) => [node.id, node]))`: every id maps to the last node carrying it. */
  function NodesById(nodes: seq<Node>): (m: map<string, Node>)
    ensures m.Keys == set i | 0 <= i < |nodes| :: nodes[i].id
    ensures forall i :: 0 <= i < |nodes| ==> (forall j :: i < j < |nodes| ==> nodes[j].id != nodes[i].id) ==> m[nodes[i].id] == nodes[i]
  {
    if nodes == [] then map[]
    else
      var init := nodes[..|nodes| - 1];
      var last := nodes[|nodes| - 1];
      assert forall i :: 0 <= i < |init| ==> init[i] == nodes[i];
      NodesById(init)[last.id := last]
  }

  /** The edges leaving `source`, in definition order. */
  function EdgesFrom(edges: seq<Edge>, source: string): seq<Edge>
  {
    if edges == [] then []
    else
      var init := EdgesFrom(edges[..|edges| - 1], source);
      if edges[|edges| - 1].source == source then init + [edges[|edges| - 1]] else init
  }

  /** `outgoingEdgesBySource` after the `forEach`: a list for every source that has an edge. */
  function OutgoingBySource(edges: seq<Edge>): (m: map<string, seq<Edge>>)
    ensures forall k :: k in m ==> m[k] == EdgesFrom(edges, k) && m[k] != []
    ensures forall k :: k !in m ==> EdgesFrom(edges, k) == []
  {
    if edges == [] then map[]
    else
      var prev := OutgoingBySource(edges[..|edges| - 1]);
      var e := edges[|edges| - 1];
      prev[e.source := (if e.source in prev then prev[e.source] else []) + [e]]
  }

  function MaxSteps(nodeCount: nat): nat
  {
    if nodeCount * 5 > 20 then nodeCount * 5 else 20
  }

  /** The two maps the traversal reads. */
  datatype Graph = Graph(byId: map<string, Node>, outgoing: map<string, seq<Edge>>)

  function Index(def: Definition): Graph
  {
    Graph(NodesById(def.nodes), OutgoingBySource(def.edges))
  }

  /** `outgoingEdgesBySource.get(id) || []`. */
  function OutgoingOf(g: Graph, id: string): seq<Edge>
  {
    if id in g.outgoing then g.outgoing[id] else []
  }

  /** The first trigger node, else the first node. */
  function StartNode(nodes: seq<Node>): (n: Node)
    requires nodes != []
    ensures n in nodes
    ensures IsTrigger(n.kind) <==> exists i :: 0 <= i < |nodes| && IsTrigger(nodes[i].kind)
    ensures IsTrigger(n.kind) ==> exists i :: 0 <= i < |nodes| && nodes[i] == n && forall j :: 0 <= j < i ==> !IsTrigger(nodes[j].kind)
    ensures !IsTrigger(n.kind) ==> n == nodes[0]
  {
    if IsTrigger(nodes[0].kind) then nodes[0]
    else if |nodes| == 1 then nodes[0]
    else
      var n := StartNode(nodes[1..]);
      if IsTrigger(n.kind) then n else nodes[0]
  }

  // ---------------------------------------------------------------------
  // The traversal

  function StartEvent(node: Node, now: string): RunEvent
  {
    RunEvent(node.id, node.kind, Start, Undef, None, now)
  }

  function SuccessEvent(node: Node, output: Value, now: string): RunEvent
  {
    RunEvent(node.id, node.kind, Success, output, None, now)
  }

  function FailEvent(node: Node, message: string, now: string): RunEvent
  {
    RunEvent(node.id, node.kind, Fail, Undef, Some(message), now)
  }

  /** `error?.message || 'Workflow node failed.'` */
  function FailureMessage(f: Failure): string
  {
    if f.message == "" then DefaultFailMessage else f.message
  }

  /** What one iteration of the loop does: stops the run, or moves to the next node. */
  datatype StepResult =
    | Stop(events: seq<RunEvent>, outcome: Outcome)
    | Continue(events: seq<RunEvent>, next: Node, carried: Value, st: ContextState, obs: nat)

  function Step(g: Graph, o: Options, node: Node, input: Value, st: ContextState, obs: nat): StepResult
  {
    if Aborted(o.abortFrom, obs) then Stop([], Finished(RunResult(Failed, input, st, node.id)))
    else AfterNode(g, o, node, input, NodeStep(node, input, st.(current := Coalesce(input, EmptyObject())), o, obs + 1))
  }

  /** The part of an iteration after `executeNode` has settled as `e`. */
  function AfterNode(g: Graph, o: Options, node: Node, input: Value, e: Execution): StepResult
  {
    var started := [StartEvent(node, o.now)];
    var failed := Finished(RunResult(Failed, input, e.st, node.id));
    match e.result
    case Threw(f) =>
      if Aborted(o.abortFrom, e.observations) || f.statusCode == Some(499) then Stop(started, failed)
      else Stop(started + [FailEvent(node, FailureMessage(f), o.now)], failed)
    case Returned(output) =>
      if Aborted(o.abortFrom, e.observations) then Stop(started, failed)
      else
        var events := started + [SuccessEvent(node, output, o.now)];
        var stop := Stop(events, Finished(RunResult(Succeeded, output, e.st, node.id)));
        if node.kind == "done" then stop
        else match ResolveNextEdge(node, output, OutgoingOf(g, node.id))
          case None => stop
          case Some(edge) =>
            if edge.target in g.byId then Continue(events, g.byId[edge.target], output, e.st, e.observations + 1)
            else stop
  }

  datatype Trace = Trace(events: seq<RunEvent>, outcome: Outcome)

  /** The loop from iteration `step` on, with at most `maxSteps` iterations in all. */
  function RunFrom(g: Graph, maxSteps: nat, o: Options, node: Node, input: Value, st: ContextState, obs: nat, step: nat): Trace
    decreases maxSteps - step
  {
    if step >= maxSteps then Trace([], Raised(400, StepLimitMessage))
    else match Step(g, o, node, input, st, obs)
      case Stop(events, outcome) => Trace(events, outcome)
      case Continue(events, next, carried, st', obs') =>
        var rest := RunFrom(g, maxSteps, o, next, carried, st', obs', step + 1);
        Trace(events + rest.events, rest.outcome)
  }

  /** `executeWorkflow`: the events it reports through `onEvent` and how it ends. */
  function Run(def: Definition, o: Options): Trace
  {
    if def.nodes == [] then Trace([], Raised(400, NoNodesMessage))
    else
      var input := Coalesce(o.input, EmptyObject());
      RunFrom(Index(def), MaxSteps(|def.nodes|), o, StartNode(def.nodes), input, ContextState(input, input, [], []), 0, 0)
  }

  method IndexNodes(nodes: seq<Node>) returns (byId: map<string, Node>)
    ensures byId == NodesById(nodes)
  {
    byId := map[];
    for i := 0 to |nodes|
      invariant byId == NodesById(nodes[..i])
    {
      assert nodes[..i + 1][..i] == nodes[..i];
      byId := byId[nodes[i].id := nodes[i]];
    }
    assert nodes[..|nodes|] == nodes;
  }

  method IndexEdges(edges: seq<Edge>) returns (outgoing: map<string, seq<Edge>>)
    ensures outgoing == OutgoingBySource(edges)
  {
    outgoing := map[];
    for i := 0 to |edges|
      invariant outgoing == OutgoingBySource(edges[..i])
    {
      assert edges[..i + 1][..i] == edges[..i];
      var edge := edges[i];
      var list := if edge.source in outgoing then outgoing[edge.source] else [];
      outgoing := outgoing[edge.source := list + [edge]];
    }
    assert edges[..|edges|] == edges;
  }

  /** One iteration of the loop of `executeWorkflow`, run against `context`: the events
      it reports, and either the outcome that ends the run or the next node and its input. */
  method ExecuteStep(byId: map<string, Node>, outgoing: map<string, seq<Edge>>, o: Options, context: ExecutionContext,
                     node: Node, carried: Value, obs: nat)
      returns (events: seq<RunEvent>, stopped: Option<Outcome>, next: Node, output: Value, nextObs: nat)
    modifies context
    ensures Step(Graph(byId, outgoing), o, node, carried, old(context.State()), obs) ==
      if stopped.Some? then Stop(events, stopped.value) else Continue(events, next, output, context.State(), nextObs)
  {
    if Aborted(o.abortFrom, obs) {
      return [], Some(Finished(RunResult(Failed, carried, context.State(), node.id))), node, carried, obs;
    }
    context.current := Coalesce(carried, EmptyObject());
    var result, observations := context.ExecuteNode(node, carried, o, obs + 1);
    events, stopped, next, output, nextObs := Settle(byId, outgoing, o, node, carried, Execution(result, context.State(), observations));
  }

  /** The rest of an iteration once `executeNode` has settled as `e`: the events reported
      (the start event included) and how the iteration ends. */
  method Settle(byId: map<string, Node>, outgoing: map<string, seq<Edge>>, o: Options, node: Node, carried: Value, e: Execution)
      returns (events: seq<RunEvent>, stopped: Option<Outcome>, next: Node, output: Value, nextObs: nat)
    ensures AfterNode(Graph(byId, outgoing), o, node, carried, e) ==
      if stopped.Some? then Stop(events, stopped.value) else Continue(events, next, output, e.st, nextObs)
  {
    events, next, output, nextObs := [StartEvent(node, o.now)], node, carried, e.observations;
    var failed := Finished(RunResult(Failed, carried, e.st, node.id));
    if e.result.Threw? {
      if !(Aborted(o.abortFrom, e.observations) || e.result.failure.statusCode == Some(499)) {
        events := events + [FailEvent(node, FailureMessage(e.result.failure), o.now)];
      }
      return events, Some(failed), next, output, nextObs;
    }
    if Aborted(o.abortFrom, e.observations) {
      return events, Some(failed), next, output, nextObs;
    }
    output := e.result.output;
    events := events + [SuccessEvent(node, output, o.now)];
    var succeeded := Finished(RunResult(Succeeded, output, e.st, node.id));
    if node.kind == "done" {
      return events, Some(succeeded), next, output, nextObs;
    }
    var nextEdge := ResolveNextEdge(node, output, if node.id in outgoing then outgoing[node.id] else []);
    if nextEdge.None? || nextEdge.value.target !in byId {
      return events, Some(succeeded), next, output, nextObs;
    }
    next := byId[nextEdge.value.target];
    nextObs := nextObs + 1;
    stopped := None;
  }

  /** One iteration either ends the run or hands the rest of it to the next node;
      `done` are the events reported before it. */
  lemma Advance(g: Graph, maxSteps: nat, o: Options, node: Node, input: Value, st: ContextState, obs: nat, step: nat,
                done: seq<RunEvent>, s: StepResult)
    requires step < maxSteps && s == Step(g, o, node, input, st, obs)
    ensures var t := RunFrom(g, maxSteps, o, node, input, st, obs, step);
      s.Stop? ==> Trace(done + t.events, t.outcome) == Trace(done + s.events, s.outcome)
    ensures var t := RunFrom(g, maxSteps, o, node, input, st, obs, step);
      s.Continue? ==>
        var t' := RunFrom(g, maxSteps, o, s.next, s.carried, s.st, s.obs, step + 1);
        Trace(done + t.events, t.outcome) == Trace((done + s.events) + t'.events, t'.outcome)
  {
    if s.Continue? {
      var t' := RunFrom(g, maxSteps, o, s.next, s.carried, s.st, s.obs, step + 1);
      assert done + (s.events + t'.events) == (done + s.events) + t'.events;
    }
  }

  /** `executeWorkflow`: returns the run's outcome and the events reported through `onEvent`. */
  method ExecuteWorkflow(def: Definition, o: Options) returns (outcome: Outcome, events: seq<RunEvent>)
    ensures Trace(events, outcome) == Run(def, o)
  {
    events := [];
    if def.nodes == [] {
      return Raised(400, NoNodesMessage), events;
    }
    var byId := IndexNodes(def.nodes);
    var outgoing := IndexEdges(def.edges);
    var maxSteps := MaxSteps(|def.nodes|);
    ghost var g := Graph(byId, outgoing);
    var input := Coalesce(o.input, EmptyObject());
    var context := new ExecutionContext(input);
    var node := StartNode(def.nodes);
    var carried := input;
    var obs := 0;
    ghost var total := RunFrom(g, maxSteps, o, node, carried, context.State(), obs, 0);
    assert total == Run(def, o);
    for step := 0 to maxSteps
      invariant fresh(context)
      invariant total == var t := RunFrom(g, maxSteps, o, node, carried, context.State(), obs, step); Trace(events + t.events, t.outcome)
    {
      ghost var st := context.State();
      var stepEvents, stopped, next, output, nextObs := ExecuteStep(byId, outgoing, o, context, node, carried, obs);
      Advance(g, maxSteps, o, node, carried, st, obs, step, events, Step(g, o, node, carried, st, obs));
      if stopped.Some? {
        return stopped.value, events + stepEvents;
      }
      events := events + stepEvents;
      node, carried, obs := next, output, nextObs;
    }
    return Raised(400, StepLimitMessage), events;
  }
}

=== FILE: executor_examples.dfy ===
/** Runs of small workflow definitions: a linear trigger/log/done flow, a
    two-node cycle, and a decision routed by its condition. */
module ExecutorExamples {
  import opened Values
  import opened Condition
  import opened Executor
  import opened ExecutorProperties
  import opened ConditionExamples

  /** With every source of its edges indexed, the outgoing list of a node is the
      edges leaving it in definition order. */
  lemma OutgoingOfIndex(def: Definition, id: string)
    ensures OutgoingOf(Index(def), id) == EdgesFrom(def.edges, id)
  {
  }

  lemma TriggerManual()
    ensures IsTrigger("trigger-manual")
  {
    assert "trigger-manual"[..8] == "trigger-";
  }

  /** A node whose id no later node repeats is what its id maps to. */
  lemma ByIdAt(nodes: seq<Node>, i: nat)
    requires i < |nodes| && forall j :: i < j < |nodes| ==> nodes[j].id != nodes[i].id
    ensures nodes[i].id in NodesById(nodes) && NodesById(nodes)[nodes[i].id] == nodes[i]
  {
  }

  lemma EdgesFromPair(e1: Edge, e2: Edge, id: string)
    ensures EdgesFrom([e1, e2], id) == (if e1.source == id then [e1] else []) + (if e2.source == id then [e2] else [])
  {
    assert [e1, e2][..1] == [e1];
    assert [e1][..0] == [];
    assert EdgesFrom([e1], id) == (if e1.source == id then [e1] else []) by {
      assert EdgesFrom([e1], id) == (if e1.source == id then EdgesFrom([], id) + [e1] else EdgesFrom([], id));
    }
  }

  // ---------------------------------------------------------------------
  // trigger A -> log B -> done C

  predicate LinearFlow(def: Definition, a: string, b: string, c: string)
  {
    a != b && b != c && a != c
    && |def.nodes| == 3 && |def.edges| == 2
    && def.nodes[0].id == a && def.nodes[0].kind == "trigger-manual"
    && def.nodes[1].id == b && def.nodes[1].kind == "log"
    && def.nodes[2].id == c && def.nodes[2].kind == "done"
    && def.edges[0].source == a && def.edges[0].target == b && def.edges[0].sourceHandle.None?
    && def.edges[1].source == b && def.edges[1].target == c && def.edges[1].sourceHandle.None?
  }

  lemma LinearIndex(def: Definition, a: string, b: string, c: string)
    requires LinearFlow(def, a, b, c)
    ensures var g := Index(def);
      b in g.byId && g.byId[b] == def.nodes[1] && c in g.byId && g.byId[c] == def.nodes[2]
      && OutgoingOf(g, a) == [def.edges[0]] && OutgoingOf(g, b) == [def.edges[1]]
  {
    ChainIndex(def, a, b, c);
  }

  /** Three nodes with distinct ids, an edge leaving the first and one leaving the second. */
  lemma ChainIndex(def: Definition, a: string, b: string, c: string)
    requires |def.nodes| == 3 && |def.edges| == 2 && a != b && b != c
    requires def.nodes[1].id == b && def.nodes[2].id == c
    requires def.edges[0].source == a && def.edges[1].source == b
    ensures var g := Index(def);
      b in g.byId && g.byId[b] == def.nodes[1] && c in g.byId && g.byId[c] == def.nodes[2]
      && OutgoingOf(g, a) == [def.edges[0]] && OutgoingOf(g, b) == [def.edges[1]]
  {
    var g := Index(def);
    LastTwoById(def.nodes);
    assert OutgoingOf(g, a) == [def.edges[0]] by {
      OutgoingOfIndex(def, a);
      OnlyFirstFrom(def.edges, a);
    }
    assert OutgoingOf(g, b) == [def.edges[1]] by {
      OutgoingOfIndex(def, b);
      OnlySecondFrom(def.edges, b);
    }
  }

  lemma OnlyFirstFrom(edges: seq<Edge>, id: string)
    requires |edges| == 2 && edges[0].source == id && edges[1].source != id
    ensures EdgesFrom(edges, id) == [edges[0]]
  {
    assert edges == [edges[0], edges[1]];
    EdgesFromPair(edges[0], edges[1], id);
    assert [edges[0]] + [] == [edges[0]];
  }

  lemma OnlySecondFrom(edges: seq<Edge>, id: string)
    requires |edges| == 2 && edges[0].source != id && edges[1].source == id
    ensures EdgesFrom(edges, id) == [edges[1]]
  {
    assert edges == [edges[0], edges[1]];
    EdgesFromPair(edges[0], edges[1], id);
    assert [] + [edges[1]] == [edges[1]];
  }

  /** Once a non-decision node with a single outgoing edge has returned, the loop
      moves along that edge. */
  lemma AfterSingleEdge(g: Graph, o: Options, node: Node, input: Value, e: Execution)
    requires node.kind != "decision" && node.kind != "done" && o.abortFrom.None? && e.result.Returned?
    requires |OutgoingOf(g, node.id)| == 1 && OutgoingOf(g, node.id)[0].sourceHandle.None?
    requires OutgoingOf(g, node.id)[0].target in g.byId
    ensures AfterNode(g, o, node, input, e)
      == Continue([StartEvent(node, o.now), SuccessEvent(node, e.result.output, o.now)],
                  g.byId[OutgoingOf(g, node.id)[0].target], e.result.output, e.st, e.observations + 1)
  {
    assert FirstWithHandle(OutgoingOf(g, node.id), "out").None?;
  }

  /** A node that passes its input through, with one plain edge to an existing
      node, hands its input over along that edge. */
  lemma PassStep(g: Graph, o: Options, node: Node, input: Value, st: ContextState, obs: nat)
    requires PassesThrough(node.kind) && node.kind != "done" && o.abortFrom.None?
    requires |OutgoingOf(g, node.id)| == 1 && OutgoingOf(g, node.id)[0].sourceHandle.None?
    requires OutgoingOf(g, node.id)[0].target in g.byId
    ensures Step(g, o, node, input, st, obs)
      == Continue([StartEvent(node, o.now), SuccessEvent(node, input, o.now)],
                  g.byId[OutgoingOf(g, node.id)[0].target], input, st.(current := Coalesce(input, EmptyObject())), obs + 2)
  {
    var st' := st.(current := Coalesce(input, EmptyObject()));
    var e := NodeStep(node, input, st', o, obs + 1);
    assert e == Execution(Returned(input), st', obs + 1);
    assert node.kind != "decision" by { BuiltInKindsAreNotTriggers(); }
    AfterSingleEdge(g, o, node, input, e);
  }

  /** The trigger passes the run input to the log node. */
  lemma LinearFirstStep(def: Definition, a: string, b: string, c: string, o: Options, input: Value, st: ContextState)
    requires LinearFlow(def, a, b, c) && o.abortFrom.None?
    ensures var s := Step(Index(def), o, def.nodes[0], input, st, 0);
      s.Continue? && s.next == def.nodes[1] && s.carried == input && s.obs == 2 && s.st == st.(current := Coalesce(input, EmptyObject()))
      && s.events == [StartEvent(def.nodes[0], o.now), SuccessEvent(def.nodes[0], input, o.now)]
  {
    LinearIndex(def, a, b, c);
    assert PassesThrough(def.nodes[0].kind) by { TriggerManual(); }
    PassStep(Index(def), o, def.nodes[0], input, st, 0);
  }

  /** A log node with one plain edge to an existing node records one entry and
      hands its input over along that edge. */
  lemma LogForwards(g: Graph, o: Options, node: Node, input: Value, st: ContextState, obs: nat)
    requires node.kind == "log" && o.abortFrom.None? && forall v :: o.onLog(v).None?
    requires |OutgoingOf(g, node.id)| == 1 && OutgoingOf(g, node.id)[0].sourceHandle.None?
    requires OutgoingOf(g, node.id)[0].target in g.byId
    ensures var s := Step(g, o, node, input, st, obs);
      s.Continue? && s.next == g.byId[OutgoingOf(g, node.id)[0].target] && s.carried == input && s.obs == obs + 2
      && |s.st.logs| == |st.logs| + 1 && s.st.sideEffects == st.sideEffects
      && s.events == [StartEvent(node, o.now), SuccessEvent(node, input, o.now)]
  {
    var st' := st.(current := Coalesce(input, EmptyObject()));
    var e := NodeStep(node, input, st', o, obs + 1);
    NoAbortNodeReturns(node, input, st', o, obs + 1);
    assert e.result == Returned(input) && |e.st.logs| == |st.logs| + 1 && e.st.sideEffects == st.sideEffects && e.observations == obs + 1;
    AfterSingleEdge(g, o, node, input, e);
  }

  /** The log node records one entry and passes its input to the done node. */
  lemma LinearSecondStep(def: Definition, a: string, b: string, c: string, o: Options, input: Value, st: ContextState, obs: nat)
    requires LinearFlow(def, a, b, c) && o.abortFrom.None? && forall v :: o.onLog(v).None?
    ensures var s := Step(Index(def), o, def.nodes[1], input, st, obs);
      s.Continue? && s.next == def.nodes[2] && s.carried == input && s.obs == obs + 2
      && |s.st.logs| == |st.logs| + 1 && s.st.sideEffects == st.sideEffects
      && s.events == [StartEvent(def.nodes[1], o.now), SuccessEvent(def.nodes[1], input, o.now)]
  {
    LinearIndex(def, a, b, c);
    LogForwards(Index(def), o, def.nodes[1], input, st, obs);
  }

  /** A done node ends the run successfully with the value it received. */
  lemma DoneStep(g: Graph, o: Options, node: Node, input: Value, st: ContextState, obs: nat)
    requires node.kind == "done" && o.abortFrom.None?
    ensures Step(g, o, node, input, st, obs)
        == Stop([StartEvent(node, o.now), SuccessEvent(node, input, o.now)],
                Finished(RunResult(Succeeded, input, st.(current := Coalesce(input, EmptyObject())), node.id)))
  {
    var e := NodeStep(node, input, st.(current := Coalesce(input, EmptyObject())), o, obs + 1);
    assert PassesThrough("done");
    assert e == Execution(Returned(input), st.(current := Coalesce(input, EmptyObject())), obs + 1);
  }

  /** The done node ends the run successfully with the value it received. */
  lemma LinearLastStep(def: Definition, a: string, b: string, c: string, o: Options, input: Value, st: ContextState, obs: nat)
    requires LinearFlow(def, a, b, c) && o.abortFrom.None?
    ensures Step(Index(def), o, def.nodes[2], input, st, obs)
        == Stop([StartEvent(def.nodes[2], o.now), SuccessEvent(def.nodes[2], input, o.now)],
                Finished(RunResult(Succeeded, input, st.(current := Coalesce(input, EmptyObject())), c)))
  {
    DoneStep(Index(def), o, def.nodes[2], input, st, obs);
  }

  /** From the log node on: B records one entry, C ends the run successfully. */
  lemma LinearTail(def: Definition, a: string, b: string, c: string, o: Options, input: Value, st: ContextState)
    requires LinearFlow(def, a, b, c) && o.abortFrom.None? && forall v :: o.onLog(v).None?
    ensures var t := RunFrom(Index(def), 20, o, def.nodes[1], input, st, 2, 1);
      t.outcome.Finished? && t.outcome.result.status == Succeeded
      && t.outcome.result.output == input && t.outcome.result.stoppedAtNodeId == c
      && |t.outcome.result.context.logs| == |st.logs| + 1 && t.outcome.result.context.sideEffects == st.sideEffects
      && |t.events| == 4
  {
    var g := Index(def);
    var s2 := Step(g, o, def.nodes[1], input, st, 2);
    assert s2.Continue? && s2.next == def.nodes[2] && s2.carried == input && s2.obs == 4
      && |s2.st.logs| == |st.logs| + 1 && s2.st.sideEffects == st.sideEffects && |s2.events| == 2 by {
      LinearSecondStep(def, a, b, c, o, input, st, 2);
    }
    var s3 := Step(g, o, def.nodes[2], input, s2.st, 4);
    assert s3 == Stop(s3.events, Finished(RunResult(Succeeded, input, s2.st.(current := Coalesce(input, EmptyObject())), c)))
      && |s3.events| == 2 by {
      LinearLastStep(def, a, b, c, o, input, s2.st, 4);
    }
    var t3 := RunFrom(g, 20, o, def.nodes[2], input, s2.st, 4, 2);
    assert t3 == Trace(s3.events, s3.outcome);
    assert RunFrom(g, 20, o, def.nodes[1], input, st, 2, 1) == Trace(s2.events + t3.events, t3.outcome);
  }

  /** An object input through trigger A, log B and done C: the run succeeds at C with
      that input as output, one log record, no side effect, and six events. */
  lemma LinearRun(def: Definition, a: string, b: string, c: string, o: Options)
    requires LinearFlow(def, a, b, c)
    requires o.input.Obj? && o.abortFrom.None? && forall v :: o.onLog(v).None?
    ensures var t := Run(def, o);
      t.outcome.Finished? && t.outcome.result.status == Succeeded
      && t.outcome.result.output == o.input && t.outcome.result.stoppedAtNodeId == c
      && |t.outcome.result.context.logs| == 1 && t.outcome.result.context.sideEffects == []
      && |t.events| == 6
  {
    var g := Index(def);
    var input := o.input;
    var st0 := ContextState(input, input, [], []);
    var s1 := Step(g, o, def.nodes[0], input, st0, 0);
    assert s1.Continue? && s1.next == def.nodes[1] && s1.carried == input && s1.obs == 2
      && s1.st.logs == [] && s1.st.sideEffects == [] && |s1.events| == 2 by {
      LinearFirstStep(def, a, b, c, o, input, st0);
    }
    var t2 := RunFrom(g, 20, o, def.nodes[1], input, s1.st, 2, 1);
    LinearTail(def, a, b, c, o, input, s1.st);
    var t1 := RunFrom(g, 20, o, def.nodes[0], input, st0, 0, 0);
    assert t1 == Trace(s1.events + t2.events, t2.outcome);
    LinearStart(def, a, b, c, o);
  }

  /** The linear flow starts at its trigger with the run input and an empty context. */
  lemma LinearStart(def: Definition, a: string, b: string, c: string, o: Options)
    requires LinearFlow(def, a, b, c) && o.input.Obj?
    ensures Run(def, o) == RunFrom(Index(def), 20, o, def.nodes[0], o.input, ContextState(o.input, o.input, [], []), 0, 0)
  {
    assert StartNode(def.nodes) == def.nodes[0] by { TriggerManual(); }
  }
  /** Input {x: 1} through trigger A, log B and done C. */
  lemma LinearFlowSucceeds(def: Definition, a: string, b: string, c: string, o: Options)
    requires LinearFlow(def, a, b, c)
    requires o.input == Obj([("x", Num(Int(1)))]) && o.abortFrom.None? && forall v :: o.onLog(v).None?
    ensures var t := Run(def, o);
      t.outcome.Finished? && t.outcome.result.status == Succeeded
      && t.outcome.result.output == o.input && t.outcome.result.stoppedAtNodeId == c
      && |t.outcome.result.context.logs| == 1 && t.outcome.result.context.sideEffects == []
      && |t.events| == 6
  {
    LinearRun(def, a, b, c, o);
  }


  // ---------------------------------------------------------------------
  // a two-node cycle

  predicate Cycle(def: Definition, a: string, b: string)
  {
    a != b && |def.nodes| == 2 && |def.edges| == 2
    && def.nodes[0].id == a && def.nodes[0].kind == "trigger-manual"
    && def.nodes[1].id == b && def.nodes[1].kind == "noop"
    && def.edges[0].source == a && def.edges[0].target == b
    && def.edges[1].source == b && def.edges[1].target == a
  }

  /** Two nodes with distinct ids, each with one edge leaving it. */
  lemma PairIndex(def: Definition, a: string, b: string)
    requires |def.nodes| == 2 && |def.edges| == 2 && a != b
    requires def.nodes[0].id == a && def.nodes[1].id == b
    requires def.edges[0].source == a && def.edges[1].source == b
    ensures var g := Index(def);
      g.byId == map[a := def.nodes[0], b := def.nodes[1]]
      && OutgoingOf(g, a) == [def.edges[0]] && OutgoingOf(g, b) == [def.edges[1]]
  {
    var g := Index(def);
    assert g.byId.Keys == {a, b} && g.byId[a] == def.nodes[0] && g.byId[b] == def.nodes[1] by {
      ByIdAt(def.nodes, 0);
      ByIdAt(def.nodes, 1);
    }
    assert OutgoingOf(g, a) == [def.edges[0]] by {
      OutgoingOfIndex(def, a);
      OnlyFirstFrom(def.edges, a);
    }
    assert OutgoingOf(g, b) == [def.edges[1]] by {
      OutgoingOfIndex(def, b);
      OnlySecondFrom(def.edges, b);
    }
  }

  /** Both nodes of the cycle forward, the start node among them. */
  lemma CycleForwards(def: Definition, a: string, b: string)
    requires Cycle(def, a, b)
    ensures var g := Index(def);
      (forall id :: id in g.byId ==> Forwards(g, g.byId[id])) && Forwards(g, StartNode(def.nodes))
  {
    var g := Index(def);
    PairIndex(def, a, b);
    assert Forwards(g, def.nodes[0]) by { TriggerManual(); }
    assert Forwards(g, def.nodes[1]);
    assert StartNode(def.nodes) in def.nodes;
    assert def.nodes == [def.nodes[0], def.nodes[1]];
  }

  /** Two nodes that hand over to each other forever exhaust the step bound. */
  lemma CycleExhaustsBound(def: Definition, a: string, b: string, o: Options)
    requires Cycle(def, a, b) && o.abortFrom.None?
    ensures Run(def, o).outcome == Raised(400, StepLimitMessage)
  {
    var g := Index(def);
    CycleForwards(def, a, b);
    var input := Coalesce(o.input, EmptyObject());
    ForwardingGraphExhaustsBound(g, MaxSteps(2), o, StartNode(def.nodes), input, ContextState(input, input, [], []), 0, 0);
  }

  // ---------------------------------------------------------------------
  // a decision with a "true" and a "false" edge

  predicate Decision(def: Definition, d: string, yes: string, no: string, condition: string)
  {
    d != yes && d != no && yes != no
    && |def.nodes| == 3 && |def.edges| == 2
    && def.nodes[0] == Node(d, "decision", Some([("condition", Str(condition))]))
    && def.nodes[1].id == yes && def.nodes[2].id == no
    && def.edges[0].source == d && def.edges[0].target == yes && def.edges[0].sourceHandle == Some("true")
    && def.edges[1].source == d && def.edges[1].target == no && def.edges[1].sourceHandle == Some("false")
  }

  lemma DecisionData(condition: string)
    ensures DecisionCondition(NodeData(Node("", "decision", Some([("condition", Str(condition))])))) == Str(condition)
  {
    var data := [("condition", Str(condition))];
    SingleField("condition", Str(condition));
    assert Field(data, "schema") == Undef;
  }

  lemma SingleField<V>(k: string, v: V)
    ensures k in Keys([(k, v)]) && LookupLast([(k, v)], k) == Some(v)
  {
    assert [(k, v)][0].0 == k;
  }

  lemma DecisionIndex(def: Definition, d: string, yes: string, no: string, condition: string)
    requires Decision(def, d, yes, no, condition)
    ensures var g := Index(def);
      yes in g.byId && g.byId[yes] == def.nodes[1] && no in g.byId && g.byId[no] == def.nodes[2]
      && OutgoingOf(g, d) == def.edges
  {
    assert def.nodes[0].id == d;
    BranchIndex(def, d, yes, no);
  }

  /** The last two of three nodes, when their ids differ, are what their ids map to. */
  lemma LastTwoById(nodes: seq<Node>)
    requires |nodes| == 3 && nodes[1].id != nodes[2].id
    ensures var m := NodesById(nodes);
      nodes[1].id in m && m[nodes[1].id] == nodes[1] && nodes[2].id in m && m[nodes[2].id] == nodes[2]
  {
    ByIdAt(nodes, 1);
    ByIdAt(nodes, 2);
  }

  /** Three nodes with distinct ids, and two edges leaving the first. */
  lemma BranchIndex(def: Definition, d: string, yes: string, no: string)
    requires |def.nodes| == 3 && |def.edges| == 2 && yes != no
    requires def.nodes[1].id == yes && def.nodes[2].id == no
    requires def.edges[0].source == d && def.edges[1].source == d
    ensures var g := Index(def);
      yes in g.byId && g.byId[yes] == def.nodes[1] && no in g.byId && g.byId[no] == def.nodes[2]
      && OutgoingOf(g, d) == def.edges
  {
    var g := Index(def);
    LastTwoById(def.nodes);
    assert OutgoingOf(g, d) == def.edges by {
      OutgoingOfIndex(def, d);
      BothFrom(def.edges, d);
    }
  }

  lemma BothFrom(edges: seq<Edge>, d: string)
    requires |edges| == 2 && edges[0].source == d && edges[1].source == d
    ensures EdgesFrom(edges, d) == edges
  {
    assert edges == [edges[0], edges[1]];
    EdgesFromPair(edges[0], edges[1], d);
  }

  /** Once the decision node has produced its boolean, the loop follows the edge
      whose handle names it. */
  lemma AfterDecision(def: Definition, d: string, yes: string, no: string, condition: string, o: Options, input: Value, e: Execution)
    requires Decision(def, d, yes, no, condition) && o.abortFrom.None?
    requires e.result.Returned? && e.result.output.Bool?
    ensures var s := AfterNode(Index(def), o, def.nodes[0], input, e);
      s.Continue? && s.carried == e.result.output && s.next == if e.result.output.b then def.nodes[1] else def.nodes[2]
  {
    DecisionIndex(def, d, yes, no, condition);
    var node := def.nodes[0];
    assert node.id == d && node.kind == "decision";
    BooleanRoute(Index(def), o, node, input, e);
  }

  /** A decision whose outgoing edges are a "true" edge then a "false" edge follows
      the one its boolean names. */
  lemma BooleanRoute(g: Graph, o: Options, node: Node, input: Value, e: Execution)
    requires node.kind == "decision" && o.abortFrom.None? && e.result.Returned? && e.result.output.Bool?
    requires var out := OutgoingOf(g, node.id);
      |out| == 2 && out[0].sourceHandle == Some("true") && out[1].sourceHandle == Some("false")
      && out[0].target in g.byId && out[1].target in g.byId
    ensures var s := AfterNode(g, o, node, input, e); var out := OutgoingOf(g, node.id);
      s.Continue? && s.carried == e.result.output
      && s.next == g.byId[if e.result.output.b then out[0].target else out[1].target]
  {
    var out := OutgoingOf(g, node.id);
    if e.result.output.b {
      assert FirstWithHandle(out, "true") == Some(0);
    } else {
      assert out[1..] == [out[1]];
      assert FirstWithHandle(out, "false") == Some(1);
    }
  }

  /** The decision node routes along the edge whose handle names its outcome. */
  lemma DecisionRoutes(def: Definition, d: string, yes: string, no: string, condition: string, o: Options, input: Value, st: ContextState)
    requires Decision(def, d, yes, no, condition) && condition != "" && o.abortFrom.None?
    ensures var s := Step(Index(def), o, def.nodes[0], input, st, 0);
      var outcome := EvaluateCondition(Str(condition), ContextValue(st.(current := Coalesce(input, EmptyObject()))));
      s.Continue? && s.carried == Bool(outcome) && s.next == if outcome then def.nodes[1] else def.nodes[2]
  {
    var st' := st.(current := Coalesce(input, EmptyObject()));
    var e := NodeStep(def.nodes[0], input, st', o, 1);
    DecisionData(condition);
    assert NodeData(def.nodes[0]) == NodeData(Node("", "decision", Some([("condition", Str(condition))])));
    BuiltInKindsAreNotTriggers();
    assert e == Execution(Returned(Bool(EvaluateCondition(Str(condition), ContextValue(st')))), st', 1);
    AfterDecision(def, d, yes, no, condition, o, input, e);
  }

  /** "5 > 3" follows the "true" edge. */
  lemma FiveGreaterThanThreeRoutesTrue(def: Definition, d: string, yes: string, no: string, condition: string,
                                       o: Options, input: Value, st: ContextState)
    requires Decision(def, d, yes, no, condition) && condition == "5 > 3" && o.abortFrom.None?
    ensures var s := Step(Index(def), o, def.nodes[0], input, st, 0); s.Continue? && s.next == def.nodes[1]
  {
    var ctx := ContextValue(st.(current := Coalesce(input, EmptyObject())));
    FiveGreaterThanThreeText(condition, ctx);
    DecisionRoutes(def, d, yes, no, condition, o, input, st);
  }

  /** "2 > 3" follows the "false" edge. */
  lemma TwoGreaterThanThreeRoutesFalse(def: Definition, d: string, yes: string, no: string, condition: string,
                                       o: Options, input: Value, st: ContextState)
    requires Decision(def, d, yes, no, condition) && condition == "2 > 3" && o.abortFrom.None?
    ensures var s := Step(Index(def), o, def.nodes[0], input, st, 0); s.Continue? && s.next == def.nodes[2]
  {
    var ctx := ContextValue(st.(current := Coalesce(input, EmptyObject())));
    TwoNotGreaterThanThreeText(condition, ctx);
    DecisionRoutes(def, d, yes, no, condition, o, input, st);
  }
  // ---------------------------------------------------------------------
  // Array durations

  /** `Number([n])` is `n`, so a delay whose duration is the array `[n]` waits as
      one of duration `n` would. */
  lemma ArrayDuration(data: Fields, n: Number)
    requires Field(data, "duration") == Arr([Num(n)]) && n.Dec?
    ensures NumEq(DelayDuration(data), n)
  {
    NumberArray(n);
  }

  /** A delay of `[5]` seconds outside development waits, observing the signal once,
      and fails with 499 exactly when the signal is raised. */
  lemma FiveSecondArrayWaits(input: Value, st: ContextState, o: Options, obs: nat)
    requires !o.development
    ensures var e := DelayStep([("duration", Arr([Num(Int(5))]))], input, st, o, obs);
      e.observations == obs + 1 && (e.result.Threw? <==> Aborted(o.abortFrom, obs))
  {
    var data := [("duration", Arr([Num(Int(5))]))];
    SingleField("duration", Arr([Num(Int(5))]));
    ArrayDuration(data, Int(5));
    var d := DelayDuration(data);
    assert d.mantissa * Pow10(0) == 5 * Pow10(d.scale);
    assert Positive(DelayMs(d, DelayUnit(data)));
  }
}

=== FILE: executor_props.dfy ===
/** What every run of the traversal loop guarantees about the events it
    reports and the way it ends. */
module ExecutorProperties {
  import opened Values
  import opened Condition
  import opened Executor

  /** Events come in pairs: a `start` at each even position, followed by the
      `success` or `fail` of the same node; only the last event may be a `fail`. */
  predicate Bracketed(events: seq<RunEvent>)
  {
    (forall i :: 0 <= i < |events| ==> (events[i].status == Start <==> i % 2 == 0))
    && (forall i :: 0 < i < |events| && i % 2 == 1 ==> events[i].nodeId == events[i - 1].nodeId)
    && (forall i :: 0 <= i < |events| && events[i].status == Fail ==> i == |events| - 1)
  }

  predicate NoFailEvent(events: seq<RunEvent>)
  {
    forall i :: 0 <= i < |events| ==> events[i].status != Fail
  }

  /** The input the loop carries after `events`, starting from `input`: the output
      of the last `success` event, else `input`. */
  function CarriedInput(events: seq<RunEvent>, input: Value): Value
  {
    if events == [] then input
    else CarriedInput(events[1..], if events[0].status == Success then events[0].output else input)
  }

  lemma {:induction false} CarriedInputAppend(a: seq<RunEvent>, b: seq<RunEvent>, input: Value)
    ensures CarriedInput(a + b, input) == CarriedInput(b, CarriedInput(a, input))
  {
    if a != [] {
      assert (a + b)[1..] == a[1..] + b;
      CarriedInputAppend(a[1..], b, if a[0].status == Success then a[0].output else input);
    } else {
      assert a + b == b;
    }
  }

  /** Why a run that succeeded stopped at `node`: a `done` node, no next edge,
      or an edge to a node that does not exist. */
  predicate Terminal(g: Graph, node: Node, output: Value)
  {
    node.kind == "done"
    || ResolveNextEdge(node, output, OutgoingOf(g, node.id)).None?
    || ResolveNextEdge(node, output, OutgoingOf(g, node.id)).value.target !in g.byId
  }

  /** The ways one iteration can go. */
  predicate StepShape(g: Graph, o: Options, node: Node, input: Value, s: StepResult)
  {
    match s
    case Continue(events, next, carried, _, _) =>
      events == [StartEvent(node, o.now), SuccessEvent(node, carried, o.now)]
      && node.kind != "done"
      && ResolveNextEdge(node, carried, OutgoingOf(g, node.id)).Some?
      && ResolveNextEdge(node, carried, OutgoingOf(g, node.id)).value.target in g.byId
      && next == g.byId[ResolveNextEdge(node, carried, OutgoingOf(g, node.id)).value.target]
    case Stop(events, outcome) =>
      outcome.Finished? && outcome.result.stoppedAtNodeId == node.id
      && (outcome.result.status == Succeeded ==>
            events == [StartEvent(node, o.now), SuccessEvent(node, outcome.result.output, o.now)]
            && Terminal(g, node, outcome.result.output))
      && (outcome.result.status == Failed ==>
            outcome.result.output == input
            && (events == [] || events == [StartEvent(node, o.now)]
                || (|events| == 2 && events[0] == StartEvent(node, o.now) && events[1].status == Fail && events[1].nodeId == node.id)))
  }

  /** The rest of an iteration, once its node has run, takes one of the allowed
      shapes; it fails only on an error or a raised signal. */
  lemma AfterNodeCases(g: Graph, o: Options, node: Node, input: Value, e: Execution)
    ensures StepShape(g, o, node, input, AfterNode(g, o, node, input, e))
    ensures o.abortFrom.None? && e.result.Returned? ==>
      var s := AfterNode(g, o, node, input, e); s.Continue? || s.outcome.result.status == Succeeded
  {
  }

  lemma StepCases(g: Graph, o: Options, node: Node, input: Value, st: ContextState, obs: nat)
    ensures StepShape(g, o, node, input, Step(g, o, node, input, st, obs))
  {
    if !Aborted(o.abortFrom, obs) {
      AfterNodeCases(g, o, node, input, NodeStep(node, input, st.(current := Coalesce(input, EmptyObject())), o, obs + 1));
    }
  }

  lemma {:induction false} CarriedInputNoSuccess(events: seq<RunEvent>, input: Value)
    requires forall i :: 0 <= i < |events| ==> events[i].status != Success
    ensures CarriedInput(events, input) == input
  {
    if events != [] {
      assert events[0].status != Success;
      CarriedInputNoSuccess(events[1..], input);
    }
  }

  /** The shape of a trace with at most `n` iterations left: paired events, a
      step-limit error only after `n` full iterations, a success reported by the
      last event, and a failure carrying the input the loop last held. */
  predicate TraceShape(t: Trace, input: Value, n: nat)
  {
    Bracketed(t.events)
    && |t.events| <= 2 * n
    && (t.outcome.Raised? ==>
          t.outcome == Raised(400, StepLimitMessage) && |t.events| == 2 * n && NoFailEvent(t.events))
    && (t.outcome.Finished? && t.outcome.result.status == Succeeded ==>
          |t.events| >= 2 && t.events[|t.events| - 1].status == Success
          && t.events[|t.events| - 1].nodeId == t.outcome.result.stoppedAtNodeId
          && t.events[|t.events| - 1].output == t.outcome.result.output)
    && (t.outcome.Finished? && t.outcome.result.status == Failed ==>
          t.outcome.result.output == CarriedInput(t.events, input))
  }

  /** The shape of every run of the loop from iteration `step` on. */
  lemma {:induction false} RunFromShape(g: Graph, maxSteps: nat, o: Options, node: Node, input: Value, st: ContextState, obs: nat, step: nat)
    requires step <= maxSteps
    ensures TraceShape(RunFrom(g, maxSteps, o, node, input, st, obs, step), input, maxSteps - step)
    decreases maxSteps - step
  {
    if step < maxSteps {
      var s := Step(g, o, node, input, st, obs);
      StepCases(g, o, node, input, st, obs);
      if s.Stop? {
        assert RunFrom(g, maxSteps, o, node, input, st, obs, step) == Trace(s.events, s.outcome);
        StopShape(g, o, node, input, s, maxSteps - step);
      } else {
        var rest := RunFrom(g, maxSteps, o, s.next, s.carried, s.st, s.obs, step + 1);
        assert RunFrom(g, maxSteps, o, node, input, st, obs, step) == Trace(s.events + rest.events, rest.outcome);
        RunFromShape(g, maxSteps, o, s.next, s.carried, s.st, s.obs, step + 1);
        var n := maxSteps - step;
        assert maxSteps - (step + 1) == n - 1;
        ContinueShape(g, o, node, input, s, rest, n);
      }
    }
  }

  lemma StopShape(g: Graph, o: Options, node: Node, input: Value, s: StepResult, n: nat)
    requires n >= 1 && s.Stop? && StepShape(g, o, node, input, s)
    ensures TraceShape(Trace(s.events, s.outcome), input, n)
  {
    if s.outcome.result.status == Failed {
      CarriedInputNoSuccess(s.events, input);
    }
  }

  lemma ContinueShape(g: Graph, o: Options, node: Node, input: Value, s: StepResult, rest: Trace, n: nat)
    requires n >= 1 && s.Continue? && StepShape(g, o, node, input, s)
    requires TraceShape(rest, s.carried, n - 1)
    ensures TraceShape(Trace(s.events + rest.events, rest.outcome), input, n)
  {
    BracketedPrepend(node, s.carried, o.now, rest.events);
    CarriedInputAppend(s.events, rest.events, input);
    var events := s.events + rest.events;
    assert forall i :: 2 <= i < |events| ==> events[i] == rest.events[i - 2];
  }

  lemma BracketedPrepend(node: Node, output: Value, now: string, rest: seq<RunEvent>)
    requires Bracketed(rest)
    ensures var events := [StartEvent(node, now), SuccessEvent(node, output, now)] + rest;
      Bracketed(events) && (NoFailEvent(rest) ==> NoFailEvent(events))
  {
    var events := [StartEvent(node, now), SuccessEvent(node, output, now)] + rest;
    assert forall i :: 2 <= i < |events| ==> events[i] == rest[i - 2];
  }

  // ---------------------------------------------------------------------
  // Why a run stops

  /** Some failure the log sink throws carries status code 499. */
  ghost predicate Sink499(o: Options)
  {
    exists v :: o.onLog(v).Some? && o.onLog(v).value.statusCode == Some(499)
  }

  /** `ev` is the `fail` event of a log node whose sink threw an error other than 499. */
  ghost predicate SinkFailure(o: Options, ev: RunEvent)
  {
    ev.status == Fail && ev.nodeType == "log"
    && exists v :: o.onLog(v).Some? && o.onLog(v).value.statusCode != Some(499)
                   && ev.error == Some(FailureMessage(o.onLog(v).value))
  }

  /** Only two node executors throw: a log node, with the failure its sink threw, and
      a delay cancelled while it waits, with 499. */
  lemma NodeStepThrows(node: Node, input: Value, st: ContextState, o: Options, obs: nat)
    ensures var e := NodeStep(node, input, st, o, obs);
      e.result.Threw? ==>
        (node.kind == "log" && o.onLog(LogReport(NodeData(node))) == Some(e.result.failure))
        || (node.kind == "delay" && e.result.failure == Failure(Some(499), AbortMessage)
            && e.observations == obs + 1 && Aborted(o.abortFrom, obs))
  {
    BuiltInKindsAreNotTriggers();
  }

  /** What ends an iteration, by cause: a signal seen before the node runs reports
      nothing; a signal seen once it has run, or an error with status code 499,
      reports only `start`; any other error reports `start` and a `fail` with the
      error's message; a node that returns reports `start` and `success` and the run
      goes on exactly when the node is not terminal. */
  lemma StepCauses(g: Graph, o: Options, node: Node, input: Value, st: ContextState, obs: nat)
    ensures var s := Step(g, o, node, input, st, obs);
      Aborted(o.abortFrom, obs) ==> s == Stop([], Finished(RunResult(Failed, input, st, node.id)))
    ensures var s := Step(g, o, node, input, st, obs);
      var e := NodeStep(node, input, st.(current := Coalesce(input, EmptyObject())), o, obs + 1);
      !Aborted(o.abortFrom, obs)
      && (Aborted(o.abortFrom, e.observations) || (e.result.Threw? && e.result.failure.statusCode == Some(499))) ==>
        s == Stop([StartEvent(node, o.now)], Finished(RunResult(Failed, input, e.st, node.id)))
    ensures var s := Step(g, o, node, input, st, obs);
      var e := NodeStep(node, input, st.(current := Coalesce(input, EmptyObject())), o, obs + 1);
      !Aborted(o.abortFrom, obs) && !Aborted(o.abortFrom, e.observations)
      && e.result.Threw? && e.result.failure.statusCode != Some(499) ==>
        s == Stop([StartEvent(node, o.now), FailEvent(node, FailureMessage(e.result.failure), o.now)],
                  Finished(RunResult(Failed, input, e.st, node.id)))
    ensures var s := Step(g, o, node, input, st, obs);
      var e := NodeStep(node, input, st.(current := Coalesce(input, EmptyObject())), o, obs + 1);
      !Aborted(o.abortFrom, obs) && !Aborted(o.abortFrom, e.observations) && e.result.Returned? ==>
        s.events == [StartEvent(node, o.now), SuccessEvent(node, e.result.output, o.now)]
        && (s.Stop? <==> Terminal(g, node, e.result.output))
        && (s.Stop? ==> s.outcome == Finished(RunResult(Succeeded, e.result.output, e.st, node.id)))
  {
  }

  /** A delay node outside development with a positive wait, whose signal is raised
      while it waits, ends the run as failed at that node with only a `start` event,
      handing back the input it received; its delay record stays in the context. */
  lemma DelayCancelled(g: Graph, o: Options, node: Node, input: Value, st: ContextState, obs: nat)
    requires node.kind == "delay" && !o.development
    requires Positive(DelayMs(DelayDuration(NodeData(node)), DelayUnit(NodeData(node))))
    requires !Aborted(o.abortFrom, obs) && Aborted(o.abortFrom, obs + 1)
    ensures var s := Step(g, o, node, input, st, obs);
      s.Stop? && s.events == [StartEvent(node, o.now)] && NoFailEvent(s.events)
      && s.outcome.Finished? && s.outcome.result.status == Failed
      && s.outcome.result.output == input && s.outcome.result.stoppedAtNodeId == node.id
      && |s.outcome.result.context.logs| == |st.logs| + 1
  {
    var e := NodeStep(node, input, st.(current := Coalesce(input, EmptyObject())), o, obs + 1);
    assert e.result.Threw? && e.result.failure.statusCode == Some(499);
    StepCauses(g, o, node, input, st, obs);
  }

  /** The cause of a failed iteration: nothing reported means a raised signal;
      only `start` means a raised signal or a 499 from the log sink; a `fail` event
      is the log sink's error. */
  ghost predicate FailCause(o: Options, s: StepResult)
  {
    s.Stop? && s.outcome.Finished? && s.outcome.result.status == Failed ==>
      (s.events == [] ==> o.abortFrom.Some?)
      && (|s.events| == 1 ==> o.abortFrom.Some? || Sink499(o))
      && (|s.events| == 2 ==> SinkFailure(o, s.events[1]))
  }

  lemma StepFailCause(g: Graph, o: Options, node: Node, input: Value, st: ContextState, obs: nat)
    ensures FailCause(o, Step(g, o, node, input, st, obs))
  {
    var s := Step(g, o, node, input, st, obs);
    var e := NodeStep(node, input, st.(current := Coalesce(input, EmptyObject())), o, obs + 1);
    StepCauses(g, o, node, input, st, obs);
    NodeStepThrows(node, input, st.(current := Coalesce(input, EmptyObject())), o, obs + 1);
    StepCases(g, o, node, input, st, obs);
    if !Aborted(o.abortFrom, obs) && e.result.Threw? && node.kind == "log" {
      var v := LogReport(NodeData(node));
      assert o.onLog(v) == Some(e.result.failure);
    }
  }

  /** The node a reported event stands for: its id and type, which is all that
      `Terminal` reads of a node. */
  function EventNode(ev: RunEvent): Node
  {
    Node(ev.nodeId, ev.nodeType, None)
  }

  /** `Terminal` depends on a node's id and type only. */
  lemma TerminalIgnoresData(g: Graph, node: Node, output: Value)
    ensures Terminal(g, node, output) <==> Terminal(g, Node(node.id, node.kind, None), output)
  {
    assert ResolveNextEdge(node, output, OutgoingOf(g, node.id)) == ResolveNextEdge(Node(node.id, node.kind, None), output, OutgoingOf(g, node.id));
  }

  /** Why a trace ends: a success reported by the `success` event of a terminal
      node, the node it stopped at; a failure without a `fail` event only under a
      raised signal or a 499 from the log sink; a failure with one at the node whose
      log sink threw. */
  ghost predicate TraceCause(g: Graph, o: Options, t: Trace)
  {
    (t.outcome.Finished? && t.outcome.result.status == Succeeded ==>
       t.events != [] &&
       var last := t.events[|t.events| - 1];
       last.status == Success && last.nodeId == t.outcome.result.stoppedAtNodeId
       && last.output == t.outcome.result.output && Terminal(g, EventNode(last), t.outcome.result.output))
    && (t.outcome.Finished? && t.outcome.result.status == Failed && NoFailEvent(t.events) ==>
          o.abortFrom.Some? || Sink499(o))
    && (t.outcome.Finished? && t.outcome.result.status == Failed && !NoFailEvent(t.events) ==>
          t.events != [] && SinkFailure(o, t.events[|t.events| - 1])
          && t.events[|t.events| - 1].nodeId == t.outcome.result.stoppedAtNodeId)
  }

  lemma {:induction false} RunFromCause(g: Graph, maxSteps: nat, o: Options, node: Node, input: Value, st: ContextState, obs: nat, step: nat)
    ensures TraceCause(g, o, RunFrom(g, maxSteps, o, node, input, st, obs, step))
    decreases maxSteps - step
  {
    if step < maxSteps {
      var s := Step(g, o, node, input, st, obs);
      StepCases(g, o, node, input, st, obs);
      StepFailCause(g, o, node, input, st, obs);
      if s.Stop? {
        StopCause(g, o, node, input, s);
      } else {
        var rest := RunFrom(g, maxSteps, o, s.next, s.carried, s.st, s.obs, step + 1);
        RunFromCause(g, maxSteps, o, s.next, s.carried, s.st, s.obs, step + 1);
        ContinueCause(g, o, node, input, s, rest);
      }
    }
  }

  lemma StopCause(g: Graph, o: Options, node: Node, input: Value, s: StepResult)
    requires s.Stop? && StepShape(g, o, node, input, s) && FailCause(o, s)
    ensures TraceCause(g, o, Trace(s.events, s.outcome))
  {
    if s.outcome.result.status == Succeeded {
      TerminalIgnoresData(g, node, s.outcome.result.output);
      assert EventNode(s.events[1]) == Node(node.id, node.kind, None);
    }
  }

  lemma ContinueCause(g: Graph, o: Options, node: Node, input: Value, s: StepResult, rest: Trace)
    requires s.Continue? && StepShape(g, o, node, input, s) && TraceCause(g, o, rest)
    ensures TraceCause(g, o, Trace(s.events + rest.events, rest.outcome))
  {
    var events := s.events + rest.events;
    assert forall i :: 2 <= i < |events| ==> events[i] == rest.events[i - 2];
    assert events[0].status == Start && events[1].status == Success;
    if NoFailEvent(events) {
      forall i | 0 <= i < |rest.events| ensures rest.events[i].status != Fail {
        assert rest.events[i] == events[i + 2];
      }
    }
    if NoFailEvent(rest.events) {
      assert NoFailEvent(events);
    }
    if rest.events != [] {
      assert events[|events| - 1] == rest.events[|rest.events| - 1];
    }
  }

  /** Without a cancellation signal and with a log sink that never throws, no
      node executor throws. */
  lemma NoAbortNodeReturns(node: Node, input: Value, st: ContextState, o: Options, obs: nat)
    requires o.abortFrom.None? && forall v :: o.onLog(v).None?
    ensures NodeStep(node, input, st, o, obs).result.Returned?
  {
    if node.kind == "log" && !IsTrigger(node.kind) {
      var data := NodeData(node);
      assert o.onLog(LogPayload(Coalesce(Field(data, "level"), Str("info")), Field(data, "message"))).None?;
    }
  }

  /** Without a cancellation signal and with a log sink that never throws, no node
      fails: the run succeeds or exhausts the step bound, and reports no `fail`. */
  lemma {:induction false} NoAbortNoFailure(g: Graph, maxSteps: nat, o: Options, node: Node, input: Value, st: ContextState, obs: nat, step: nat)
    requires o.abortFrom.None? && forall v :: o.onLog(v).None?
    ensures var t := RunFrom(g, maxSteps, o, node, input, st, obs, step);
      NoFailEvent(t.events) && (t.outcome.Finished? ==> t.outcome.result.status == Succeeded)
    decreases maxSteps - step
  {
    if step < maxSteps {
      var e := NodeStep(node, input, st.(current := Coalesce(input, EmptyObject())), o, obs + 1);
      NoAbortNodeReturns(node, input, st.(current := Coalesce(input, EmptyObject())), o, obs + 1);
      var s := Step(g, o, node, input, st, obs);
      assert s == AfterNode(g, o, node, input, e);
      AfterNodeCases(g, o, node, input, e);
      if s.Continue? {
        NoAbortNoFailure(g, maxSteps, o, s.next, s.carried, s.st, s.obs, step + 1);
        RunFromShape(g, maxSteps, o, s.next, s.carried, s.st, s.obs, step + 1);
        var rest := RunFrom(g, maxSteps, o, s.next, s.carried, s.st, s.obs, step + 1);
        BracketedPrepend(node, s.carried, o.now, rest.events);
      }
    }
  }

  /** A node that neither stops the run nor touches it: it passes its input through
      and always has an edge to a node that exists. */
  predicate Forwards(g: Graph, node: Node)
  {
    PassesThrough(node.kind) && node.kind != "done"
    && OutgoingOf(g, node.id) != []
    && forall e :: e in OutgoingOf(g, node.id) ==> e.target in g.byId
  }

  /** In a graph where every node forwards, a run without a cancellation signal
      never ends by itself: it is stopped by the step bound. */
  lemma {:induction false} ForwardingGraphExhaustsBound(g: Graph, maxSteps: nat, o: Options, node: Node, input: Value, st: ContextState, obs: nat, step: nat)
    requires o.abortFrom.None?
    requires Forwards(g, node) && forall id :: id in g.byId ==> Forwards(g, g.byId[id])
    ensures RunFrom(g, maxSteps, o, node, input, st, obs, step).outcome == Raised(400, StepLimitMessage)
    decreases maxSteps - step
  {
    if step < maxSteps {
      var s := Step(g, o, node, input, st, obs);
      ForwardStep(g, o, node, input, st, obs);
      ForwardingGraphExhaustsBound(g, maxSteps, o, s.next, s.carried, s.st, s.obs, step + 1);
    }
  }

  /** A forwarding node hands over to a forwarding node. */
  lemma ForwardStep(g: Graph, o: Options, node: Node, input: Value, st: ContextState, obs: nat)
    requires o.abortFrom.None?
    requires Forwards(g, node) && forall id :: id in g.byId ==> Forwards(g, g.byId[id])
    ensures var s := Step(g, o, node, input, st, obs); s.Continue? && Forwards(g, s.next)
  {
    var s := Step(g, o, node, input, st, obs);
    var e := NodeStep(node, input, st.(current := Coalesce(input, EmptyObject())), o, obs + 1);
    assert e.result == Returned(input);
    ForwardEdge(g, node, input);
    var edge := ResolveNextEdge(node, input, OutgoingOf(g, node.id));
    assert s.Continue? && s.next == g.byId[edge.value.target];
  }

  /** A forwarding node leaves along an edge to a node that exists. */
  lemma ForwardEdge(g: Graph, node: Node, output: Value)
    requires Forwards(g, node)
    ensures var edge := ResolveNextEdge(node, output, OutgoingOf(g, node.id));
      edge.Some? && edge.value.target in g.byId
  {
    var out := OutgoingOf(g, node.id);
    var edge := ResolveNextEdge(node, output, out);
    assert node.kind != "decision" by { BuiltInKindsAreNotTriggers(); }
    assert edge.value in out by {
      if edge.value != out[0] {
        var k :| 0 <= k < |out| && out[k] == edge.value;
      }
    }
  }

  /** A run whose signal is already raised stops at the start node before running
      it, fails with the initial input, and reports nothing. */
  lemma ImmediateAbort(def: Definition, o: Options)
    requires def.nodes != [] && o.abortFrom == Some(0)
    ensures var input := Coalesce(o.input, EmptyObject());
      Run(def, o) == Trace([], Finished(RunResult(Failed, input, ContextState(input, input, [], []), StartNode(def.nodes).id)))
  {
  }

  /** A run ends in one of the ways the loop allows, and its events are bracketed. */
  lemma {:induction false} RunShape(def: Definition, o: Options)
    ensures var t := Run(def, o);
      Bracketed(t.events)
      && (def.nodes == [] <==> t.outcome == Raised(400, NoNodesMessage))
      && (t.outcome.Raised? && def.nodes != [] ==>
            t.outcome == Raised(400, StepLimitMessage) && |t.events| == 2 * MaxSteps(|def.nodes|) && NoFailEvent(t.events))
      && (t.outcome.Finished? && t.outcome.result.status == Failed ==>
            t.outcome.result.output == CarriedInput(t.events, Coalesce(o.input, EmptyObject())))
    ensures def.nodes != [] ==> TraceCause(Index(def), o, Run(def, o))
  {
    if def.nodes != [] {
      var input := Coalesce(o.input, EmptyObject());
      RunFromShape(Index(def), MaxSteps(|def.nodes|), o, StartNode(def.nodes), input, ContextState(input, input, [], []), 0, 0);
      RunFromCause(Index(def), MaxSteps(|def.nodes|), o, StartNode(def.nodes), input, ContextState(input, input, [], []), 0, 0);
    }
  }
}

=== FILE: filtering.dfy ===
/** Order-preserving filters over sequences, as `Array.prototype.filter` computes them. */
module Filtering {
  /** `xs.filter(keep)`: the elements that pass the test, in their order. */
  function Where<T>(xs: seq<T>, keep: T -> bool): (r: seq<T>)
    ensures |r| <= |xs|
  {
    if xs == [] then []
    else (if keep(xs[0]) then [xs[0]] else []) + Where(xs[1..], keep)
  }

  /** The filter keeps exactly the elements that pass the test. */
  lemma {:induction false} WhereMembers<T>(xs: seq<T>, keep: T -> bool)
    ensures forall x :: x in Where(xs, keep) <==> x in xs && keep(x)
  {
    if xs != [] {
      WhereMembers(xs[1..], keep);
      assert xs == [xs[0]] + xs[1..];
    }
  }

  lemma {:induction false} WhereWhere<T>(xs: seq<T>, p: T -> bool, q: T -> bool, both: T -> bool)
    requires forall x :: both(x) == (p(x) && q(x))
    ensures Where(Where(xs, p), q) == Where(xs, both)
  {
    if xs != [] {
      WhereWhere(xs[1..], p, q, both);
      var head := if p(xs[0]) then [xs[0]] else [];
      WhereAppend(head, Where(xs[1..], p), q);
      if p(xs[0]) {
        assert Where(head, q) == if q(xs[0]) then [xs[0]] else [] by { assert head[1..] == []; }
      }
    }
  }

  /** Five filters in a row are one filter by their conjunction. */
  lemma WhereFive<T>(xs: seq<T>, q: T -> bool, s: T -> bool, r: T -> bool, l: T -> bool, c: T -> bool, all: T -> bool)
    requires forall x :: all(x) == (q(x) && s(x) && r(x) && l(x) && c(x))
    ensures Where(Where(Where(Where(Where(xs, q), s), r), l), c) == Where(xs, all)
  {
    var qs := (x: T) => q(x) && s(x);
    var qsr := (x: T) => qs(x) && r(x);
    var qsrl := (x: T) => qsr(x) && l(x);
    WhereWhere(xs, q, s, qs);
    WhereWhere(xs, qs, r, qsr);
    WhereWhere(xs, qsr, l, qsrl);
    WhereWhere(xs, qsrl, c, all);
  }

  lemma {:induction false} WhereAppend<T>(a: seq<T>, b: seq<T>, q: T -> bool)
    ensures Where(a + b, q) == Where(a, q) + Where(b, q)
  {
    if a == [] {
      assert a + b == b;
    } else {
      assert (a + b)[0] == a[0] && (a + b)[1..] == a[1..] + b;
      WhereAppend(a[1..], b, q);
      var head := if q(a[0]) then [a[0]] else [];
      calc {
        Where(a + b, q);
        head + Where(a[1..] + b, q);
        head + (Where(a[1..], q) + Where(b, q));
        (head + Where(a[1..], q)) + Where(b, q);
      }
    }
  }

  /** A filter every element passes changes nothing. */
  lemma {:induction false} WhereAll<T>(xs: seq<T>, keep: T -> bool)
    requires forall x :: x in xs ==> keep(x)
    ensures Where(xs, keep) == xs
  {
    if xs != [] {
      assert forall x :: x in xs[1..] ==> x in xs;
      WhereAll(xs[1..], keep);
    }
  }

  /** `xs` keeps the order of `ys`: it is `ys` with some elements left out. */
  predicate Subsequence<T(==)>(xs: seq<T>, ys: seq<T>)
  {
    xs == []
    || (ys != [] && ((xs[0] == ys[0] && Subsequence(xs[1..], ys[1..])) || Subsequence(xs, ys[1..])))
  }

  lemma {:induction false} WhereSubsequence<T>(xs: seq<T>, keep: T -> bool)
    ensures Subsequence(Where(xs, keep), xs)
  {
    if xs != [] {
      WhereSubsequence(xs[1..], keep);
      var rest := Where(xs[1..], keep);
      var kept := Where(xs, keep);
      if keep(xs[0]) {
        assert kept == [xs[0]] + rest;
        assert kept[0] == xs[0] && kept[1..] == rest;
      } else {
        assert kept == rest;
      }
    }
  }

  lemma {:induction false} SubsequenceSelf<T>(xs: seq<T>)
    ensures Subsequence(xs, xs)
  {
    if xs != [] {
      SubsequenceSelf(xs[1..]);
    }
  }

  /** Leaving out elements twice is leaving them out once. */
  lemma {:induction false} SubsequenceTrans<T>(xs: seq<T>, ys: seq<T>, zs: seq<T>)
    requires Subsequence(xs, ys) && Subsequence(ys, zs)
    ensures Subsequence(xs, zs)
    decreases |zs|, |ys|
  {
    if xs != [] {
      assert ys != [] && zs != [];
      if Subsequence(ys, zs[1..]) {
        SubsequenceTrans(xs, ys, zs[1..]);
      } else {
        assert ys[0] == zs[0] && Subsequence(ys[1..], zs[1..]);
        if xs[0] == ys[0] && Subsequence(xs[1..], ys[1..]) {
          SubsequenceTrans(xs[1..], ys[1..], zs[1..]);
        } else {
          SubsequenceTrans(xs, ys[1..], zs[1..]);
        }
      }
    }
  }
}

=== FILE: flow_utils.dfy ===
/** The editor helpers that look nodes and ports up on the canvas, and translations. */
module FlowUtils {
  import opened Values
  import opened Condition
  import opened EditorTypes

  /** A connection the editor proposes; Vue Flow allows the handles to be absent. */
  datatype Connection = Connection(source: string, target: string, sourceHandle: Option<string>, targetHandle: Option<string>)

  /** `nodes.find(n => n.id === id)`. */
  function FindNode(nodes: seq<FlowNode>, id: string): (r: Option<FlowNode>)
    ensures r.Some? <==> exists i :: 0 <= i < |nodes| && nodes[i].id == id
    ensures r.Some? ==> r.value.id == id && exists i :: 0 <= i < |nodes| && nodes[i] == r.value && forall j :: 0 <= j < i ==> nodes[j].id != id
  {
    if nodes == [] then None
    else if nodes[0].id == id then Some(nodes[0])
    else
      var r := FindNode(nodes[1..], id);
      assert forall i :: 0 < i < |nodes| ==> nodes[i] == nodes[1..][i - 1];
      if r.Some? then
        var i :| 0 <= i < |nodes[1..]| && nodes[1..][i] == r.value && forall j :: 0 <= j < i ==> nodes[1..][j].id != id;
        assert nodes[i + 1] == r.value && forall j :: 0 <= j < i + 1 ==> nodes[j].id != id;
        r
      else r
  }

  /** `ports.find(p => p.id === handle)`; an absent handle matches no port. */
  function FindPort(ports: seq<Port>, handle: Option<string>): (r: Option<Port>)
    ensures r.Some? <==> handle.Some? && exists i :: 0 <= i < |ports| && ports[i].id == handle.value
    ensures r.Some? ==> r.value.id == handle.value
    ensures r.Some? ==> exists i :: 0 <= i < |ports| && ports[i] == r.value && forall j :: 0 <= j < i ==> ports[j].id != handle.value
  {
    if handle.None? || ports == [] then None
    else if ports[0].id == handle.value then Some(ports[0])
    else
      var r := FindPort(ports[1..], handle);
      assert forall i :: 0 < i < |ports| ==> ports[i] == ports[1..][i - 1];
      if r.Some? then
        var i :| 0 <= i < |ports[1..]| && ports[1..][i] == r.value && forall j :: 0 <= j < i ==> ports[1..][j].id != handle.value;
        assert ports[i + 1] == r.value && forall j :: 0 <= j < i + 1 ==> ports[j].id != handle.value;
        r
      else r
  }

  /** The ports on one side of a node's schema snapshot, if its `data.schema` is one. */
  function SchemaPorts(node: FlowNode, outputs: bool): seq<Port>
  {
    var entry := Lookup(node.data, "schema");
    if entry.Some? && entry.value.Snapshot? then
      (if outputs then entry.value.schema.outputs else entry.value.schema.inputs)
    else []
  }

  /** `canConnect` on a proposed connection between canvas nodes: both nodes and
      both ports must exist, and then their data types must be compatible. */
  function CanConnectNodes(connection: Connection, nodes: seq<FlowNode>): (r: bool)
    ensures FindNode(nodes, connection.source).None? || FindNode(nodes, connection.target).None? ==> !r
    ensures r <==>
      FindNode(nodes, connection.source).Some? && FindNode(nodes, connection.target).Some?
      && var sourcePort := FindPort(SchemaPorts(FindNode(nodes, connection.source).value, true), connection.sourceHandle);
         var targetPort := FindPort(SchemaPorts(FindNode(nodes, connection.target).value, false), connection.targetHandle);
         sourcePort.Some? && targetPort.Some?
         && (sourcePort.value.dataType == "any" || targetPort.value.dataType == "any"
             || sourcePort.value.dataType == targetPort.value.dataType)
  {
    var sourceNode := FindNode(nodes, connection.source);
    var targetNode := FindNode(nodes, connection.target);
    if sourceNode.None? || targetNode.None? then false
    else
      var sourcePort := FindPort(SchemaPorts(sourceNode.value, true), connection.sourceHandle);
      var targetPort := FindPort(SchemaPorts(targetNode.value, false), connection.targetHandle);
      if sourcePort.None? || targetPort.None? then false
      else
        CompatibleSymmetric(sourcePort.value.dataType, targetPort.value.dataType);
        Compatible(sourcePort.value.dataType, targetPort.value.dataType)
  }

  /** Between two nodes created from schemas whose defaults leave `schema` alone, the
      node-level check is the handle-level check on the ports the schemas declare. */
  lemma CreatedNodesConnect(source: NodeSchema, target: NodeSchema, sourceId: string, targetId: string,
                            p: Option<Position>, q: Option<Position>, sourceHandle: string, targetHandle: string)
    requires sourceId != targetId
    requires source.defaultData.None? && target.defaultData.None?
    ensures var nodes := [CreateFlowNode(source, p, sourceId), CreateFlowNode(target, q, targetId)];
      var sourcePort := FindPort(source.outputs, Some(sourceHandle));
      var targetPort := FindPort(target.inputs, Some(targetHandle));
      CanConnectNodes(Connection(sourceId, targetId, Some(sourceHandle), Some(targetHandle)), nodes)
      == (sourcePort.Some? && targetPort.Some? && CanConnect(Some(sourcePort.value.dataType), Some(targetPort.value.dataType)))
  {
    var a := CreateFlowNode(source, p, sourceId);
    var b := CreateFlowNode(target, q, targetId);
    CreatedPorts(source, p, sourceId);
    CreatedPorts(target, q, targetId);
    PairConnect(a, b, sourceHandle, targetHandle);
  }

  /** Between two nodes with different ids, the node-level check is the handle-level
      check on their ports. */
  lemma PairConnect(a: FlowNode, b: FlowNode, sourceHandle: string, targetHandle: string)
    requires a.id != b.id
    ensures var sourcePort := FindPort(SchemaPorts(a, true), Some(sourceHandle));
      var targetPort := FindPort(SchemaPorts(b, false), Some(targetHandle));
      CanConnectNodes(Connection(a.id, b.id, Some(sourceHandle), Some(targetHandle)), [a, b])
      == (sourcePort.Some? && targetPort.Some? && CanConnect(Some(sourcePort.value.dataType), Some(targetPort.value.dataType)))
  {
    FindInPair(a, b);
  }

  /** A node created from a schema whose defaults leave `schema` alone offers that
      schema's ports. */
  lemma CreatedPorts(schema: NodeSchema, position: Option<Position>, id: string)
    requires schema.defaultData.None?
    ensures var node := CreateFlowNode(schema, position, id);
      SchemaPorts(node, true) == schema.outputs && SchemaPorts(node, false) == schema.inputs
  {
    FreshNodeData(schema, position, id);
  }

  /** Each of two nodes with different ids is found by its id. */
  lemma FindInPair(a: FlowNode, b: FlowNode)
    requires a.id != b.id
    ensures FindNode([a, b], a.id) == Some(a) && FindNode([a, b], b.id) == Some(b)
  {
    assert [a, b][1..] == [b];
  }

  // ---------------------------------------------------------------------
  // Translations

  /** `getTranslation`: the entry for the locale, else for the fallback locale, else
      the empty string; a falsy key gives the empty string. */
  function GetTranslation(key: Value, locale: string, fallbackLocale: string): (r: Value)
    ensures !Truthy(key) ==> r == Str("")
    ensures Truthy(key) && Truthy(Member(key, locale)) ==> r == Member(key, locale)
    ensures Truthy(key) && !Truthy(Member(key, locale)) && Truthy(Member(key, fallbackLocale)) ==> r == Member(key, fallbackLocale)
    ensures Truthy(key) && !Truthy(Member(key, locale)) && !Truthy(Member(key, fallbackLocale)) ==> r == Str("")
    ensures r == Str("") || Truthy(r)
  {
    if !Truthy(key) then Str("")
    else if Truthy(Member(key, locale)) then Member(key, locale)
    else if Truthy(Member(key, fallbackLocale)) then Member(key, fallbackLocale)
    else Str("")
  }

  /** The fallback locale `getTranslation` uses when its caller names none. */
  const DefaultFallbackLocale := "en"

  /** `getTranslation(key, locale)`: English is the fallback. */
  function GetTranslationDefault(key: Value, locale: string): (r: Value)
    ensures Truthy(key) && !Truthy(Member(key, locale)) ==>
      r == (if Truthy(Member(key, "en")) then Member(key, "en") else Str(""))
  {
    GetTranslation(key, locale, DefaultFallbackLocale)
  }

  /** The translation a record holds for a locale, empty when it holds none. */
  function Entry(entries: seq<(string, string)>, locale: string): string
  {
    match Lookup(entries, locale)
    case Some(text) => text
    case None => ""
  }

  /** On a record of translations, the result is the locale's translation when it is
      not empty, else the fallback locale's, else the empty string. */
  lemma TranslationFallback(entries: seq<(string, string)>, locale: string, fallbackLocale: string)
    ensures var key := Obj(seq(|entries|, i requires 0 <= i < |entries| => (entries[i].0, Str(entries[i].1))));
      GetTranslation(key, locale, fallbackLocale)
      == Str(if Entry(entries, locale) != "" then Entry(entries, locale) else Entry(entries, fallbackLocale))
  {
    var fields := seq(|entries|, i requires 0 <= i < |entries| => (entries[i].0, Str(entries[i].1)));
    StringEntries(entries, fields, locale);
    StringEntries(entries, fields, fallbackLocale);
  }

  lemma {:induction false} StringEntries(entries: seq<(string, string)>, fields: Fields, k: string)
    requires |fields| == |entries| && forall i :: 0 <= i < |entries| ==> fields[i] == (entries[i].0, Str(entries[i].1))
    ensures Field(fields, k) == if Lookup(entries, k).Some? then Str(Lookup(entries, k).value) else Undef
  {
    if entries != [] && entries[0].0 != k {
      StringEntries(entries[1..], fields[1..], k);
    }
  }
}

=== FILE: inbox.dfy ===
/** The inbox store: the conversation list and its filters, the per-conversation
    message cache, and the inspector panel. */
module Inbox {
  import opened Values
  import opened Filtering

  /** The conversation fields the store reads; the lead is flattened to its two names. */
  datatype Conversation = Conversation(id: string, companyName: string, fullName: Option<string>,
                                       preview: string, status: string)

  /** A message is only cached and handed out, never inspected. */
  datatype Message = Message(id: string, conversationId: string, senderType: string,
                             content: string, createdAt: string, status: string)

  type MessageCache = map<string, seq<Message>>

  // ---------------------------------------------------------------------
  // Getters

  /** The search test of `filteredConversations`, with `query` already lower-cased:
      a missing full name does not match. */
  predicate MentionsQuery(c: Conversation, query: string)
  {
    Contains(Lower(c.companyName), query)
    || (c.fullName.Some? && Contains(Lower(c.fullName.value), query))
    || Contains(Lower(c.preview), query)
  }

  function QueryFilter(q: string): Conversation -> bool { c => MentionsQuery(c, Lower(q)) }
  function StateFilter(state: string): Conversation -> bool { (c: Conversation) => c.status == state }

  /** `filteredConversations`: the search applies when `q` is not empty, the state
      filter when the state is not `open`. */
  function FilterConversations(conversations: seq<Conversation>, q: string, state: string): seq<Conversation>
  {
    var byQuery := if q != "" then Where(conversations, QueryFilter(q)) else conversations;
    if state != "open" then Where(byQuery, StateFilter(state)) else byQuery
  }

  /** A conversation is listed exactly when it is in the store, mentions the search
      (if any) and has the chosen state (unless that is `open`); the list keeps the
      store's order, and with `open` and no search it is the whole store. */
  lemma FilterConversationsSpec(conversations: seq<Conversation>, q: string, state: string)
    ensures forall c :: c in FilterConversations(conversations, q, state) <==>
      c in conversations && (q == "" || MentionsQuery(c, Lower(q))) && (state == "open" || c.status == state)
    ensures Subsequence(FilterConversations(conversations, q, state), conversations)
    ensures q == "" && state == "open" ==> FilterConversations(conversations, q, state) == conversations
  {
    var byQuery := if q != "" then Where(conversations, QueryFilter(q)) else conversations;
    WhereMembers(conversations, QueryFilter(q));
    WhereMembers(byQuery, StateFilter(state));
    WhereSubsequence(conversations, QueryFilter(q));
    WhereSubsequence(byQuery, StateFilter(state));
    SubsequenceSelf(conversations);
    SubsequenceTrans(Where(byQuery, StateFilter(state)), byQuery, conversations);
  }

  /** `conversationMessages(id)`: the cached list, or none for an id never loaded. */
  function ConversationMessages(cache: MessageCache, conversationId: string): (r: seq<Message>)
    ensures conversationId in cache ==> r == cache[conversationId]
    ensures conversationId !in cache ==> r == []
  {
    if conversationId in cache then cache[conversationId] else []
  }

  /** Once a conversation's messages are stored they are what the getter returns,
      and no other conversation's list changes. */
  lemma CachedMessages(cache: MessageCache, conversationId: string, messages: seq<Message>, other: string)
    ensures ConversationMessages(cache[conversationId := messages], conversationId) == messages
    ensures other != conversationId ==>
      ConversationMessages(cache[conversationId := messages], other) == ConversationMessages(cache, other)
  {
  }

  /** Which conversation's messages `setCurrentConversation` asks for: the new
      current one, when the cache holds no list for it (an empty list counts as one). */
  function MessageRequest(cache: MessageCache, conversation: Option<Conversation>): (r: Option<string>)
    ensures r.Some? <==> conversation.Some? && conversation.value.id !in cache
    ensures r.Some? ==> r.value == conversation.value.id
  {
    if conversation.Some? && conversation.value.id !in cache then Some(conversation.value.id) else None
  }

  /** After the requested messages arrive, choosing the same conversation again asks
      for nothing. */
  lemma RequestOnce(cache: MessageCache, conversation: Conversation, messages: seq<Message>)
    ensures var r := MessageRequest(cache, Some(conversation));
      r.Some? ==> MessageRequest(cache[r.value := messages], Some(conversation)).None?
  {
  }

  // ---------------------------------------------------------------------
  // The store

  class InboxStore {
    var conversations: seq<Conversation>
    var currentConversation: Option<Conversation>
    var messagesByConversationId: MessageCache
    var q: string
    var state: string
    var inspectorOpen: bool
    var loadingConversations: bool
    var loadingMessages: bool

    /** The store's initial state. */
    constructor ()
      ensures conversations == [] && currentConversation.None? && messagesByConversationId == map[]
      ensures q == "" && state == "open"
      ensures !inspectorOpen && !loadingConversations && !loadingMessages
    {
      conversations := [];
      currentConversation := None;
      messagesByConversationId := map[];
      q := "";
      state := "open";
      inspectorOpen := false;
      loadingConversations := false;
      loadingMessages := false;
    }

    /** `setCurrentConversation`: the conversation always becomes current; when its
        messages are not cached they are requested, and `fetchMessages` marks the
        messages as loading before it first waits.  The fetch's completion is not
        part of this call. */
    method SetCurrentConversation(conversation: Option<Conversation>) returns (requested: Option<string>)
      modifies this
      ensures currentConversation == conversation
      ensures requested == MessageRequest(old(messagesByConversationId), conversation)
      ensures loadingMessages == (old(loadingMessages) || requested.Some?)
      ensures conversations == old(conversations) && messagesByConversationId == old(messagesByConversationId)
      ensures q == old(q) && state == old(state) && inspectorOpen == old(inspectorOpen)
      ensures loadingConversations == old(loadingConversations)
    {
      currentConversation := conversation;
      requested := None;
      if conversation.Some? && conversation.value.id !in messagesByConversationId {
        requested := Some(conversation.value.id);
        loadingMessages := true;
      }
    }

    /** `toggleInspector`. */
    method ToggleInspector()
      modifies this
      ensures inspectorOpen == !old(inspectorOpen)
      ensures conversations == old(conversations) && currentConversation == old(currentConversation)
      ensures messagesByConversationId == old(messagesByConversationId)
      ensures q == old(q) && state == old(state)
      ensures loadingConversations == old(loadingConversations) && loadingMessages == old(loadingMessages)
    {
      inspectorOpen := !inspectorOpen;
    }

    /** `clearFilters`: afterwards every conversation is listed. */
    method ClearFilters()
      modifies this
      ensures q == "" && state == "open"
      ensures FilterConversations(conversations, q, state) == conversations
      ensures conversations == old(conversations) && currentConversation == old(currentConversation)
      ensures messagesByConversationId == old(messagesByConversationId) && inspectorOpen == old(inspectorOpen)
      ensures loadingConversations == old(loadingConversations) && loadingMessages == old(loadingMessages)
    {
      q := "";
      state := "open";
      FilterConversationsSpec(conversations, q, state);
    }
  }
}

=== FILE: leads.dfy ===
/** The leads list: filtering by query and facets, sorting, paging and counts. */
module Leads {
  import opened Values
  import opened Filtering

  /** The lead fields the list reads; tags, phone and the rest are only displayed. */
  datatype Lead = Lead(id: string, companyName: string, fullName: Option<string>, status: string, source: string,
                       language: string, city: Option<string>, priority: string, updatedAt: Option<string>)

  /** The list options; a missing option is `None`.  `has_website` and `has_phone`
      are accepted and never read. */
  datatype LeadOptions = LeadOptions(q: Option<string>, status: Option<string>, source: Option<string>,
                                     language: Option<string>, city: Option<string>, page: Option<int>,
                                     pageSize: Option<int>, sort: Option<string>)

  datatype Counts = Counts(total: nat, newLeads: nat, pendingApproval: nat, repliedToday: nat)

  /** A string option that is present and not empty, i.e. truthy. */
  predicate Given(o: Option<string>)
  {
    o.Some? && o.value != ""
  }

  /** `text && text.toLowerCase().includes(q.toLowerCase())`. */
  predicate Mentions(text: Option<string>, q: string)
  {
    Given(text) && Contains(Lower(text.value), Lower(q))
  }

  // ---------------------------------------------------------------------
  // Filtering

  predicate MatchesQuery(o: LeadOptions, lead: Lead)
  {
    !Given(o.q)
    || Mentions(lead.fullName, o.q.value) || Contains(Lower(lead.companyName), Lower(o.q.value))
    || Mentions(lead.city, o.q.value)
  }

  predicate MatchesStatus(o: LeadOptions, lead: Lead)
  {
    !Given(o.status) || o.status.value == "all" || lead.status == o.status.value
  }

  predicate MatchesSource(o: LeadOptions, lead: Lead)
  {
    !Given(o.source) || o.source.value == "any" || lead.source == o.source.value
  }

  predicate MatchesLanguage(o: LeadOptions, lead: Lead)
  {
    !Given(o.language) || o.language.value == "any" || lead.language == o.language.value
  }

  predicate MatchesCity(o: LeadOptions, lead: Lead)
  {
    !Given(o.city) || Mentions(lead.city, o.city.value)
  }

  /** Whether a lead passes every filter the options switch on. */
  predicate Matches(o: LeadOptions, lead: Lead)
  {
    MatchesQuery(o, lead) && MatchesStatus(o, lead) && MatchesSource(o, lead)
    && MatchesLanguage(o, lead) && MatchesCity(o, lead)
  }

  // The five filter callbacks, one per option.
  function QueryFilter(o: LeadOptions): Lead -> bool { lead => MatchesQuery(o, lead) }
  function StatusFilter(o: LeadOptions): Lead -> bool { lead => MatchesStatus(o, lead) }
  function SourceFilter(o: LeadOptions): Lead -> bool { lead => MatchesSource(o, lead) }
  function LanguageFilter(o: LeadOptions): Lead -> bool { lead => MatchesLanguage(o, lead) }
  function CityFilter(o: LeadOptions): Lead -> bool { lead => MatchesCity(o, lead) }
  function MatchesFilter(o: LeadOptions): Lead -> bool { lead => Matches(o, lead) }

  /** The filter steps of `filteredLeads`, each applied only when its option is set. */
  function FilterLeads(all: seq<Lead>, o: LeadOptions): seq<Lead>
  {
    var byQuery := if Given(o.q) then Where(all, QueryFilter(o)) else all;
    var byStatus := if Given(o.status) && o.status.value != "all" then Where(byQuery, StatusFilter(o)) else byQuery;
    var bySource := if Given(o.source) && o.source.value != "any" then Where(byStatus, SourceFilter(o)) else byStatus;
    var byLanguage := if Given(o.language) && o.language.value != "any" then Where(bySource, LanguageFilter(o)) else bySource;
    if Given(o.city) then Where(byLanguage, CityFilter(o)) else byLanguage
  }

  /** An option that is not set lets every lead through its own test, so each
      step may as well be applied. */
  lemma FilterSteps(all: seq<Lead>, o: LeadOptions)
    ensures FilterLeads(all, o)
      == Where(Where(Where(Where(Where(all, QueryFilter(o)), StatusFilter(o)), SourceFilter(o)), LanguageFilter(o)), CityFilter(o))
  {
    var q, s, r, l, c := QueryFilter(o), StatusFilter(o), SourceFilter(o), LanguageFilter(o), CityFilter(o);
    if !Given(o.q) { WhereAll(all, q); }
    var w1 := Where(all, q);
    if !(Given(o.status) && o.status.value != "all") { WhereAll(w1, s); }
    var w2 := Where(w1, s);
    if !(Given(o.source) && o.source.value != "any") { WhereAll(w2, r); }
    var w3 := Where(w2, r);
    if !(Given(o.language) && o.language.value != "any") { WhereAll(w3, l); }
    var w4 := Where(w3, l);
    if !Given(o.city) { WhereAll(w4, c); }
  }

  /** The filter steps together are one filter by `Matches`. */
  lemma FilterIsWhere(all: seq<Lead>, o: LeadOptions)
    ensures FilterLeads(all, o) == Where(all, MatchesFilter(o))
  {
    FilterSteps(all, o);
    WhereFive(all, QueryFilter(o), StatusFilter(o), SourceFilter(o), LanguageFilter(o), CityFilter(o), MatchesFilter(o));
  }

  /** A lead is listed exactly when it is among all leads and passes every filter;
      without sorting, the list keeps the leads' order. */
  lemma FilterSpec(all: seq<Lead>, o: LeadOptions)
    ensures forall lead :: lead in FilterLeads(all, o) <==> lead in all && Matches(o, lead)
    ensures Subsequence(FilterLeads(all, o), all)
  {
    FilterIsWhere(all, o);
    WhereMembers(all, MatchesFilter(o));
    WhereSubsequence(all, MatchesFilter(o));
  }

  // ---------------------------------------------------------------------
  // Sorting

  /** `priorityOrder[priority] || 0`. */
  function PriorityRank(priority: string): nat
  {
    if priority == "high" then 3 else if priority == "medium" then 2 else if priority == "low" then 1 else 0
  }

  /** The leads of one priority rank, in their order. */
  function WithRank(leads: seq<Lead>, k: nat): (r: seq<Lead>)
    ensures |r| <= |leads|
  {
    if leads == [] then []
    else RankPart(leads[0], k) + WithRank(leads[1..], k)
  }

  /** The lead itself when it has rank `k`, else nothing. */
  function RankPart(x: Lead, k: nat): seq<Lead>
  {
    if PriorityRank(x.priority) == k then [x] else []
  }

  lemma {:induction false} RankMembers(leads: seq<Lead>, k: nat)
    ensures forall x :: x in WithRank(leads, k) <==> x in leads && PriorityRank(x.priority) == k
  {
    if leads != [] {
      RankMembers(leads[1..], k);
      assert leads == [leads[0]] + leads[1..];
    }
  }

  /** The stable sort by descending priority rank: the comparator only compares
      ranks, so leads of one rank keep their order. */
  function ByPriority(leads: seq<Lead>): seq<Lead>
  {
    WithRank(leads, 3) + WithRank(leads, 2) + WithRank(leads, 1) + WithRank(leads, 0)
  }

  lemma {:induction false} ByPriorityPermutes(leads: seq<Lead>)
    ensures multiset(ByPriority(leads)) == multiset(leads)
  {
    if leads != [] {
      var h, t := leads[0], leads[1..];
      var a, b, c, d := multiset(WithRank(t, 3)), multiset(WithRank(t, 2)), multiset(WithRank(t, 1)), multiset(WithRank(t, 0));
      var ha, hb, hc, hd := multiset(RankPart(h, 3)), multiset(RankPart(h, 2)), multiset(RankPart(h, 1)), multiset(RankPart(h, 0));
      assert multiset(ByPriority(leads)) == (ha + a) + (hb + b) + (hc + c) + (hd + d) by {
        RankHead(leads, 3);
        RankHead(leads, 2);
        RankHead(leads, 1);
        RankHead(leads, 0);
      }
      Regroup(ha, a, hb, b, hc, c, hd, d);
      assert ha + hb + hc + hd == multiset{h} by { HeadOnce(h); }
      assert a + b + c + d == multiset(t) by { ByPriorityPermutes(t); }
      assert multiset(leads) == multiset{h} + multiset(t) by { assert leads == [h] + t; }
    }
  }

  lemma Regroup<T>(ha: multiset<T>, a: multiset<T>, hb: multiset<T>, b: multiset<T>,
                   hc: multiset<T>, c: multiset<T>, hd: multiset<T>, d: multiset<T>)
    ensures (ha + a) + (hb + b) + (hc + c) + (hd + d) == (ha + hb + hc + hd) + (a + b + c + d)
  {
  }

  lemma RankHead(leads: seq<Lead>, k: nat)
    requires leads != []
    ensures multiset(WithRank(leads, k)) == multiset(RankPart(leads[0], k)) + multiset(WithRank(leads[1..], k))
  {
  }

  /** A lead has exactly one of the four ranks. */
  lemma HeadOnce(x: Lead)
    ensures multiset(RankPart(x, 3)) + multiset(RankPart(x, 2)) + multiset(RankPart(x, 1)) + multiset(RankPart(x, 0))
      == multiset{x}
  {
  }

  lemma {:induction false} RankAppend(a: seq<Lead>, b: seq<Lead>, k: nat)
    ensures WithRank(a + b, k) == WithRank(a, k) + WithRank(b, k)
  {
    if a == [] {
      assert a + b == b;
    } else {
      var h, t := RankPart(a[0], k), a[1..];
      calc {
        WithRank(a + b, k);
      == { assert (a + b)[0] == a[0] && (a + b)[1..] == t + b; }
        h + WithRank(t + b, k);
      == { RankAppend(t, b, k); }
        h + (WithRank(t, k) + WithRank(b, k));
      == { SeqAssoc(h, WithRank(t, k), WithRank(b, k)); }
        (h + WithRank(t, k)) + WithRank(b, k);
      }
    }
  }

  lemma SeqAssoc<T>(x: seq<T>, y: seq<T>, z: seq<T>)
    ensures x + (y + z) == (x + y) + z
  {
  }

  lemma {:induction false} RankOfRank(leads: seq<Lead>, j: nat, k: nat)
    ensures WithRank(WithRank(leads, j), k) == if j == k then WithRank(leads, k) else []
  {
    if leads != [] {
      RankOfRank(leads[1..], j, k);
      var head := if PriorityRank(leads[0].priority) == j then [leads[0]] else [];
      RankAppend(head, WithRank(leads[1..], j), k);
      if head != [] {
        assert WithRank(head, k) == if j == k then [leads[0]] else [] by { assert head[1..] == []; }
      }
    }
  }

  /** Ranks along the sorted list never increase. */
  lemma Descending(leads: seq<Lead>)
    ensures var r := ByPriority(leads);
      forall i, j :: 0 <= i < j < |r| ==> PriorityRank(r[i].priority) >= PriorityRank(r[j].priority)
  {
    var a, b, c, d := WithRank(leads, 3), WithRank(leads, 2), WithRank(leads, 1), WithRank(leads, 0);
    var r := a + b + c + d;
    RankMembers(leads, 3);
    RankMembers(leads, 2);
    RankMembers(leads, 1);
    RankMembers(leads, 0);
    forall i | 0 <= i < |r|
      ensures PriorityRank(r[i].priority) == if i < |a| then 3 else if i < |a| + |b| then 2 else if i < |a| + |b| + |c| then 1 else 0
    {
      if i < |a| { assert r[i] == a[i] && a[i] in a; }
      else if i < |a| + |b| { assert r[i] == b[i - |a|] && b[i - |a|] in b; }
      else if i < |a| + |b| + |c| { assert r[i] == c[i - |a| - |b|] && c[i - |a| - |b|] in c; }
      else { assert r[i] == d[i - |a| - |b| - |c|] && d[i - |a| - |b| - |c|] in d; }
    }
  }

  /** High before medium before low before anything else, each group in its
      original order, and nothing gained or lost. */
  lemma ByPrioritySpec(leads: seq<Lead>)
    ensures multiset(ByPriority(leads)) == multiset(leads)
    ensures var r := ByPriority(leads);
      forall i, j :: 0 <= i < j < |r| ==> PriorityRank(r[i].priority) >= PriorityRank(r[j].priority)
    ensures forall k :: 0 <= k <= 3 ==> WithRank(ByPriority(leads), k) == WithRank(leads, k)
  {
    ByPriorityPermutes(leads);
    Descending(leads);
    forall k | 0 <= k <= 3 ensures WithRank(ByPriority(leads), k) == WithRank(leads, k) {
      SortedRank(leads, k);
    }
  }

  /** The leads of one rank in the sorted list are those of that rank in the input. */
  lemma SortedRank(leads: seq<Lead>, k: nat)
    requires k <= 3
    ensures WithRank(ByPriority(leads), k) == WithRank(leads, k)
  {
    var a, b, c, d := WithRank(leads, 3), WithRank(leads, 2), WithRank(leads, 1), WithRank(leads, 0);
    RankOfFour(a, b, c, d, k);
    RankOfRank(leads, 3, k);
    RankOfRank(leads, 2, k);
    RankOfRank(leads, 1, k);
    RankOfRank(leads, 0, k);
  }

  lemma RankOfFour(a: seq<Lead>, b: seq<Lead>, c: seq<Lead>, d: seq<Lead>, k: nat)
    ensures WithRank(a + b + c + d, k) == WithRank(a, k) + WithRank(b, k) + WithRank(c, k) + WithRank(d, k)
  {
    RankAppend(a + b + c, d, k);
    RankAppend(a + b, c, k);
    RankAppend(a, b, k);
  }

  /** The `sort` step.  The two date orders parse timestamps into instants, which is
      not modelled: they are given as `byDate`. */
  function SortLeads(leads: seq<Lead>, sort: Option<string>, byDate: seq<Lead> -> seq<Lead>): seq<Lead>
  {
    if !Given(sort) then leads
    else if sort.value == "created_at desc" || sort.value == "updated_at desc" then byDate(leads)
    else if sort.value == "priority desc" then ByPriority(leads)
    else leads
  }

  /** `filteredLeads`. */
  function FilteredLeads(all: seq<Lead>, o: LeadOptions, byDate: seq<Lead> -> seq<Lead>): seq<Lead>
  {
    SortLeads(FilterLeads(all, o), o.sort, byDate)
  }

  /** Without a date sort the listed leads are the matching leads, each as often as
      among all leads; without any sort, in their original order. */
  lemma FilteredLeadsSpec(all: seq<Lead>, o: LeadOptions, byDate: seq<Lead> -> seq<Lead>)
    requires !Given(o.sort) || (o.sort.value != "created_at desc" && o.sort.value != "updated_at desc")
    ensures multiset(FilteredLeads(all, o, byDate)) == multiset(FilterLeads(all, o))
    ensures forall lead :: lead in FilteredLeads(all, o, byDate) <==> lead in all && Matches(o, lead)
    ensures !Given(o.sort) || o.sort.value != "priority desc" ==> Subsequence(FilteredLeads(all, o, byDate), all)
  {
    FilterSpec(all, o);
    ByPrioritySpec(FilterLeads(all, o));
    var r := FilteredLeads(all, o, byDate);
    forall lead ensures lead in r <==> lead in FilterLeads(all, o) {
      assert lead in r <==> lead in multiset(r);
      assert lead in FilterLeads(all, o) <==> lead in multiset(FilterLeads(all, o));
    }
  }

  // ---------------------------------------------------------------------
  // Paging and counts

  /** `value || fallback` on a number. */
  function OrDefault(value: Option<int>, fallback: int): int
  {
    if value.Some? && value.value != 0 then value.value else fallback
  }

  /** How `slice` reads an index: from the end when negative, clamped to the length. */
  function SliceIndex(i: int, length: nat): (r: nat)
    ensures r <= length
    ensures 0 <= i <= length ==> r == i
  {
    if i < 0 then (if length + i < 0 then 0 else length + i) else if i > length then length else i
  }

  /** `leads.slice(start, end)`. */
  function Slice(leads: seq<Lead>, start: int, end: int): seq<Lead>
  {
    var s := SliceIndex(start, |leads|);
    var e := SliceIndex(end, |leads|);
    if s < e then leads[s..e] else []
  }

  /** `paginatedLeads`. */
  function PageOf(leads: seq<Lead>, page: Option<int>, pageSize: Option<int>): seq<Lead>
  {
    var size := OrDefault(pageSize, 10);
    var start := (OrDefault(page, 1) - 1) * size;
    Slice(leads, start, start + size)
  }

  /** A page never holds more than the page size; for a page number and size of at
      least one it is the run of leads starting at `(page - 1) * size`. */
  lemma PageSpec(leads: seq<Lead>, page: Option<int>, pageSize: Option<int>)
    ensures var size := OrDefault(pageSize, 10);
      size > 0 ==> |PageOf(leads, page, pageSize)| <= size
    ensures var size := OrDefault(pageSize, 10);
      var start := (OrDefault(page, 1) - 1) * size;
      var r := PageOf(leads, page, pageSize);
      size > 0 && OrDefault(page, 1) >= 1 ==>
        |r| == (if start >= |leads| then 0 else if start + size > |leads| then |leads| - start else size)
        && forall i :: 0 <= i < |r| ==> r[i] == leads[start + i]
  {
    var size := OrDefault(pageSize, 10);
    var p := OrDefault(page, 1);
    var start := (p - 1) * size;
    if size > 0 {
      PageStart(p, size);
      SliceBound(leads, start, size);
      if p >= 1 {
        SliceRun(leads, start, size);
      }
    }
  }

  /** A page number is never zero: the first page starts at zero, the pages after it
      further on, and those before it end before zero. */
  lemma PageStart(p: int, size: int)
    requires p != 0 && size > 0
    ensures p >= 1 ==> (p - 1) * size >= 0
    ensures p < 1 ==> (p - 1) * size + size < 0
  {
    if p < 1 {
      assert (p - 1) * size + size == p * size;
      assert p * size <= -size;
    }
  }

  /** A slice of `size` indices, both on the same side of zero, holds at most `size` leads. */
  lemma SliceBound(leads: seq<Lead>, start: int, size: int)
    requires size > 0 && (start >= 0 || start + size < 0)
    ensures |Slice(leads, start, start + size)| <= size
  {
    SliceIndexSpread(start, start + size, |leads|);
  }

  /** From a non-negative start, a slice is the run of leads from there. */
  lemma SliceRun(leads: seq<Lead>, start: int, size: int)
    requires start >= 0 && size > 0
    ensures var r := Slice(leads, start, start + size);
      |r| == (if start >= |leads| then 0 else if start + size > |leads| then |leads| - start else size)
      && forall i :: 0 <= i < |r| ==> r[i] == leads[start + i]
  {
  }

  /** Between two indices on the same side of zero, `slice` never widens a range. */
  lemma SliceIndexSpread(a: int, b: int, length: nat)
    requires a <= b && (a < 0 <==> b < 0)
    ensures SliceIndex(a, length) <= SliceIndex(b, length)
    ensures SliceIndex(b, length) - SliceIndex(a, length) <= b - a
  {
  }

  /** `aggregatedCounts`: over all leads, whatever the filters; two counters are
      always zero. */
  function AggregatedCounts(all: seq<Lead>): (c: Counts)
    ensures c.total == |all| && c.newLeads <= c.total
    ensures c.newLeads == |Where(all, (lead: Lead) => lead.status == "new")|
    ensures c.pendingApproval == 0 && c.repliedToday == 0
  {
    Counts(|all|, |Where(all, (lead: Lead) => lead.status == "new")|, 0, 0)
  }

  /** The five sample leads the composable lists; `now` is their update time. */
  function SampleLeads(now: string): seq<Lead>
  {
    [Lead("1", "Acme Corp", Some("John Doe"), "new", "google_maps", "en", Some("New York"), "high", Some(now)),
     Lead("2", "Globex Inc", Some("Jane Smith"), "contacted", "manual", "en", Some("London"), "medium", Some(now)),
     Lead("3", "Stark Industries", Some("Peter Jones"), "qualified", "import", "en", Some("New York"), "low", Some(now)),
     Lead("4", "Wayne Enterprises", Some("Alice Brown"), "proposal", "google_maps", "en", Some("London"), "high", Some(now)),
     Lead("5", "Cyberdyne Systems", Some("Robert White"), "won", "manual", "en", Some("Paris"), "medium", Some(now))]
  }

  /** What `useLeads` exposes: the page, the number of listed leads and the counts. */
  datatype LeadsView = LeadsView(leads: seq<Lead>, total: nat, counts: Counts)

  function UseLeads(o: LeadOptions, now: string, byDate: seq<Lead> -> seq<Lead>): (v: LeadsView)
    ensures v.total == |FilteredLeads(SampleLeads(now), o, byDate)|
    ensures v.counts == AggregatedCounts(SampleLeads(now))
    ensures v.leads == PageOf(FilteredLeads(SampleLeads(now), o, byDate), o.page, o.pageSize)
    ensures OrDefault(o.pageSize, 10) > 0 ==> |v.leads| <= OrDefault(o.pageSize, 10)
  {
    var filtered := FilteredLeads(SampleLeads(now), o, byDate);
    PageSpec(filtered, o.page, o.pageSize);
    LeadsView(PageOf(filtered, o.page, o.pageSize), |filtered|, AggregatedCounts(SampleLeads(now)))
  }

  /** Of the sample leads one is new, whatever the options. */
  lemma SampleCounts(now: string)
    ensures AggregatedCounts(SampleLeads(now)) == Counts(5, 1, 0, 0)
  {
    var all := SampleLeads(now);
    var isNew := (lead: Lead) => lead.status == "new";
    assert all[1..][1..][1..][1..][1..] == [];
    assert Where(all[1..], isNew) == [] by {
      assert Where(all[1..][1..], isNew) == [] by {
        assert Where(all[1..][1..][1..], isNew) == [] by {
          assert Where(all[1..][1..][1..][1..], isNew) == [];
        }
      }
    }
  }
}

=== FILE: runner.dfy ===
/** The client side of a run: the request URL, the per-node runtime state
    folded out of `node` events, and the promise that settles at most once. */
module Runner {
  import opened Values
  import opened Condition

  const GenericFailure := "Workflow run failed."
  const NoEventSource := "EventSource is not available in this environment."

  // ---------------------------------------------------------------------
  // Node runtime state

  /** `mapStatusToRuntime`. */
  function RuntimeStatus(status: Value): (r: string)
    ensures r == "running" <==> status == Str("start")
    ensures r == "success" <==> status == Str("success")
    ensures r == "fail" <==> status == Str("fail")
    ensures r == "idle" <==> status !in {Str("start"), Str("success"), Str("fail")}
  {
    if status == Str("start") then "running"
    else if status == Str("success") || status == Str("fail") then status.s
    else "idle"
  }

  /** `{...v}`: the own properties of `v`, each once, the last occurrence winning. */
  function CopyOf(v: Value): (r: Fields)
    ensures Keys(r) == Keys(SpreadSource(v))
    ensures forall k :: Lookup(r, k) == LookupLast(SpreadSource(v), k)
  {
    Spread([], SpreadSource(v))
  }

  /** `typeof event.error === 'string' ? event.error : event.error?.message`. */
  function EventError(event: Value): Value
  {
    var e := Member(event, "error");
    if e.Str? then e else OptionalMember(e, "message")
  }

  /** `{...node, data: {...(node.data ?? {}), runtime: {...node.data?.runtime, ...entries}}}`. */
  function WithRuntime(node: Fields, entries: Fields): (r: Fields)
    ensures Keys(r) == Keys(node) + {"data"}
    ensures forall k :: k != "data" ==> Lookup(r, k) == LookupLast(node, k)
    ensures Field(r, "data").Obj?
    ensures var data := Field(r, "data").fields;
      (forall k :: k != "runtime" ==> Lookup(data, k) == LookupLast(SpreadSource(Coalesce(Field(node, "data"), Obj([]))), k))
      && Field(data, "runtime").Obj?
      && var runtime := Field(data, "runtime").fields;
         (forall k :: k in Keys(entries) ==> Lookup(runtime, k) == LookupLast(entries, k))
         && (forall k :: k !in Keys(entries) ==> Lookup(runtime, k) == LookupLast(SpreadSource(OptionalMember(Field(node, "data"), "runtime")), k))
  {
    var runtime := Spread(CopyOf(OptionalMember(Field(node, "data"), "runtime")), entries);
    var data := Assign(CopyOf(Coalesce(Field(node, "data"), Obj([]))), "runtime", Obj(runtime));
    Assign(CopyOf(Obj(node)), "data", Obj(data))
  }

  /** `updateNodeRuntime`: the node with its runtime status, last event and error replaced. */
  function UpdateNodeRuntime(node: Fields, event: Value): Fields
  {
    var failed := StrictEquals(Member(event, "status"), Str("fail"));
    WithRuntime(node, [("status", Str(RuntimeStatus(Member(event, "status")))), ("lastEvent", event),
                       ("error", if failed then EventError(event) else Undef)])
  }

  /** `resetNodeRuntime`: the node with its runtime status set to idle. */
  function ResetNodeRuntime(node: Fields): Fields
  {
    WithRuntime(node, [("status", Str("idle"))])
  }

  /** The runtime entries `updateNodeRuntime` writes, and what it keeps. */
  lemma UpdateNodeRuntimeFields(node: Fields, event: Value)
    ensures var r := UpdateNodeRuntime(node, event);
      var runtime := Field(Field(r, "data").fields, "runtime").fields;
      Field(runtime, "status") == Str(RuntimeStatus(Member(event, "status")))
      && Field(runtime, "lastEvent") == event
      && Field(runtime, "error") == (if Member(event, "status") == Str("fail") then EventError(event) else Undef)
      && (forall k :: k != "data" ==> Lookup(r, k) == LookupLast(node, k))
      && (forall k :: k != "status" && k != "lastEvent" && k != "error" ==>
            Lookup(runtime, k) == LookupLast(SpreadSource(OptionalMember(Field(node, "data"), "runtime")), k))
  {
    var failed := StrictEquals(Member(event, "status"), Str("fail"));
    var entries := [("status", Str(RuntimeStatus(Member(event, "status")))), ("lastEvent", event),
                    ("error", if failed then EventError(event) else Undef)];
    assert failed <==> Member(event, "status") == Str("fail");
    WithRuntimeThree(node, "status", "lastEvent", "error", entries[0].1, event, entries[2].1);
  }

  /** Three runtime entries under distinct keys are written, and every other runtime
      entry is kept. */
  lemma WithRuntimeThree(node: Fields, a: string, b: string, c: string, x: Value, y: Value, z: Value)
    requires a != b && a != c && b != c
    ensures var r := WithRuntime(node, [(a, x), (b, y), (c, z)]);
      var runtime := Field(Field(r, "data").fields, "runtime").fields;
      Field(runtime, a) == x && Field(runtime, b) == y && Field(runtime, c) == z
      && (forall k :: k != a && k != b && k != c ==>
            Lookup(runtime, k) == LookupLast(SpreadSource(OptionalMember(Field(node, "data"), "runtime")), k))
  {
    ThreeEntries(a, b, c, x, y, z);
  }

  /** Three entries under distinct keys: each key finds its own value. */
  lemma ThreeEntries<V>(a: string, b: string, c: string, x: V, y: V, z: V)
    requires a != b && a != c && b != c
    ensures var entries := [(a, x), (b, y), (c, z)];
      Keys(entries) == {a, b, c}
      && LookupLast(entries, a) == Some(x) && LookupLast(entries, b) == Some(y) && LookupLast(entries, c) == Some(z)
  {
    var entries := [(a, x), (b, y), (c, z)];
    assert entries[0].0 == a && entries[1].0 == b && entries[2].0 == c;
    var two := entries[..2];
    assert two == [(a, x), (b, y)];
    assert two[..1] == [(a, x)];
    assert LookupLast(entries, b) == LookupLast(two, b);
    assert LookupLast(entries, a) == LookupLast(two, a) == LookupLast(two[..1], a);
  }

  /** `resetNodeRuntime` makes the node idle and keeps everything else. */
  lemma ResetNodeRuntimeFields(node: Fields)
    ensures var r := ResetNodeRuntime(node);
      var runtime := Field(Field(r, "data").fields, "runtime").fields;
      Field(runtime, "status") == Str("idle")
      && (forall k :: k != "data" ==> Lookup(r, k) == LookupLast(node, k))
      && (forall k :: k != "status" ==>
            Lookup(runtime, k) == LookupLast(SpreadSource(OptionalMember(Field(node, "data"), "runtime")), k))
  {
    var entries := [("status", Str("idle"))];
    assert Keys(entries) == {"status"} by { assert entries[0].0 == "status"; }
  }

  /** Whether a node is the one a `node` event is about: `node.id === event.nodeId`. */
  predicate IsEventNode(node: Fields, event: Value)
  {
    StrictEquals(Field(node, "id"), Member(event, "nodeId"))
  }

  /** One node through the `node` listener's map. */
  function ApplyToNode(node: Fields, event: Value): Fields
  {
    if IsEventNode(node, event) then UpdateNodeRuntime(node, event) else node
  }

  /** The `node` listener's map: only nodes whose id is the event's `nodeId` change. */
  function ApplyNodeEvent(nodes: seq<Fields>, event: Value): (r: seq<Fields>)
    ensures |r| == |nodes|
    ensures forall i :: 0 <= i < |nodes| ==>
      r[i] == if IsEventNode(nodes[i], event) then UpdateNodeRuntime(nodes[i], event) else nodes[i]
  {
    seq(|nodes|, i requires 0 <= i < |nodes| => ApplyToNode(nodes[i], event))
  }

  // ---------------------------------------------------------------------
  // The request URL

  /** The UTF-8 encoding of one code point. */
  function Utf8(c: char): (bytes: seq<nat>)
    ensures 1 <= |bytes| <= 4 && forall i :: 0 <= i < |bytes| ==> bytes[i] < 256
    ensures (|bytes| == 1) == (c as int < 0x80) && (|bytes| == 1 ==> bytes[0] == c as int)
    ensures |bytes| > 1 ==> forall i :: 0 <= i < |bytes| ==> bytes[i] >= 0x80
  {
    var n := c as int;
    if n < 0x80 then [n]
    else if n < 0x800 then [0xC0 + n / 64, 0x80 + n % 64]
    else if n < 0x10000 then [0xE0 + n / 4096, 0x80 + (n / 64) % 64, 0x80 + n % 64]
    else [0xF0 + n / 262144, 0x80 + (n / 4096) % 64, 0x80 + (n / 64) % 64, 0x80 + n % 64]
  }

  function UpperHex(d: nat): char
    requires d < 16
  {
    if d < 10 then DigitChar(d) else ('A' as int + d - 10) as char
  }

  /** Bytes the form-urlencoded serializer writes as they are. */
  predicate FormSafe(b: nat)
  {
    b == 0x2A || b == 0x2D || b == 0x2E || b == 0x5F
    || (0x30 <= b <= 0x39) || (0x41 <= b <= 0x5A) || (0x61 <= b <= 0x7A)
  }

  /** One byte of the application/x-www-form-urlencoded serialization. */
  function FormByte(b: nat): (s: string)
    requires b < 256
    ensures s == "+" <==> b == 0x20
    ensures |s| == 1 && s != "+" ==> FormSafe(b) && s[0] as int == b
    ensures |s| != 1 ==> |s| == 3 && s[0] == '%' && !FormSafe(b) && b != 0x20
  {
    if b == 0x20 then "+"
    else if FormSafe(b) then [b as char]
    else ['%', UpperHex(b / 16), UpperHex(b % 16)]
  }

  function FormBytes(bytes: seq<nat>): string
    requires forall i :: 0 <= i < |bytes| ==> bytes[i] < 256
  {
    if bytes == [] then "" else FormByte(bytes[0]) + FormBytes(bytes[1..])
  }

  /** The form-urlencoded serialization of a string. */
  function FormEncode(s: string): string
  {
    if s == [] then "" else FormBytes(Utf8(s[0])) + FormEncode(s[1..])
  }

  /** Characters that can appear in a form-urlencoded value. */
  predicate FormChar(c: char)
  {
    c == '+' || c == '%' || FormSafe(c as int) || ('0' <= c <= '9') || ('A' <= c <= 'F')
  }

  lemma {:induction false} FormBytesChars(bytes: seq<nat>)
    requires forall i :: 0 <= i < |bytes| ==> bytes[i] < 256
    ensures forall i :: 0 <= i < |FormBytes(bytes)| ==> FormChar(FormBytes(bytes)[i])
  {
    if bytes != [] {
      FormBytesChars(bytes[1..]);
      var head := FormByte(bytes[0]);
      if |head| == 3 {
        assert head == ['%', UpperHex(bytes[0] / 16), UpperHex(bytes[0] % 16)];
      }
    }
  }

  /** The serialized value uses only `+`, `%`, hex digits and the safe characters,
      so it has no `?`, `&`, `=`, `#` or space of its own. */
  lemma {:induction false} FormEncodeChars(s: string)
    ensures forall i :: 0 <= i < |FormEncode(s)| ==> FormChar(FormEncode(s)[i])
  {
    if s != [] {
      FormBytesChars(Utf8(s[0]));
      FormEncodeChars(s[1..]);
    }
  }

  /** The run URL: `?input=` and the JSON of the input only when an input is given. */
  function RunUrl(workflowId: string, input: Value): (url: string)
    ensures !Truthy(input) ==> url == "/api/workflows/" + workflowId + "/run"
    ensures Truthy(input) ==> url == "/api/workflows/" + workflowId + "/run?input=" + FormEncode(Json(input))
  {
    var query := if Truthy(input) then "input=" + FormEncode(Json(input)) else "";
    if query != "" then "/api/workflows/" + workflowId + "/run?" + query else "/api/workflows/" + workflowId + "/run"
  }

  /** With an id free of `?`, the URL has a `?` exactly when an input was given. */
  lemma RunUrlQuery(workflowId: string, input: Value)
    requires '?' !in workflowId
    ensures '?' in RunUrl(workflowId, input) <==> Truthy(input)
  {
    var base := "/api/workflows/" + workflowId + "/run";
    assert '?' !in base by {
      assert '?' !in "/api/workflows/" && '?' !in "/run";
    }
    if Truthy(input) {
      var tail := FormEncode(Json(input));
      var url := base + "?input=" + tail;
      assert url[|base|] == '?';
    }
  }

  // ---------------------------------------------------------------------
  // The event fold

  /** What the run does to the outside: closing the stream, or settling the promise. */
  datatype Effect = CloseSource | Resolve(result: Value) | Reject(reason: Value)

  /** An event from the stream: its type, its `data` (absent on a transport failure),
      and what `JSON.parse` makes of that data (absent when it throws). */
  datatype Incoming = Incoming(kind: string, data: Option<string>, parsed: Option<Value>)

  /** The state the listeners share: the canvas nodes, `settled`, whether the stream
      is still open, the effects so far, and the event types passed to `onEvent`. */
  datatype Session = Session(nodes: seq<Fields>, settled: bool, open: bool, effects: seq<Effect>, notified: seq<string>)

  predicate IsSettlement(e: Effect) { e.Resolve? || e.Reject? }

  function Settlements(effects: seq<Effect>): nat
  {
    if effects == [] then 0 else (if IsSettlement(effects[0]) then 1 else 0) + Settlements(effects[1..])
  }

  lemma {:induction false} SettlementsAppend(a: seq<Effect>, b: seq<Effect>)
    ensures Settlements(a + b) == Settlements(a) + Settlements(b)
  {
    if a == [] {
      assert a + b == b;
    } else {
      assert (a + b)[1..] == a[1..] + b;
      SettlementsAppend(a[1..], b);
    }
  }

  /** `finalize(action)`: the first call closes the stream, then settles; later calls do nothing. */
  function Finalized(s: Session, settlement: Effect): (r: Session)
    requires IsSettlement(settlement)
    ensures s.settled ==> r == s
    ensures !s.settled ==> r.settled && !r.open && r.effects == s.effects + [CloseSource, settlement]
    ensures r.nodes == s.nodes && r.notified == s.notified
  {
    if s.settled then s
    else s.(settled := true, open := false, effects := s.effects + [CloseSource, settlement])
  }

  function Notify(s: Session, kind: string): Session
  {
    s.(notified := s.notified + [kind])
  }

  /** The `node` listener after `onEvent`: a parse failure, or reading `nodeId` of
      `null` while mapping, throws and leaves the nodes as they were. */
  function NodeListener(s: Session, parsed: Option<Value>): (r: Session)
    ensures r.settled == s.settled && r.open == s.open && r.effects == s.effects && r.notified == s.notified
  {
    match parsed
    case None => s
    case Some(event) =>
      if (event.Null? || event.Undef?) && s.nodes != [] then s
      else s.(nodes := ApplyNodeEvent(s.nodes, event))
  }

  /** The `error` listener after `onEvent`: an event with data rejects with the
      payload's message, or the generic message, or the raw text when it is not JSON. */
  function ErrorListener(s: Session, e: Incoming): (r: Session)
  {
    if e.data.None? || e.data.value == "" then s
    else match e.parsed
      case None => Finalized(s, Reject(Str(e.data.value)))
      case Some(payload) =>
        var message := OptionalMember(payload, "message");
        Finalized(s, Reject(if Truthy(message) then message else Str(GenericFailure)))
  }

  /** `source.onerror`. */
  function OnError(s: Session): Session
  {
    var s' := Notify(s, "error");
    if s'.settled then s' else Finalized(s', Reject(Str(GenericFailure)))
  }

  /** One event delivered to the listeners; a closed stream delivers nothing.  An
      `error` event reaches the `error` listener and then `onerror`. */
  function Handle(s: Session, e: Incoming): Session
  {
    if !s.open then s
    else if e.kind == "node" then NodeListener(Notify(s, "node"), e.parsed)
    else if e.kind == "started" || e.kind == "ping" then Notify(s, e.kind)
    else if e.kind == "finished" then
      var s' := Notify(s, "finished");
      if e.parsed.None? then s' else Finalized(s', Resolve(e.parsed.value))
    else if e.kind == "error" then OnError(ErrorListener(Notify(s, "error"), e))
    else s
  }

  function Consume(s: Session, events: seq<Incoming>): Session
  {
    if events == [] then s else Handle(Consume(s, events[..|events| - 1]), events[|events| - 1])
  }

  /** The session right after the stream opens: every node reset to idle. */
  function Opened(canvas: seq<Fields>): (s: Session)
    ensures |s.nodes| == |canvas| && s.open && !s.settled && s.effects == [] && s.notified == []
    ensures forall i :: 0 <= i < |canvas| ==> s.nodes[i] == ResetNodeRuntime(canvas[i])
  {
    Session(seq(|canvas|, i requires 0 <= i < |canvas| => ResetNodeRuntime(canvas[i])), false, true, [], [])
  }

  /** `runWorkflow`: the URL it opens (none without EventSource) and the session
      after the events the stream delivers. */
  function RunSpec(workflowId: string, input: Value, canvas: seq<Fields>, available: bool, incoming: seq<Incoming>): (Option<string>, Session)
  {
    if !available then (None, Session(canvas, false, false, [Reject(Str(NoEventSource))], []))
    else (Some(RunUrl(workflowId, input)), Consume(Opened(canvas), incoming))
  }

  // ---------------------------------------------------------------------
  // Properties of the fold

  /** The settle-once discipline: an open session has not settled; a settled one
      has exactly one settlement, right after closing the stream. */
  predicate SettleOnce(s: Session)
  {
    Settlements(s.effects) <= 1
    && (s.open ==> !s.settled && Settlements(s.effects) == 0)
    && (s.settled ==> !s.open && Settlements(s.effects) == 1)
    && (forall i :: 0 <= i < |s.effects| && IsSettlement(s.effects[i]) ==> i > 0 && s.effects[i - 1] == CloseSource)
  }

  lemma FinalizedKeeps(s: Session, settlement: Effect)
    requires SettleOnce(s) && IsSettlement(settlement) && (s.open || s.settled)
    ensures SettleOnce(Finalized(s, settlement))
  {
    if !s.settled {
      SettlementsAppend(s.effects, [CloseSource, settlement]);
      assert Settlements([CloseSource, settlement]) == 1 by {
        assert [settlement][1..] == [];
        assert Settlements([settlement]) == 1 + Settlements([]);
        assert [CloseSource, settlement][1..] == [settlement];
        assert Settlements([CloseSource, settlement]) == 0 + Settlements([settlement]);
      }
      var effects := s.effects + [CloseSource, settlement];
      assert forall i :: 0 <= i < |s.effects| ==> effects[i] == s.effects[i];
    }
  }

  /** Every event keeps the settle-once discipline. */
  lemma HandleKeeps(s: Session, e: Incoming)
    requires SettleOnce(s)
    ensures SettleOnce(Handle(s, e))
  {
    if s.open {
      var n := Notify(s, e.kind);
      if e.kind == "finished" && e.parsed.Some? {
        FinalizedKeeps(n, Resolve(e.parsed.value));
      } else if e.kind == "error" {
        var l := ErrorListener(n, e);
        if e.data.Some? && e.data.value != "" {
          if e.parsed.None? {
            FinalizedKeeps(n, Reject(Str(e.data.value)));
          } else {
            var message := OptionalMember(e.parsed.value, "message");
            FinalizedKeeps(n, Reject(if Truthy(message) then message else Str(GenericFailure)));
          }
        }
        assert SettleOnce(l) && (l.open || l.settled);
        FinalizedKeeps(Notify(l, "error"), Reject(Str(GenericFailure)));
      }
    }
  }

  /** Any sequence of events keeps it: the promise settles at most once. */
  lemma {:induction false} ConsumeKeeps(s: Session, events: seq<Incoming>)
    requires SettleOnce(s)
    ensures SettleOnce(Consume(s, events))
  {
    if events != [] {
      ConsumeKeeps(s, events[..|events| - 1]);
      HandleKeeps(Consume(s, events[..|events| - 1]), events[|events| - 1]);
    }
  }

  /** After settling, nothing changes any more: no effect, no node update, no notification. */
  lemma {:induction false} SettledIsFinal(s: Session, events: seq<Incoming>)
    requires SettleOnce(s) && s.settled
    ensures Consume(s, events) == s
  {
    if events != [] {
      SettledIsFinal(s, events[..|events| - 1]);
    }
  }

  /** Whatever the stream delivers, the run has settled at most once. */
  lemma RunSettlesAtMostOnce(workflowId: string, input: Value, canvas: seq<Fields>, available: bool, incoming: seq<Incoming>)
    ensures Settlements(RunSpec(workflowId, input, canvas, available, incoming).1.effects) <= 1
  {
    if available {
      ConsumeKeeps(Opened(canvas), incoming);
    } else {
      assert [Reject(Str(NoEventSource))][1..] == [];
    }
  }

  /** A `finished` event on an open stream closes it and resolves with the parsed result. */
  lemma FinishedResolves(s: Session, e: Incoming)
    requires SettleOnce(s) && s.open && e.kind == "finished" && e.parsed.Some?
    ensures Handle(s, e).effects == s.effects + [CloseSource, Resolve(e.parsed.value)]
  {
  }

  /** An `error` event with data rejects once with its message; `onerror`, which sees
      the same event next, finds the run settled. */
  lemma ErrorEventRejects(s: Session, e: Incoming)
    requires SettleOnce(s) && s.open && e.kind == "error" && e.data.Some? && e.data.value != ""
    ensures var reason := match e.parsed
        case None => Str(e.data.value)
        case Some(payload) => if Truthy(OptionalMember(payload, "message")) then OptionalMember(payload, "message") else Str(GenericFailure);
      Handle(s, e).effects == s.effects + [CloseSource, Reject(reason)]
  {
  }

  /** A transport failure, or an `error` event without data, rejects with the
      generic message if nothing has settled. */
  lemma TransportErrorRejects(s: Session, e: Incoming)
    requires SettleOnce(s) && s.open && e.kind == "error" && (e.data.None? || e.data.value == "")
    ensures Handle(s, e).effects == s.effects + [CloseSource, Reject(Str(GenericFailure))]
  {
  }

  /** `log`, `started` and `ping` events never settle the run or touch the nodes. */
  lemma QuietEvents(s: Session, e: Incoming)
    requires e.kind in {"log", "started", "ping"}
    ensures var r := Handle(s, e); r.effects == s.effects && r.nodes == s.nodes && r.settled == s.settled
  {
  }

  // ---------------------------------------------------------------------
  // The imperative consumer

  /** The closure state of one `runWorkflow` call. */
  class RunConsumer {
    var nodes: seq<Fields>
    var settled: bool
    var open: bool
    var effects: seq<Effect>
    var notified: seq<string>

    function State(): Session
      reads this
    {
      Session(nodes, settled, open, effects, notified)
    }

    /** `setNodes(getNodes().map(resetNodeRuntime))`, then the stream opens. */
    constructor(canvas: seq<Fields>)
      ensures State() == Opened(canvas)
    {
      nodes := Opened(canvas).nodes;
      settled := false;
      open := true;
      effects := [];
      notified := [];
    }

    method Finalize(settlement: Effect)
      requires IsSettlement(settlement)
      modifies this
      ensures State() == Finalized(old(State()), settlement)
    {
      if settled {
        return;
      }
      settled := true;
      open := false;
      effects := effects + [CloseSource];
      effects := effects + [settlement];
    }

    method OnNode(e: Incoming)
      modifies this
      ensures State() == NodeListener(Notify(old(State()), "node"), e.parsed)
    {
      notified := notified + ["node"];
      if e.parsed.None? {
        return;
      }
      var event := e.parsed.value;
      if (event.Null? || event.Undef?) && nodes != [] {
        return;
      }
      nodes := ApplyNodeEvent(nodes, event);
    }

    method OnErrorEvent(e: Incoming)
      modifies this
      ensures State() == ErrorListener(Notify(old(State()), "error"), e)
    {
      notified := notified + ["error"];
      if e.data.Some? && e.data.value != "" {
        var raw := e.data.value;
        if e.parsed.None? {
          Finalize(Reject(Str(raw)));
        } else {
          var message := OptionalMember(e.parsed.value, "message");
          Finalize(Reject(if Truthy(message) then message else Str(GenericFailure)));
        }
      }
    }

    method OnTransportError()
      modifies this
      ensures State() == OnError(old(State()))
    {
      notified := notified + ["error"];
      if settled {
        return;
      }
      Finalize(Reject(Str(GenericFailure)));
    }

    /** The stream delivering one event to the listeners. */
    method Deliver(e: Incoming)
      modifies this
      ensures State() == Handle(old(State()), e)
    {
      if !open {
        return;
      }
      if e.kind == "node" {
        OnNode(e);
      } else if e.kind == "started" || e.kind == "ping" {
        notified := notified + [e.kind];
      } else if e.kind == "finished" {
        notified := notified + ["finished"];
        if e.parsed.Some? {
          Finalize(Resolve(e.parsed.value));
        }
      } else if e.kind == "error" {
        OnErrorEvent(e);
        OnTransportError();
      }
    }
  }

  /** `runWorkflow`, with the stream's events given as a sequence. */
  method RunWorkflow(workflowId: string, input: Value, canvas: seq<Fields>, available: bool, incoming: seq<Incoming>)
      returns (url: Option<string>, session: Session)
    ensures (url, session) == RunSpec(workflowId, input, canvas, available, incoming)
  {
    if !available {
      return None, Session(canvas, false, false, [Reject(Str(NoEventSource))], []);
    }
    var query := if Truthy(input) then "input=" + FormEncode(Json(input)) else "";
    var address := if query != "" then "/api/workflows/" + workflowId + "/run?" + query else "/api/workflows/" + workflowId + "/run";
    var consumer := new RunConsumer(canvas);
    for i := 0 to |incoming|
      invariant consumer.State() == Consume(Opened(canvas), incoming[..i])
    {
      assert incoming[..i + 1][..i] == incoming[..i];
      consumer.Deliver(incoming[i]);
    }
    assert incoming[..|incoming|] == incoming;
    return Some(address), consumer.State();
  }
}

=== FILE: translations.dfy ===
/** The script that pulls the editor's inline translations out of its JSON and
    merges them into a locale file: flatten to dotted paths, re-nest, deep-merge. */
module Translations {
  import opened Values

  /** A translation record: exactly the keys `he`, `en` and `ar`, with a string for `lang`. */
  predicate IsLeaf(fields: Fields, lang: string)
  {
    Keys(fields) == {"he", "en", "ar"} && Field(fields, lang).Str?
  }

  /** `f'{path}.{k}' if path else k`. */
  function ChildPath(path: string, k: string): string
  {
    if path != "" then path + "." + k else k
  }

  /** `f'{path}.{i}'`, even at the root. */
  function ItemPath(path: string, i: nat): string
  {
    path + "." + NatToString(i)
  }

  // ---------------------------------------------------------------------
  // Flattening

  /** `extract_translations(obj, lang, path)`: dotted path to text. */
  function Extract(obj: Value, lang: string, path: string): seq<(string, string)>
    decreases obj, 1
  {
    match obj
    case Obj(fields) =>
      if IsLeaf(fields, lang) then [(path, Field(fields, lang).s)]
      else ExtractFields(obj, lang, path, |fields|)
    case Arr(items) => ExtractItems(obj, lang, path, |items|)
    case _ => []
  }

  /** What the loop over a dict's first `n` items has gathered. */
  function ExtractFields(obj: Value, lang: string, path: string, n: nat): seq<(string, string)>
    requires obj.Obj? && n <= |obj.fields|
    decreases obj, 0, n
  {
    if n == 0 then []
    else Spread(ExtractFields(obj, lang, path, n - 1),
                Extract(obj.fields[n - 1].1, lang, ChildPath(path, obj.fields[n - 1].0)))
  }

  /** What the loop over a list's first `n` items has gathered. */
  function ExtractItems(obj: Value, lang: string, path: string, n: nat): seq<(string, string)>
    requires obj.Arr? && n <= |obj.items|
    decreases obj, 0, n
  {
    if n == 0 then []
    else Spread(ExtractItems(obj, lang, path, n - 1), Extract(obj.items[n - 1], lang, ItemPath(path, n - 1)))
  }

  /** `extract_translations`, recursing into dict values and list items. */
  method ExtractTranslations(obj: Value, lang: string, path: string) returns (translations: seq<(string, string)>)
    ensures translations == Extract(obj, lang, path)
    decreases obj, 2
  {
    translations := [];
    if obj.Obj? {
      if IsLeaf(obj.fields, lang) {
        translations := Assign(translations, path, Field(obj.fields, lang).s);
      } else {
        translations := ExtractDict(obj, lang, path);
      }
    } else if obj.Arr? {
      translations := ExtractList(obj, lang, path);
    }
  }

  /** The loop over a dict's items. */
  method ExtractDict(obj: Value, lang: string, path: string) returns (translations: seq<(string, string)>)
    requires obj.Obj?
    ensures translations == ExtractFields(obj, lang, path, |obj.fields|)
    decreases obj, 1
  {
    translations := [];
    for i := 0 to |obj.fields|
      invariant translations == ExtractFields(obj, lang, path, i)
    {
      translations := ExtractField(obj, lang, path, i, translations);
    }
  }

  /** The loop over a list's items. */
  method ExtractList(obj: Value, lang: string, path: string) returns (translations: seq<(string, string)>)
    requires obj.Arr?
    ensures translations == ExtractItems(obj, lang, path, |obj.items|)
    decreases obj, 1
  {
    translations := [];
    for i := 0 to |obj.items|
      invariant translations == ExtractItems(obj, lang, path, i)
    {
      translations := ExtractItem(obj, lang, path, i, translations);
    }
  }

  /** One item of the loop over a dict: its value's translations are spread in. */
  method ExtractField(obj: Value, lang: string, path: string, i: nat, gathered: seq<(string, string)>)
    returns (r: seq<(string, string)>)
    requires obj.Obj? && i < |obj.fields| && gathered == ExtractFields(obj, lang, path, i)
    ensures r == ExtractFields(obj, lang, path, i + 1)
    decreases obj, 0
  {
    var sub := ExtractTranslations(obj.fields[i].1, lang, ChildPath(path, obj.fields[i].0));
    r := Spread(gathered, sub);
  }

  /** One item of the loop over a list: its translations are spread in. */
  method ExtractItem(obj: Value, lang: string, path: string, i: nat, gathered: seq<(string, string)>)
    returns (r: seq<(string, string)>)
    requires obj.Arr? && i < |obj.items| && gathered == ExtractItems(obj, lang, path, i)
    ensures r == ExtractItems(obj, lang, path, i + 1)
    decreases obj, 0
  {
    var sub := ExtractTranslations(obj.items[i], lang, ItemPath(path, i));
    r := Spread(gathered, sub);
  }

  /** A key lies under `path`: it is `path` itself or starts with `path.`. */
  predicate Under(path: string, key: string)
  {
    key == path || IsPrefix(path + ".", key)
  }

  lemma UnderChild(path: string, k: string, key: string)
    requires path != "" && Under(path + "." + k, key)
    ensures Under(path, key)
  {
    var child := path + "." + k;
    if key != child {
      assert key[..|child| + 1] == child + ".";
      assert key[..|path| + 1] == (child + ".")[..|path| + 1];
    }
    assert child[..|path| + 1] == path + ".";
  }

  /** Every path extracted below a non-empty `path` lies under it; a value that is
      neither a dict nor a list contributes nothing. */
  lemma {:induction false} ExtractUnder(obj: Value, lang: string, path: string)
    requires path != ""
    ensures forall key :: key in Keys(Extract(obj, lang, path)) ==> Under(path, key)
    ensures !obj.Obj? && !obj.Arr? ==> Extract(obj, lang, path) == []
    decreases obj, 2
  {
    match obj
    case Obj(fields) =>
      if !IsLeaf(fields, lang) {
        FieldsUnder(obj, lang, path, |fields|);
      } else {
        assert Keys([(path, Field(fields, lang).s)]) == {path} by {
          assert [(path, Field(fields, lang).s)][0].0 == path;
        }
      }
    case Arr(items) => ItemsUnder(obj, lang, path, |items|);
    case _ =>
  }

  lemma {:induction false} FieldsUnder(obj: Value, lang: string, path: string, n: nat)
    requires path != "" && obj.Obj? && n <= |obj.fields|
    ensures forall key :: key in Keys(ExtractFields(obj, lang, path, n)) ==> Under(path, key)
    decreases obj, 1, n
  {
    if n > 0 {
      FieldsUnder(obj, lang, path, n - 1);
      FieldUnder(obj, lang, path, n);
    }
  }

  /** The `n`-th field adds only paths under `path`. */
  lemma FieldUnder(obj: Value, lang: string, path: string, n: nat)
    requires path != "" && obj.Obj? && 0 < n <= |obj.fields|
    requires forall key :: key in Keys(ExtractFields(obj, lang, path, n - 1)) ==> Under(path, key)
    ensures forall key :: key in Keys(ExtractFields(obj, lang, path, n)) ==> Under(path, key)
    decreases obj, 0, n
  {
    var (k, v) := obj.fields[n - 1];
    var child := Extract(v, lang, path + "." + k);
    assert ChildPath(path, k) == path + "." + k;
    assert v < obj by { assert obj.fields[n - 1] in obj.fields; }
    ExtractUnder(v, lang, path + "." + k);
    ChildUnder(path, k, child);
    SpreadUnder(ExtractFields(obj, lang, path, n - 1), child, path);
  }

  lemma {:induction false} ItemsUnder(obj: Value, lang: string, path: string, n: nat)
    requires path != "" && obj.Arr? && n <= |obj.items|
    ensures forall key :: key in Keys(ExtractItems(obj, lang, path, n)) ==> Under(path, key)
    decreases obj, 0, n
  {
    if n > 0 {
      ItemsUnder(obj, lang, path, n - 1);
      var child := Extract(obj.items[n - 1], lang, ItemPath(path, n - 1));
      ExtractUnder(obj.items[n - 1], lang, ItemPath(path, n - 1));
      ChildUnder(path, NatToString(n - 1), child);
      SpreadUnder(ExtractItems(obj, lang, path, n - 1), child, path);
    }
  }

  /** What lies under `path.k` lies under `path`. */
  lemma ChildUnder(path: string, k: string, child: seq<(string, string)>)
    requires path != "" && forall key :: key in Keys(child) ==> Under(path + "." + k, key)
    ensures forall key :: key in Keys(child) ==> Under(path, key)
  {
    forall key | key in Keys(child)
      ensures Under(path, key)
    {
      UnderChild(path, k, key);
    }
  }

  /** Spreading one list of paths under `path` into another keeps them all under it. */
  lemma SpreadUnder(a: seq<(string, string)>, b: seq<(string, string)>, path: string)
    requires forall key :: key in Keys(a) ==> Under(path, key)
    requires forall key :: key in Keys(b) ==> Under(path, key)
    ensures forall key :: key in Keys(Spread(a, b)) ==> Under(path, key)
  {
  }

  /** A translation record yields its own path and nothing from inside it; any
      other dict yields the union of its children, each under `path.k`. */
  lemma ExtractRecord(fields: Fields, lang: string, path: string, k: string, record: Fields)
    requires IsLeaf(record, lang) && fields == [(k, Obj(record))]
    ensures !IsLeaf(fields, lang)
    ensures Extract(Obj(fields), lang, path) == [(ChildPath(path, k), Field(record, lang).s)]
  {
    assert Keys(fields) == {k} by { assert fields[0].0 == k; }
    assert "he" != "en";
    assert !IsLeaf(fields, lang);
    var entry := [(ChildPath(path, k), Field(record, lang).s)];
    assert Extract(Obj(record), lang, ChildPath(path, k)) == entry;
    assert ExtractFields(Obj(fields), lang, path, 0) == [];
    assert Extract(Obj(fields), lang, path) == ExtractFields(Obj(fields), lang, path, 1);
    assert ExtractFields(Obj(fields), lang, path, 1) == Spread([], entry);
    assert Keys(entry) == {entry[0].0};
    assert LookupLast(entry, entry[0].0) == Some(entry[0].1);
    assert Spread([], entry) == Assign(Spread([], entry[..0]), entry[0].0, entry[0].1) by {
      assert entry == entry[..0] + [entry[0]];
    }
  }

  // ---------------------------------------------------------------------
  // Deep merge

  /** The loop of `merge_dicts(d1, d2)` over the first `n` items of `d2`. */
  function MergeUpTo(d1: Fields, d2: Value, n: nat): Fields
    requires d2.Obj? && n <= |d2.fields|
    decreases d2, 0, n
  {
    if n == 0 then d1
    else
      var d := MergeUpTo(d1, d2, n - 1);
      var k := d2.fields[n - 1].0;
      Assign(d, k, Merged(Lookup(d, k), d2.fields[n - 1].1))
  }

  /** `merge_dicts(d1, d2)`. */
  function MergeDicts(d1: Fields, d2: Fields): Fields
    decreases Obj(d2), 1
  {
    MergeUpTo(d1, Obj(d2), |d2|)
  }

  /** What `merge_dicts` leaves under a key of `d2`: a dict merged into a dict, else `d2`'s value. */
  function Merged(before: Option<Value>, v: Value): Value
    decreases v, 2
  {
    if v.Obj? && before.Some? && before.value.Obj? then Obj(MergeDicts(before.value.fields, v.fields)) else v
  }

  /** A Python dict has each key once. */
  predicate UniqueKeys(fields: Fields)
  {
    fields == [] || (UniqueKeys(fields[..|fields| - 1]) && fields[|fields| - 1].0 !in Keys(fields[..|fields| - 1]))
  }

  /** One item of the loop touches its own key only. */
  lemma MergeStepFrame(d1: Fields, d2: Fields, n: nat)
    requires 0 < n <= |d2|
    ensures var d := MergeUpTo(d1, Obj(d2), n - 1);
      var r := MergeUpTo(d1, Obj(d2), n);
      Keys(r) == Keys(d) + {d2[n - 1].0} && forall key :: key != d2[n - 1].0 ==> Lookup(r, key) == Lookup(d, key)
  {
  }

  /** What uniqueness of the first `m + 1` keys says about key `m`. */
  lemma KeyNotEarlier(d2: Fields, m: nat)
    requires m < |d2| && UniqueKeys(d2[..m + 1])
    ensures UniqueKeys(d2[..m]) && d2[m].0 !in Keys(d2[..m])
    ensures Keys(d2[..m + 1]) == Keys(d2[..m]) + {d2[m].0}
  {
    assert d2[..m + 1][..m] == d2[..m];
    assert d2[..m + 1] == d2[..m] + [d2[m]];
    KeysSnoc(d2[..m], d2[m]);
  }

  lemma {:induction false} UniqueDistinct(d2: Fields, i: nat, j: nat)
    requires UniqueKeys(d2) && i < j < |d2|
    ensures d2[i].0 != d2[j].0
  {
    var init := d2[..|d2| - 1];
    assert init[i] == d2[i];
    if j == |d2| - 1 {
      assert d2[i].0 in Keys(init);
    } else {
      assert init[j] == d2[j];
      UniqueDistinct(init, i, j);
    }
  }

  /** The loop's first `n` items touch only their own keys. */
  lemma {:induction false} MergeKeys(d1: Fields, d2: Fields, n: nat)
    requires n <= |d2| && UniqueKeys(d2[..n])
    ensures var r := MergeUpTo(d1, Obj(d2), n);
      Keys(r) == Keys(d1) + Keys(d2[..n])
      && forall k :: k !in Keys(d2[..n]) ==> Lookup(r, k) == Lookup(d1, k)
  {
    if n > 0 {
      KeyNotEarlier(d2, n - 1);
      MergeKeys(d1, d2, n - 1);
      MergeStepFrame(d1, d2, n);
    }
  }

  /** Item `i` of `d2` leaves its merged value, and later items do not touch it. */
  lemma {:induction false} MergeAt(d1: Fields, d2: Fields, n: nat, i: nat)
    requires i < n <= |d2| && UniqueKeys(d2[..n])
    ensures Lookup(MergeUpTo(d1, Obj(d2), n), d2[i].0) == Some(Merged(Lookup(d1, d2[i].0), d2[i].1))
  {
    var d := MergeUpTo(d1, Obj(d2), n - 1);
    if i == n - 1 {
      KeyNotEarlier(d2, n - 1);
      MergeKeys(d1, d2, n - 1);
      assert Lookup(d, d2[i].0) == Lookup(d1, d2[i].0);
    } else {
      KeyNotEarlier(d2, n - 1);
      MergeAt(d1, d2, n - 1, i);
      MergeStepFrame(d1, d2, n);
      assert d2[i].0 in Keys(d2[..n - 1]) by { assert d2[..n - 1][i] == d2[i]; }
      assert d2[i].0 != d2[n - 1].0;
    }
  }

  /** After `merge_dicts(d1, d2)` every key of either dict is present, keys only in
      `d1` keep their values, and each key of `d2` holds `d2`'s value, or the
      recursive merge when both sides are dicts. */
  lemma MergeDictsSpec(d1: Fields, d2: Fields)
    requires UniqueKeys(d2)
    ensures var r := MergeDicts(d1, d2);
      Keys(r) == Keys(d1) + Keys(d2)
      && (forall k :: k !in Keys(d2) ==> Lookup(r, k) == Lookup(d1, k))
      && (forall k :: k in Keys(d2) ==> Lookup(r, k) == Some(Merged(Lookup(d1, k), Lookup(d2, k).value)))
  {
    assert d2[..|d2|] == d2;
    MergeKeys(d1, d2, |d2|);
    forall k | k in Keys(d2)
      ensures Lookup(MergeDicts(d1, d2), k) == Some(Merged(Lookup(d1, k), Lookup(d2, k).value))
    {
      var i :| 0 <= i < |d2| && d2[i].0 == k;
      forall j | 0 <= j < i ensures d2[j].0 != k { UniqueDistinct(d2, j, i); }
      LookupAt(d2, i, k);
      MergeAt(d1, d2, |d2|, i);
    }
  }

  /** `merge_dicts`, which updates `d1` key by key and descends into nested dicts. */
  method MergeInto(d1: Fields, d2: Fields) returns (merged: Fields)
    ensures merged == MergeDicts(d1, d2)
    decreases Obj(d2), 1
  {
    merged := d1;
    for i := 0 to |d2|
      invariant merged == MergeUpTo(d1, Obj(d2), i)
    {
      merged := MergeItem(d1, d2, i, merged);
    }
  }

  /** One item of `merge_dicts`'s loop: a dict merged into a dict, else replaced. */
  method MergeItem(d1: Fields, d2: Fields, i: nat, merged: Fields) returns (r: Fields)
    requires i < |d2| && merged == MergeUpTo(d1, Obj(d2), i)
    ensures r == MergeUpTo(d1, Obj(d2), i + 1)
    decreases Obj(d2), 0
  {
    var (k, v) := d2[i];
    var before := Lookup(merged, k);
    if v.Obj? && before.Some? && before.value.Obj? {
      assert v < Obj(d2) by { assert d2[i] in d2; }
      var inner := MergeInto(before.value.fields, v.fields);
      r := Assign(merged, k, Obj(inner));
    } else {
      r := Assign(merged, k, v);
    }
  }

  // ---------------------------------------------------------------------
  // Re-nesting the flattened paths

  /** The walk down `parts`, creating or replacing non-dict intermediates with `{}`,
      then the assignment of the text at the last part. */
  function Nest(nested: Fields, parts: seq<string>, text: string): Fields
    requires |parts| >= 1
    decreases |parts|
  {
    if |parts| == 1 then Assign(nested, parts[0], Str(text))
    else
      var child := Field(nested, parts[0]);
      var inner := if parts[0] in Keys(nested) && child.Obj? then child.fields else [];
      Assign(nested, parts[0], Obj(Nest(inner, parts[1..], text)))
  }

  /** The value at a path of keys, descending through dicts. */
  function At(nested: Fields, parts: seq<string>): Option<Value>
    requires |parts| >= 1
    decreases |parts|
  {
    var v := Lookup(nested, parts[0]);
    if |parts| == 1 || v.None? then v
    else if v.value.Obj? then At(v.value.fields, parts[1..])
    else None
  }

  /** Nesting puts the text at its path, and leaves every other top-level key alone. */
  lemma {:induction false} NestPlaces(nested: Fields, parts: seq<string>, text: string)
    requires |parts| >= 1
    ensures At(Nest(nested, parts, text), parts) == Some(Str(text))
    ensures Keys(Nest(nested, parts, text)) == Keys(nested) + {parts[0]}
    ensures forall k :: k != parts[0] ==> Lookup(Nest(nested, parts, text), k) == Lookup(nested, k)
    decreases |parts|
  {
    if |parts| > 1 {
      var child := Field(nested, parts[0]);
      var inner := if parts[0] in Keys(nested) && child.Obj? then child.fields else [];
      NestPlaces(inner, parts[1..], text);
    }
  }

  /** The loop that turns the flattened translations into a nested dict. */
  function NestAll(flat: seq<(string, string)>): Fields
  {
    if flat == [] then []
    else Nest(NestAll(flat[..|flat| - 1]), Split(flat[|flat| - 1].0, '.'), flat[|flat| - 1].1)
  }

  method NestTranslations(flat: seq<(string, string)>) returns (nested: Fields)
    ensures nested == NestAll(flat)
  {
    nested := [];
    for i := 0 to |flat|
      invariant nested == NestAll(flat[..i])
    {
      assert flat[..i + 1][..i] == flat[..i];
      nested := Nest(nested, Split(flat[i].0, '.'), flat[i].1);
    }
    assert flat[..|flat|] == flat;
  }

  /** Two paths that part somewhere: neither is a prefix of the other. */
  predicate Diverge(p: seq<string>, q: seq<string>)
    decreases |p|
  {
    |p| >= 1 && |q| >= 1 && (p[0] != q[0] || Diverge(p[1..], q[1..]))
  }

  /** Nesting a text at `p` leaves the value at every path that parts from `p` alone. */
  lemma {:induction false} NestFrame(nested: Fields, p: seq<string>, text: string, q: seq<string>)
    requires Diverge(p, q)
    ensures At(Nest(nested, p, text), q) == At(nested, q)
    decreases |p|
  {
    NestPlaces(nested, p, text);
    if p[0] == q[0] {
      var child := Field(nested, p[0]);
      var inner := if p[0] in Keys(nested) && child.Obj? then child.fields else [];
      NestFrame(inner, p[1..], text, q[1..]);
      assert At(inner, q[1..]) == At(nested, q);
    } else {
      AtFirst(nested, Nest(nested, p, text), q);
    }
  }

  /** Every flattened key is found at its dotted path, unless a later key's path is
      a prefix of it or extends it (and so overwrites it). */
  lemma {:induction false} NestAllPlaces(flat: seq<(string, string)>, i: nat)
    requires i < |flat|
    requires forall j :: i < j < |flat| ==> Diverge(Split(flat[j].0, '.'), Split(flat[i].0, '.'))
    ensures At(NestAll(flat), Split(flat[i].0, '.')) == Some(Str(flat[i].1))
  {
    var last := |flat| - 1;
    var init := flat[..last];
    NestPlaces(NestAll(init), Split(flat[last].0, '.'), flat[last].1);
    if i < last {
      assert init[i] == flat[i];
      assert forall j :: i < j < |init| ==> init[j] == flat[j];
      NestAllPlaces(init, i);
      NestFrame(NestAll(init), Split(flat[last].0, '.'), flat[last].1, Split(flat[i].0, '.'));
    }
  }

  /** A path's value depends only on the entry under its first key. */
  lemma AtFirst(a: Fields, b: Fields, parts: seq<string>)
    requires |parts| >= 1 && Lookup(a, parts[0]) == Lookup(b, parts[0])
    ensures At(a, parts) == At(b, parts)
  {
  }
}

=== FILE: values.dfy ===
/** JavaScript/JSON values as the TypeScript and Python sources see them.

    Objects keep their keys in insertion order, as Python dicts do, because
    JSON.stringify output and dict iteration depend on it.  JavaScript objects
    differ for array-index keys such as "2" or "10": those come first, in
    ascending numeric order; the model does not reorder them.  Numbers are exact decimals (mantissa / 10^scale) plus NaN; the
    binary floating point of the originals is not modelled. */
module Values {

  datatype Option<+T> = None | Some(value: T)

  /** A number: NaN, or the exact decimal `mantissa / 10^scale`. */
  datatype Number = NaN | Dec(mantissa: int, scale: nat)

  datatype Value =
    | Undef
    | Null
    | Bool(b: bool)
    | Num(n: Number)
    | Str(s: string)
    | Arr(items: seq<Value>)
    | Obj(fields: seq<(string, Value)>)

  function Pow10(k: nat): (r: nat)
    ensures r >= 1
  {
    if k == 0 then 1 else 10 * Pow10(k - 1)
  }

  function Int(n: int): Number { Dec(n, 0) }

  /** Numeric equality (NaN equals nothing, as in IEEE 754). */
  predicate NumEq(a: Number, b: Number)
  {
    a.Dec? && b.Dec? && a.mantissa * Pow10(b.scale) == b.mantissa * Pow10(a.scale)
  }

  predicate NumLess(a: Number, b: Number)
    requires a.Dec? && b.Dec?
  {
    a.mantissa * Pow10(b.scale) < b.mantissa * Pow10(a.scale)
  }

  function NumMul(a: Number, k: nat): Number
  {
    match a
    case NaN => NaN
    case Dec(m, s) => Dec(m * k, s)
  }

  /** ECMAScript ToBoolean. */
  predicate Truthy(v: Value)
  {
    match v
    case Undef => false
    case Null => false
    case Bool(b) => b
    case Num(n) => n.Dec? && n.mantissa != 0
    case Str(s) => s != []
    case Arr(_) => true
    case Obj(_) => true
  }

  /** `a ?? b`: b when a is null or undefined. */
  function Coalesce(a: Value, b: Value): Value
  {
    if a.Undef? || a.Null? then b else a
  }

  // ---------------------------------------------------------------------
  // Ordered key/value fields (object literals, spreads, dict assignment)

  /** The own properties of an object, in insertion order. */
  type Fields = seq<(string, Value)>

  /** The value under the first occurrence of `k`. */
  function Lookup<V>(fields: seq<(string, V)>, k: string): (r: Option<V>)
    ensures r.Some? <==> k in Keys(fields)
  {
    if fields == [] then None
    else if fields[0].0 == k then Some(fields[0].1)
    else Lookup(fields[1..], k)
  }

  /** The first occurrence of `k` decides the lookup. */
  lemma {:induction false} LookupAt<V>(fields: seq<(string, V)>, i: nat, k: string)
    requires i < |fields| && fields[i].0 == k
    requires forall j :: 0 <= j < i ==> fields[j].0 != k
    ensures Lookup(fields, k) == Some(fields[i].1)
  {
    if i > 0 {
      LookupAt(fields[1..], i - 1, k);
    }
  }

  function Keys<V>(fields: seq<(string, V)>): set<string>
  {
    set i | 0 <= i < |fields| :: fields[i].0
  }

  /** `obj[k] = v`: replaces the first occurrence of `k` in place, or appends. */
  function Assign<V>(fields: seq<(string, V)>, k: string, v: V): (r: seq<(string, V)>)
    ensures Keys(r) == Keys(fields) + {k}
    ensures Lookup(r, k) == Some(v)
    ensures forall k' :: k' != k ==> Lookup(r, k') == Lookup(fields, k')
  {
    if fields == [] then
      KeysCons((k, v), []);
      [(k, v)]
    else if fields[0].0 == k then
      KeysCons((k, v), fields[1..]);
      KeysCons(fields[0], fields[1..]);
      assert fields == [fields[0]] + fields[1..];
      [(k, v)] + fields[1..]
    else
      var rest := Assign(fields[1..], k, v);
      assert Keys([fields[0]] + rest) == {fields[0].0} + Keys(rest) by {
        KeysCons(fields[0], rest);
      }
      assert Keys(fields) == {fields[0].0} + Keys(fields[1..]) by {
        KeysCons(fields[0], fields[1..]);
        assert fields == [fields[0]] + fields[1..];
      }
      [fields[0]] + rest
  }

  lemma KeysCons<V>(f: (string, V), rest: seq<(string, V)>)
    ensures Keys([f] + rest) == {f.0} + Keys(rest)
  {
    var s := [f] + rest;
    forall k | k in Keys(s) ensures k in {f.0} + Keys(rest) {
      var i :| 0 <= i < |s| && s[i].0 == k;
      if i > 0 { assert rest[i - 1].0 == k; }
    }
    forall k | k in Keys(rest) ensures k in Keys(s) {
      var i :| 0 <= i < |rest| && rest[i].0 == k;
      assert s[i + 1].0 == k;
    }
    assert s[0].0 == f.0;
  }

  /** `{...a, ...b}`: every key of `b` assigned into `a`, in order. */
  function Spread<V>(a: seq<(string, V)>, b: seq<(string, V)>): (r: seq<(string, V)>)
    ensures Keys(r) == Keys(a) + Keys(b)
    ensures forall k :: k in Keys(b) ==> Lookup(r, k) == LookupLast(b, k)
    ensures forall k :: k !in Keys(b) ==> Lookup(r, k) == Lookup(a, k)
    decreases |b|
  {
    if b == [] then a
    else
      var init, last := b[..|b| - 1], b[|b| - 1];
      assert b == init + [last];
      LookupLastSnoc(init, last);
      Assign(Spread(a, init), last.0, last.1)
  }

  /** The entry appended last is the one `LookupLast` finds for its key. */
  lemma LookupLastSnoc<V>(init: seq<(string, V)>, last: (string, V))
    ensures Keys(init + [last]) == Keys(init) + {last.0}
    ensures forall k :: LookupLast(init + [last], k) == if k == last.0 then Some(last.1) else LookupLast(init, k)
  {
    KeysSnoc(init, last);
    assert (init + [last])[..|init|] == init;
  }

  /** The value under the last occurrence of `k` (the one a spread keeps). */
  function LookupLast<V>(fields: seq<(string, V)>, k: string): (r: Option<V>)
    ensures r.Some? <==> k in Keys(fields)
    decreases |fields|
  {
    if fields == [] then None
    else if fields[|fields| - 1].0 == k then Some(fields[|fields| - 1].1)
    else
      KeysSnoc(fields[..|fields| - 1], fields[|fields| - 1]);
      assert fields == fields[..|fields| - 1] + [fields[|fields| - 1]];
      LookupLast(fields[..|fields| - 1], k)
  }

  lemma KeysSnoc<V>(rest: seq<(string, V)>, f: (string, V))
    ensures Keys(rest + [f]) == Keys(rest) + {f.0}
  {
    var s := rest + [f];
    forall k | k in Keys(s) ensures k in Keys(rest) + {f.0} {
      var i :| 0 <= i < |s| && s[i].0 == k;
      if i < |rest| { assert rest[i].0 == k; }
    }
    forall k | k in Keys(rest) ensures k in Keys(s) {
      var i :| 0 <= i < |rest| && rest[i].0 == k;
      assert s[i].0 == k;
    }
    assert s[|rest|].0 == f.0;
  }

  /** `obj[k]` on an object value, undefined when absent. */
  function Field(fields: seq<(string, Value)>, k: string): Value
  {
    match Lookup(fields, k)
    case Some(v) => v
    case None => Undef
  }

  // ---------------------------------------------------------------------
  // Characters and strings

  /** JavaScript WhiteSpace or LineTerminator: the `\s` class and what `trim` removes. */
  predicate IsSpace(c: char)
  {
    var n := c as int;
    n == 0x09 || n == 0x0B || n == 0x0C || n == 0x20 || n == 0xA0 || n == 0xFEFF
    || n == 0x1680 || (0x2000 <= n <= 0x200A) || n == 0x202F || n == 0x205F || n == 0x3000
    || IsLineTerminator(c)
  }

  /** The characters `.` does not match. */
  predicate IsLineTerminator(c: char)
  {
    var n := c as int;
    n == 0x0A || n == 0x0D || n == 0x2028 || n == 0x2029
  }

  predicate AllSpace(s: string)
  {
    forall i :: 0 <= i < |s| ==> IsSpace(s[i])
  }

  predicate IsDigit(c: char) { '0' <= c <= '9' }

  predicate AllDigits(s: string)
  {
    forall i :: 0 <= i < |s| ==> IsDigit(s[i])
  }

  /** Index of the first non-space character at or after `i`. */
  function SpaceEnd(s: string, i: nat): (j: nat)
    requires i <= |s|
    ensures i <= j <= |s| && AllSpace(s[i..j])
    ensures j == |s| || !IsSpace(s[j])
    decreases |s| - i
  {
    if i == |s| || !IsSpace(s[i]) then i else SpaceEnd(s, i + 1)
  }

  /** A run of spaces from `i` cannot reach past `SpaceEnd(s, i)`. */
  lemma {:induction false} SpaceRunWithin(s: string, i: nat, k: nat)
    requires i <= k <= |s| && AllSpace(s[i..k])
    ensures k <= SpaceEnd(s, i)
    decreases k - i
  {
    if i < k {
      assert IsSpace(s[i..k][0]);
      assert s[i + 1..k] == s[i..k][1..];
      SpaceRunWithin(s, i + 1, k);
    }
  }

  /** Index just past the last non-space character before `j`. */
  function SpaceStart(s: string, j: nat): (i: nat)
    requires j <= |s|
    ensures i <= j && AllSpace(s[i..j])
    ensures i == 0 || !IsSpace(s[i - 1])
  {
    if j == 0 || !IsSpace(s[j - 1]) then j
    else
      var i := SpaceStart(s, j - 1);
      assert s[i..j] == s[i..j - 1] + [s[j - 1]];
      i
  }

  /** `String.prototype.trim`. */
  function Trim(s: string): (t: string)
    ensures |t| <= |s|
    ensures t == [] || (!IsSpace(t[0]) && !IsSpace(t[|t| - 1]))
  {
    var a := SpaceEnd(s, 0);
    var b := SpaceStart(s, |s|);
    if b <= a then []
    else
      assert !IsSpace(s[a]) && !IsSpace(s[b - 1]);
      s[a..b]
  }

  lemma TrimNoSpace(s: string)
    requires s != [] && !IsSpace(s[0]) && !IsSpace(s[|s| - 1])
    ensures Trim(s) == s
  {
  }

  predicate IsPrefix(p: string, s: string) { |p| <= |s| && s[..|p|] == p }

  predicate ContainsAt(s: string, sub: string, i: nat)
  {
    i + |sub| <= |s| && s[i..i + |sub|] == sub
  }

  /** `s.includes(sub)`. */
  predicate Contains(s: string, sub: string)
  {
    exists i: nat :: i + |sub| <= |s| && ContainsAt(s, sub, i)
  }

  /** `toLowerCase` on the ASCII letters (other scripts are left as they are). */
  function Lower(s: string): (r: string)
    ensures |r| == |s|
  {
    seq(|s|, i requires 0 <= i < |s| => if 'A' <= s[i] <= 'Z' then (s[i] as int + 32) as char else s[i])
  }

  /** `s.split(c)` (JavaScript and Python agree for a one-character separator). */
  function Split(s: string, c: char): (parts: seq<string>)
    ensures |parts| >= 1
    ensures forall i :: 0 <= i < |parts| ==> c !in parts[i]
  {
    if s == [] then [""]
    else
      var rest := Split(s[1..], c);
      if s[0] == c then [""] + rest
      else [[s[0]] + rest[0]] + rest[1..]
  }

  /** `parts.join(c)`, the inverse of `Split`. */
  function Join(parts: seq<string>, c: char): string
  {
    if parts == [] then ""
    else if |parts| == 1 then parts[0]
    else parts[0] + [c] + Join(parts[1..], c)
  }

  lemma {:induction false} JoinSplit(s: string, c: char)
    ensures Join(Split(s, c), c) == s
  {
    if s != [] {
      JoinSplit(s[1..], c);
      var rest := Split(s[1..], c);
      if s[0] == c {
        assert Split(s, c) == [""] + rest;
        assert s == [c] + s[1..];
      } else {
        if |rest| == 1 {
          assert Join(rest, c) == rest[0];
        } else {
          assert Join(rest, c) == rest[0] + [c] + Join(rest[1..], c);
        }
        assert s == [s[0]] + s[1..];
      }
    }
  }

  // ---------------------------------------------------------------------
  // Decimal text

  function DigitChar(d: nat): char
    requires d < 10
  {
    ('0' as int + d) as char
  }

  function DigitValue(c: char): nat
    requires IsDigit(c)
  {
    c as int - '0' as int
  }

  /** Decimal digits of `n`, most significant first, without leading zeros. */
  function NatToString(n: nat): (s: string)
    ensures s != [] && AllDigits(s)
    ensures |s| > 1 ==> s[0] != '0'
    decreases n
  {
    if n < 10 then [DigitChar(n)] else NatToString(n / 10) + [DigitChar(n % 10)]
  }

  /** The value of a string of decimal digits. */
  function DigitsValue(s: string): nat
    requires AllDigits(s)
  {
    if s == [] then 0 else 10 * DigitsValue(s[..|s| - 1]) + DigitValue(s[|s| - 1])
  }

  lemma {:induction false} DigitsValueOfNatToString(n: nat)
    ensures DigitsValue(NatToString(n)) == n
  {
    var s := NatToString(n);
    if n >= 10 {
      DigitsValueOfNatToString(n / 10);
      assert s[..|s| - 1] == NatToString(n / 10);
    }
  }

  function IntToString(i: int): string
  {
    if i < 0 then "-" + NatToString(-i) else NatToString(i)
  }

  /** Leading zeros up to width `w`. */
  function PadZeros(s: string, w: nat): (r: string)
    ensures |r| >= w && |r| >= |s|
    decreases w - |s|
  {
    if |s| >= w then s else PadZeros("0" + s, w)
  }

  /** Removes trailing zeros of the fraction (`1.50` is printed as `1.5`). */
  function Normalize(n: Number): Number
    decreases if n.Dec? then n.scale else 0
  {
    if n.Dec? && n.scale > 0 && n.mantissa % 10 == 0 then Normalize(Dec(n.mantissa / 10, n.scale - 1))
    else n
  }

  function Abs(i: int): nat { if i < 0 then -i else i }

  /** `Number.prototype.toString` in plain decimal notation; NaN prints as `NaN`. */
  function NumberToString(n: Number): string
  {
    match Normalize(n)
    case NaN => "NaN"
    case Dec(m, s) => (if m < 0 then "-" else "") + DecimalText(Abs(m), s)
  }

  /** The digits of `a / 10^s`, with the last `s` digits after a point when `s > 0`. */
  function DecimalText(a: nat, s: nat): string
  {
    var t := PadZeros(NatToString(a), s + 1);
    if s == 0 then t else t[..|t| - s] + "." + t[|t| - s..]
  }

  // ---------------------------------------------------------------------
  // JSON.stringify

  function HexDigit(d: nat): char
    requires d < 16
  {
    if d < 10 then DigitChar(d) else ('a' as int + d - 10) as char
  }

  function EscapeChar(c: char): string
  {
    if c == '"' then "\\\""
    else if c == '\\' then "\\\\"
    else if c as int == 0x08 then "\\b"
    else if c as int == 0x0C then "\\f"
    else if c == '\n' then "\\n"
    else if c == '\r' then "\\r"
    else if c == '\t' then "\\t"
    else if (c as int) < 0x20 then "\\u00" + [HexDigit(c as int / 16), HexDigit(c as int % 16)]
    else [c]
  }

  function Escape(s: string): string
  {
    if s == [] then "" else EscapeChar(s[0]) + Escape(s[1..])
  }

  /** A JSON string literal. */
  function Quote(s: string): string
  {
    "\"" + Escape(s) + "\""
  }

  /** Characters that JSON.stringify leaves unescaped inside a string. */
  predicate PlainChar(c: char)
  {
    c != '"' && c != '\\' && (c as int) >= 0x20
  }

  lemma {:induction false} EscapePlain(s: string)
    requires forall i :: 0 <= i < |s| ==> PlainChar(s[i])
    ensures Escape(s) == s
  {
    if s != [] {
      EscapePlain(s[1..]);
      assert s == [s[0]] + s[1..];
    }
  }

  function JoinComma(parts: seq<string>): string
  {
    if parts == [] then ""
    else if |parts| == 1 then parts[0]
    else parts[0] + "," + JoinComma(parts[1..])
  }

  function Somes(parts: seq<Option<string>>): seq<string>
  {
    if parts == [] then []
    else (if parts[0].Some? then [parts[0].value] else []) + Somes(parts[1..])
  }

  /** JSON.stringify of a value nested in an array: undefined and NaN print as `null`. */
  function Json(v: Value): string
    decreases v
  {
    match v
    case Undef => "null"
    case Null => "null"
    case Bool(b) => if b then "true" else "false"
    case Num(n) => if n.NaN? then "null" else NumberToString(n)
    case Str(s) => Quote(s)
    case Arr(items) =>
      "[" + JoinComma(seq(|items|, i requires 0 <= i < |items| => Json(items[i]))) + "]"
    case Obj(fields) =>
      "{" + JoinComma(Somes(seq(|fields|, i requires 0 <= i < |fields| =>
        if fields[i].1.Undef? then None else Some(Quote(fields[i].0) + ":" + Json(fields[i].1))))) + "}"
  }

  /** `String(JSON.stringify(v))` for a top-level value: undefined gives the text `undefined`. */
  function StringifyText(v: Value): string
  {
    if v.Undef? then "undefined" else Json(v)
  }
}

=== FILE: workspace_auth.dfy ===
/** Resolving the workspace of an authenticated API caller: the caller's user id is
    checked to be a canonical RFC 4122 UUID before the membership table is asked for
    the caller's earliest workspace. */
module WorkspaceAuth {
  import opened Values

  /** The parts of the authenticated user the resolver reads. */
  datatype User = User(id: Option<string>, sub: Option<string>)

  /** A row of the `workspace_members` table. */
  datatype MemberRow = MemberRow(userId: string, workspaceId: Option<string>, createdAt: int)

  /** What the resolver ends with: a workspace id, or an HTTP error. */
  datatype Outcome = Resolved(workspaceId: string) | Failed(status: nat, message: string)

  /** The outcome, and the user id the membership query was made for, if it was made. */
  datatype Resolution = Resolution(outcome: Outcome, queried: Option<string>)

  const Unauthorized := "Unauthorized"
  const Forbidden := "Forbidden: Missing workspace membership"

  // ---------------------------------------------------------------------
  // The user id

  /** `(user.id || user.sub)?.trim()`: an empty id gives way to the subject. */
  function NormalizedUserId(user: User): (r: Option<string>)
    ensures user.id.Some? && user.id.value != "" ==> r == Some(Trim(user.id.value))
    ensures (user.id.None? || user.id.value == "") && user.sub.Some? ==> r == Some(Trim(user.sub.value))
    ensures (user.id.None? || user.id.value == "") && user.sub.None? ==> r.None?
  {
    if user.id.Some? && user.id.value != "" then Some(Trim(user.id.value))
    else if user.sub.Some? then Some(Trim(user.sub.value))
    else None
  }

  predicate IsHex(c: char)
  {
    '0' <= c <= '9' || 'a' <= c <= 'f' || 'A' <= c <= 'F'
  }

  /** What the pattern admits at position `i` of a 36-character id: hyphens between
      the groups, the version digit 1-5 opening the third group, the variant digit
      8, 9, a or b opening the fourth, and hexadecimal digits elsewhere, in either case. */
  predicate UuidChar(i: nat, c: char)
  {
    if i == 8 || i == 13 || i == 18 || i == 23 then c == '-'
    else if i == 14 then '1' <= c <= '5'
    else if i == 19 then c in {'8', '9', 'a', 'b', 'A', 'B'}
    else IsHex(c)
  }

  /** The case-insensitive pattern
      `[0-9a-f]{8}-[0-9a-f]{4}-[1-5][0-9a-f]{3}-[89ab][0-9a-f]{3}-[0-9a-f]{12}`,
      anchored at both ends. */
  predicate IsUuid(s: string)
  {
    |s| == 36 && forall i :: 0 <= i < 36 ==> UuidChar(i, s[i])
  }

  /** `isValidUserId`. */
  predicate IsValidUserId(id: Option<string>)
  {
    id.Some? && id.value != "" && id.value != "undefined" && IsUuid(id.value)
  }

  /** The explicit checks for the empty string and `'undefined'` reject nothing the
      pattern accepts: validity is the pattern alone. */
  lemma ValidIsUuid(id: Option<string>)
    ensures IsValidUserId(id) <==> id.Some? && IsUuid(id.value)
  {
    if id.Some? && IsUuid(id.value) {
      assert |id.value| == 36 && |"undefined"| == 9;
    }
  }

  /** The pattern ignores case. */
  lemma UuidIgnoresCase(s: string)
    ensures IsUuid(s) <==> IsUuid(Lower(s))
  {
    var t := Lower(s);
    if |s| == 36 {
      forall i | 0 <= i < 36 ensures UuidChar(i, s[i]) <==> UuidChar(i, t[i]) {
        assert t[i] == if 'A' <= s[i] <= 'Z' then (s[i] as int + 32) as char else s[i];
      }
    }
  }

  // ---------------------------------------------------------------------
  // The canonical text of a 16-byte UUID (RFC 4122, section 3)

  /** Two lower-case hexadecimal digits per byte. */
  function HexBytes(bytes: seq<nat>): (r: string)
    requires forall i :: 0 <= i < |bytes| ==> bytes[i] < 256
    ensures |r| == 2 * |bytes|
  {
    if bytes == [] then []
    else [HexDigit(bytes[0] / 16), HexDigit(bytes[0] % 16)] + HexBytes(bytes[1..])
  }

  /** Byte `k` becomes the digits at `2 * k` (high nibble) and `2 * k + 1` (low nibble). */
  lemma {:induction false} HexBytesAt(bytes: seq<nat>, k: nat)
    requires forall i :: 0 <= i < |bytes| ==> bytes[i] < 256
    requires k < |bytes|
    ensures HexBytes(bytes)[2 * k] == HexDigit(bytes[k] / 16)
    ensures HexBytes(bytes)[2 * k + 1] == HexDigit(bytes[k] % 16)
  {
    if k > 0 {
      HexBytesAt(bytes[1..], k - 1);
      assert bytes[1..][k - 1] == bytes[k];
    }
  }

  /** The 8-4-4-4-12 text of sixteen bytes. */
  function Format(bytes: seq<nat>): (r: string)
    requires |bytes| == 16 && forall i :: 0 <= i < 16 ==> bytes[i] < 256
  {
    HexBytes(bytes[0..4]) + "-" + HexBytes(bytes[4..6]) + "-" + HexBytes(bytes[6..8]) + "-"
    + HexBytes(bytes[8..10]) + "-" + HexBytes(bytes[10..16])
  }

  lemma HexDigitIsHex(d: nat)
    requires d < 16
    ensures IsHex(HexDigit(d))
    ensures '1' <= HexDigit(d) <= '5' <==> 1 <= d <= 5
    ensures HexDigit(d) in {'8', '9', 'a', 'b', 'A', 'B'} <==> 8 <= d <= 11
  {
  }

  lemma {:induction false} HexBytesAreHex(bytes: seq<nat>)
    requires forall i :: 0 <= i < |bytes| ==> bytes[i] < 256
    ensures forall k :: 0 <= k < |HexBytes(bytes)| ==> IsHex(HexBytes(bytes)[k])
  {
    if bytes != [] {
      HexBytesAreHex(bytes[1..]);
      HexDigitIsHex(bytes[0] / 16);
      HexDigitIsHex(bytes[0] % 16);
      assert HexBytes(bytes) == [HexDigit(bytes[0] / 16), HexDigit(bytes[0] % 16)] + HexBytes(bytes[1..]);
    }
  }

  /** Where the hyphens, the version digit and the variant digit of the text sit. */
  lemma FormatChars(bytes: seq<nat>)
    requires |bytes| == 16 && forall i :: 0 <= i < 16 ==> bytes[i] < 256
    ensures var s := Format(bytes);
      && |s| == 36
      && s[8] == '-' && s[13] == '-' && s[18] == '-' && s[23] == '-'
      && s[14] == HexDigit(bytes[6] / 16) && s[19] == HexDigit(bytes[8] / 16)
      && forall i :: 0 <= i < 36 && i !in {8, 13, 18, 23} ==> IsHex(s[i])
  {
    var s := Format(bytes);
    var g0, g1, g2 := HexBytes(bytes[0..4]), HexBytes(bytes[4..6]), HexBytes(bytes[6..8]);
    var g3, g4 := HexBytes(bytes[8..10]), HexBytes(bytes[10..16]);
    HexBytesAreHex(bytes[0..4]);
    HexBytesAreHex(bytes[4..6]);
    HexBytesAreHex(bytes[6..8]);
    HexBytesAreHex(bytes[8..10]);
    HexBytesAreHex(bytes[10..16]);
    assert s == g0 + "-" + g1 + "-" + g2 + "-" + g3 + "-" + g4;
    forall i | 0 <= i < 36 && i !in {8, 13, 18, 23} ensures IsHex(s[i]) {
      if i < 8 { assert s[i] == g0[i]; }
      else if i < 13 { assert s[i] == g1[i - 9]; }
      else if i < 18 { assert s[i] == g2[i - 14]; }
      else if i < 23 { assert s[i] == g3[i - 19]; }
      else { assert s[i] == g4[i - 24]; }
    }
    HexBytesAt(bytes[6..8], 0);
    HexBytesAt(bytes[8..10], 0);
    assert s[14] == g2[0] && s[19] == g3[0];
  }

  /** The text of sixteen bytes passes the check exactly when the version (the high
      nibble of byte 6) is 1 to 5 and the variant (the top two bits of byte 8) is
      binary 10, as sections 4.1.1 and 4.1.3 of RFC 4122 lay them out. */
  lemma FormatValid(bytes: seq<nat>)
    requires |bytes| == 16 && forall i :: 0 <= i < 16 ==> bytes[i] < 256
    ensures IsUuid(Format(bytes)) <==> 1 <= bytes[6] / 16 <= 5 && bytes[8] / 64 == 2
  {
    FormatChars(bytes);
    HexDigitIsHex(bytes[6] / 16);
    HexDigitIsHex(bytes[8] / 16);
    assert 8 <= bytes[8] / 16 <= 11 <==> bytes[8] / 64 == 2;
  }

  // ---------------------------------------------------------------------
  // The membership query and the outcome

  /** `.eq('user_id', id).order('created_at', { ascending: true }).limit(1)`: the
      user's earliest row.  The database leaves the choice among rows created at the
      same time open; the model takes the first in the table. */
  function Earliest(rows: seq<MemberRow>, userId: string): (r: Option<MemberRow>)
    ensures r.Some? <==> exists i :: 0 <= i < |rows| && rows[i].userId == userId
    ensures r.Some? ==> r.value in rows && r.value.userId == userId
    ensures r.Some? ==> forall i :: 0 <= i < |rows| && rows[i].userId == userId ==> r.value.createdAt <= rows[i].createdAt
  {
    if rows == [] then None
    else
      var rest := Earliest(rows[1..], userId);
      assert forall i :: 1 <= i < |rows| ==> rows[i] == rows[1..][i - 1];
      if rows[0].userId != userId then rest
      else if rest.None? || rows[0].createdAt <= rest.value.createdAt then Some(rows[0])
      else rest
  }

  /** Row `i` is created no later than any row of the user, and strictly before
      every earlier row of theirs in the table. */
  predicate FirstEarliest(rows: seq<MemberRow>, userId: string, i: nat)
    requires i < |rows|
  {
    && (forall j :: 0 <= j < |rows| && rows[j].userId == userId ==> rows[i].createdAt <= rows[j].createdAt)
    && (forall j :: 0 <= j < i && rows[j].userId == userId ==> rows[i].createdAt < rows[j].createdAt)
  }

  /** Among rows created at the same time the model keeps the first in the table
      (a choice of the model: the database's order among them is unspecified). */
  lemma {:induction false} EarliestAt(rows: seq<MemberRow>, userId: string, i: nat)
    requires i < |rows| && rows[i].userId == userId && FirstEarliest(rows, userId, i)
    ensures Earliest(rows, userId) == Some(rows[i])
  {
    var rest := Earliest(rows[1..], userId);
    if i == 0 {
      if rest.Some? {
        var k :| 0 <= k < |rows[1..]| && rows[1..][k] == rest.value;
        assert rows[k + 1] == rest.value;
      }
    } else {
      assert FirstEarliest(rows[1..], userId, i - 1) by {
        forall j | 0 <= j < |rows[1..]| && rows[1..][j].userId == userId
          ensures rows[1..][i - 1].createdAt <= rows[1..][j].createdAt
        {
          assert rows[1..][j] == rows[j + 1];
        }
        forall j | 0 <= j < i - 1 && rows[1..][j].userId == userId
          ensures rows[1..][i - 1].createdAt < rows[1..][j].createdAt
        {
          assert rows[1..][j] == rows[j + 1];
        }
      }
      EarliestAt(rows[1..], userId, i - 1);
    }
  }

  /** `resolveWorkspaceId`: an invalid user id fails with 401 before the table is
      queried; a query error fails with 500; no earliest row, or one without a
      workspace id, fails with 403; otherwise that row's workspace id. */
  function ResolveWorkspaceId(user: User, rows: seq<MemberRow>, queryError: Option<string>): (r: Resolution)
    ensures var id := NormalizedUserId(user);
      && (r.queried.None? <==> !IsValidUserId(id))
      && (!IsValidUserId(id) ==> r.outcome == Failed(401, Unauthorized))
      && (IsValidUserId(id) ==> r.queried == id)
      && (IsValidUserId(id) && queryError.Some? ==> r.outcome == Failed(500, queryError.value))
    ensures r.outcome.Resolved? ==>
      r.queried.Some? && r.outcome.workspaceId != ""
      && exists i :: (0 <= i < |rows| && rows[i].userId == r.queried.value
                      && rows[i].workspaceId == Some(r.outcome.workspaceId)
                      && forall j :: 0 <= j < |rows| && rows[j].userId == r.queried.value ==> rows[i].createdAt <= rows[j].createdAt)
    ensures var id := NormalizedUserId(user);
      IsValidUserId(id) && queryError.None? ==>
        var row := Earliest(rows, id.value);
        if row.Some? && row.value.workspaceId.Some? && row.value.workspaceId.value != "" then
          r.outcome == Resolved(row.value.workspaceId.value)
        else r.outcome == Failed(403, Forbidden)
    ensures r.outcome.Failed? ==> r.outcome.status in {401, 403, 500}
  {
    var id := NormalizedUserId(user);
    if !IsValidUserId(id) then Resolution(Failed(401, Unauthorized), None)
    else if queryError.Some? then Resolution(Failed(500, queryError.value), id)
    else
      var row := Earliest(rows, id.value);
      if row.None? || row.value.workspaceId.None? || row.value.workspaceId.value == "" then
        Resolution(Failed(403, Forbidden), id)
      else
        Resolution(Resolved(row.value.workspaceId.value), id)
  }

  /** A caller with a valid id and at least one membership with a workspace id, none
      of them created before another row of theirs, is resolved; without any row
      they are forbidden. */
  lemma MembersResolve(user: User, rows: seq<MemberRow>)
    requires IsValidUserId(NormalizedUserId(user))
    ensures var id := NormalizedUserId(user).value;
      forall i :: 0 <= i < |rows| && rows[i].userId == id && FirstEarliest(rows, id, i) ==>
        ResolveWorkspaceId(user, rows, None).outcome
          == if rows[i].workspaceId.Some? && rows[i].workspaceId.value != "" then Resolved(rows[i].workspaceId.value)
             else Failed(403, Forbidden)
    ensures var id := NormalizedUserId(user).value;
      (forall i :: 0 <= i < |rows| && rows[i].userId == id ==> rows[i].workspaceId.Some? && rows[i].workspaceId.value != "")
      && (exists i :: 0 <= i < |rows| && rows[i].userId == id)
      ==> ResolveWorkspaceId(user, rows, None).outcome.Resolved?
    ensures var id := NormalizedUserId(user).value;
      (forall i :: 0 <= i < |rows| ==> rows[i].userId != id)
      ==> ResolveWorkspaceId(user, rows, None).outcome == Failed(403, Forbidden)
  {
    var id := NormalizedUserId(user).value;
    forall i | 0 <= i < |rows| && rows[i].userId == id && FirstEarliest(rows, id, i)
      ensures Earliest(rows, id) == Some(rows[i])
    {
      EarliestAt(rows, id, i);
    }
    var row := Earliest(rows, id);
    if row.Some? {
      var k :| 0 <= k < |rows| && rows[k] == row.value;
    }
  }

  /** Surrounding white space and upper-case letters in the caller's id do not change
      whether it is accepted: a non-empty id is accepted exactly when, trimmed and
      lower-cased, it is a UUID. */
  lemma NormalizationAccepts(user: User, id: string)
    requires user.id == Some(id) && id != ""
    ensures IsValidUserId(NormalizedUserId(user)) <==> IsUuid(Lower(Trim(id)))
  {
    UuidIgnoresCase(Trim(id));
    ValidIsUuid(NormalizedUserId(user));
  }
}

=== FILE: workspace_store.dfy ===
/** The workspace store: the signed-in user's workspace memberships, the active
    workspace among them and the role it grants. */
module WorkspaceStore {
  import opened Values

  /** A membership row; the joined workspace record only matters when switching
      the locale, which is not modelled. */
  datatype Membership = Membership(workspaceId: string, role: string)

  /** The parts of an authenticated user the store reads. */
  datatype AuthUser = AuthUser(id: Option<string>, sub: Option<string>)

  /** What the membership query returns: an error message, or the rows ordered by
      creation time. */
  datatype QueryResult = QueryFailed(message: string) | Rows(rows: seq<Membership>)

  const NoUser := "User not available for fetching memberships."
  const NoUserId := "User id not available for fetching memberships."

  /** `user?.id ?? user?.sub`: the subject only stands in for a missing id, not an empty one. */
  function UserId(user: AuthUser): (r: Option<string>)
    ensures user.id.Some? ==> r == user.id
    ensures user.id.None? ==> r == user.sub
  {
    if user.id.Some? then user.id else user.sub
  }

  predicate Given(s: Option<string>)
  {
    s.Some? && s.value != ""
  }

  // ---------------------------------------------------------------------
  // Getters

  /** `hasWorkspace`. */
  function HasWorkspace(active: Option<string>): (r: bool)
    ensures r <==> active.Some? && active.value != ""
  {
    Given(active)
  }

  predicate IsMember(memberships: seq<Membership>, id: string)
  {
    exists i :: 0 <= i < |memberships| && memberships[i].workspaceId == id
  }

  /** `activeMembership`: the first membership of the active workspace; with no
      active workspace there is none, as no id equals `null`. */
  function ActiveMembership(memberships: seq<Membership>, active: Option<string>): (r: Option<Membership>)
    ensures r.Some? <==> active.Some? && IsMember(memberships, active.value)
    ensures r.Some? ==> r.value.workspaceId == active.value
    ensures r.Some? ==> exists i :: (0 <= i < |memberships| && memberships[i] == r.value
                                     && forall j :: 0 <= j < i ==> memberships[j].workspaceId != active.value)
  {
    if active.None? || memberships == [] then None
    else if memberships[0].workspaceId == active.value then Some(memberships[0])
    else
      var r := ActiveMembership(memberships[1..], active);
      assert forall i :: 0 < i < |memberships| ==> memberships[i] == memberships[1..][i - 1];
      if r.Some? then
        var i :| 0 <= i < |memberships[1..]| && memberships[1..][i] == r.value
          && forall j :: 0 <= j < i ==> memberships[1..][j].workspaceId != active.value;
        assert memberships[i + 1] == r.value;
        r
      else r
  }

  /** `activeRole`: the role of the active membership. */
  function ActiveRole(memberships: seq<Membership>, active: Option<string>): (r: Option<string>)
    ensures r.Some? <==> active.Some? && IsMember(memberships, active.value)
    ensures r.Some? ==> exists i :: (0 <= i < |memberships| && memberships[i].workspaceId == active.value
                                     && memberships[i].role == r.value)
  {
    var m := ActiveMembership(memberships, active);
    if m.Some? then Some(m.value.role) else None
  }

  /** `isOwnerOrAdmin`. */
  function IsOwnerOrAdmin(memberships: seq<Membership>, active: Option<string>): (r: bool)
    ensures r <==> ActiveRole(memberships, active) in {Some("owner"), Some("admin")}
    ensures r ==> active.Some? && IsMember(memberships, active.value)
  {
    var role := ActiveRole(memberships, active);
    role == Some("owner") || role == Some("admin")
  }

  // ---------------------------------------------------------------------
  // The reselection rule of `bootstrap`

  /** The active workspace after `bootstrap`: kept when it is set and among the
      memberships, else the first membership's workspace, else none. */
  function Reselect(active: Option<string>, memberships: seq<Membership>): (r: Option<string>)
    ensures r.None? || (r.value != "" && IsMember(memberships, r.value))
    ensures Given(active) && IsMember(memberships, active.value) ==> r == active
    ensures |memberships| > 0 && memberships[0].workspaceId != "" ==> r.Some?
    ensures memberships == [] ==> r.None?
  {
    if Given(active) && IsMember(memberships, active.value) then active
    else if |memberships| > 0 && memberships[0].workspaceId != "" then Some(memberships[0].workspaceId)
    else None
  }

  /** Reselecting again changes nothing. */
  lemma ReselectIdempotent(active: Option<string>, memberships: seq<Membership>)
    ensures Reselect(Reselect(active, memberships), memberships) == Reselect(active, memberships)
  {
  }

  /** After reselection the store has a workspace and a role exactly when the result
      is a membership; in particular whenever the first membership names one. */
  lemma ReselectHasRole(active: Option<string>, memberships: seq<Membership>)
    ensures var r := Reselect(active, memberships);
      (HasWorkspace(r) <==> r.Some?) && (ActiveRole(memberships, r).Some? <==> r.Some?)
  {
  }

  // ---------------------------------------------------------------------
  // The store

  class WorkspaceStore {
    var activeWorkspaceId: Option<string>
    var memberships: seq<Membership>
    var loading: bool
    var error: Option<string>

    /** The store starts from what local storage holds for the two persisted fields. */
    constructor (storedId: Option<string>, storedMemberships: seq<Membership>)
      ensures activeWorkspaceId == storedId && memberships == storedMemberships
      ensures !loading && error.None?
    {
      activeWorkspaceId := storedId;
      memberships := storedMemberships;
      loading := false;
      error := None;
    }

    /** `clear`. */
    method Clear()
      modifies this
      ensures activeWorkspaceId.None? && memberships == [] && error.None? && !loading
    {
      activeWorkspaceId := None;
      memberships := [];
      error := None;
      loading := false;
    }

    /** `fetchMemberships`: the session user stands in for a missing argument; with
        no user, or a user without an id, no query is made and the memberships are
        emptied.  `queried` is the user id the query is made for. */
    method FetchMemberships(user: Option<AuthUser>, sessionUser: Option<AuthUser>, result: QueryResult)
      returns (queried: Option<string>)
      modifies this
      ensures var effective := if user.Some? then user else sessionUser;
        && (effective.None? ==> memberships == [] && error == Some(NoUser) && queried.None?)
        && (effective.Some? && !Given(UserId(effective.value)) ==>
              memberships == [] && error == Some(NoUserId) && queried.None?)
        && (effective.Some? && Given(UserId(effective.value)) ==>
              queried == UserId(effective.value)
              && (result.QueryFailed? ==> memberships == [] && error == Some(result.message))
              && (result.Rows? ==> memberships == result.rows && error.None?))
      ensures !loading && activeWorkspaceId == old(activeWorkspaceId)
    {
      loading := true;
      error := None;
      var effective := user;
      if effective.None? {
        effective := sessionUser;
      }
      if effective.None? {
        memberships := [];
        loading := false;
        error := Some(NoUser);
        return None;
      }
      var id := UserId(effective.value);
      if !Given(id) {
        memberships := [];
        loading := false;
        error := Some(NoUserId);
        return None;
      }
      queried := id;
      match result {
        case QueryFailed(message) =>
          error := Some(message);
          memberships := [];
        case Rows(rows) =>
          memberships := rows;
      }
      loading := false;
    }

    /** `bootstrap`: with no user the store is cleared; otherwise the memberships are
        fetched and the active workspace reselected, so that it is none or one of
        the user's workspaces. */
    method Bootstrap(user: Option<AuthUser>, sessionUser: Option<AuthUser>, result: QueryResult)
      returns (queried: Option<string>)
      modifies this
      ensures var current := if user.Some? then user else sessionUser;
        && (current.None? ==> activeWorkspaceId.None? && memberships == [] && error.None? && queried.None?)
        && (current.Some? && !Given(UserId(current.value)) ==>
              memberships == [] && error == Some(NoUserId) && queried.None?)
        && (current.Some? && Given(UserId(current.value)) ==>
              queried == UserId(current.value)
              && (result.QueryFailed? ==> memberships == [] && error == Some(result.message))
              && (result.Rows? ==> memberships == result.rows && error.None?))
        && (current.Some? ==> activeWorkspaceId == Reselect(old(activeWorkspaceId), memberships))
      ensures activeWorkspaceId.None? || (activeWorkspaceId.value != "" && IsMember(memberships, activeWorkspaceId.value))
      ensures !loading
    {
      loading := true;
      error := None;
      var current := user;
      if current.None? {
        current := sessionUser;
      }
      if current.None? {
        Clear();
        loading := false;
        return None;
      }
      queried := FetchMemberships(current, sessionUser, result);
      if !Given(activeWorkspaceId) || !IsMember(memberships, activeWorkspaceId.value) {
        activeWorkspaceId := if |memberships| > 0 && memberships[0].workspaceId != "" then Some(memberships[0].workspaceId) else None;
      }
      loading := false;
    }
  }
}
